=== FILE: README.md ===
# Stor-gaming store bot, modelled in Dafny

The Stor-gaming bot is a Telegram shop. It runs as one Python program, `main.py`, on one SQLite database.
Users browse categories and products and buy with a credit balance. They top that balance up by asking
for a deposit in cash, which the operator then confirms or rejects. The operator manages the catalog,
the balances, the bans and the welcome text. The operator does this through slash commands, and also
through "pending actions": a per-user `awaiting_*_{uid}` row in the `settings` table makes the
catch-all text handler read that user's next message as the input of one flow.

This project models that core as pure state transitions over one immutable value:

- `store.dfy` (module `Store`) holds the database as one `Store` value.
  - `users`, `categories`, `products` and `deposits` are maps keyed by id.
  - `settings` maps strings to strings.
  - `buttons` and `orders` are append-only sequences.
  - Each AUTOINCREMENT table that is looked up by id carries its next id.
  - `Fits64` is SQLite's signed 64-bit integer range. Python's `sqlite3` raises when it binds an `int` outside that range.
    - The model's ids and credits are unbounded.
    - Every handler that binds a typed-in id or a computed credit count takes the path the source takes when the binding raises.
  - Every reply a handler can give is a `Reply` tag.
- `text.dfy` (modules `Wrappers`, `Text`) holds the Python string functions the handlers apply to chat text.
  - `strip`, `split('|')`, `split()`, `split(None, 1)`, `replace` and `lower`.
  - `str(int)`, and `int()` and `float()` as partial parsers over ASCII decimal text.
- `settings.dfy` (module `Settings`) covers `get_setting`, `set_setting`, the start-up defaults,
  `/setrate`, and the per-flow flag keys.
- `catalog.dfy` (module `Catalog`) covers the category and product CRUD helpers, the `(pos, id)` listing order,
  the add-category, add-product and add-button flows, and `/addcat` and `/addprod`.
- `ledger.dfy` (module `Ledger`) covers the user primitives, the `buy:` callback, the deposit-amount flow,
  `/confirm_deposit` and `/reject_deposit`, and the operator's balance and ban flows.
- `dispatch.dfy` (module `Dispatch`) covers `message_handler`.
  - `/cancel`.
  - The fixed order in which the eight flows are tried.
  - The broadcast count.
  - The frame properties of one message.

Every handler is a function `Store × input → Step(store, reply)`.

Three parameters stand in for things the source gets from outside:

- `admin`: the operator's id, `ADMIN_ID`.
- `now`: `int(time.time())`.
- `delivered`: the set of users a broadcast reaches.

Balances, prices and amounts are exact `real`s. Credits are `int`.

## Model

| member | source | states |
|---|---|---|
| `Store.EmptyStore` | main.py:57-122 | The freshly created database is valid (every id below its counter) and orphan-free, with no users, no orders and no deposits. |
| `Text.Trim` | main.py:503 | `strip()` returns a slice of the text with only whitespace outside it and no whitespace at either end. That determines it: the text from its first to its last non-whitespace character, or empty when there is none. |
| `Text.TrimKeeps` | main.py:585 | Text that neither starts nor ends with whitespace is left as it is by `strip()`. |
| `Text.TrimMoves` | main.py:629 | Text that starts or ends with whitespace is changed by `strip()`. |
| `Text.TrimIdempotent` | main.py:610 | Stripping twice is the same as stripping once. |
| `Text.Split` | main.py:585 | Splitting on the bar returns at least one part, no part holds the separator, and joining the parts with the separator gives the text back. |
| `Text.SplitJoin` | main.py:629 | Splitting a bar-join of separator-free parts gives exactly those parts back. |
| `Text.Fields` | main.py:610 | The field list has one entry per bar-separated part, each of them the part stripped. |
| `Text.Words` | main.py:546 | Every piece `split()` returns is non-empty and holds no whitespace, and there are no pieces exactly when the text is all whitespace. |
| `Text.WordsUnwords` | main.py:703 | Splitting words joined by single spaces gives the same words back. |
| `Text.SplitFirstWord` | main.py:798 | `split(None, 1)` has at most two pieces; the first is the first word; there is a second exactly when the text has at least two words. The second piece is a suffix of the text, starts with no whitespace, and holds exactly the remaining words. |
| `Text.Replace` | main.py:590 | `replace(",", ".")` keeps the length and changes exactly the commas. |
| `Text.Remove` | main.py:664 | `replace(",", "")` leaves no comma and keeps every other character the same number of times. |
| `Text.RemoveAppend` | main.py:664 | Removing from a concatenation is removing from each half and concatenating, so the kept characters stay in their order. |
| `Text.RemoveChar` | main.py:664 | On one character, removal drops it exactly when it is the removed character. |
| `Text.Lower` | main.py:506 | `lower()` keeps the length, turns each ASCII capital into the same letter in lower case, and keeps every other character in place. |
| `Text.RemoveAbsent` | main.py:664 | Removing a character the text does not hold gives the text back. |
| `Text.IntToString` | main.py:509 | `str(n)` is non-empty, holds no whitespace, and is the decimal digits of n, with a leading minus when n is negative. |
| `Text.ParseIntToString` | main.py:708 | `int(str(n)) == n`. |
| `Text.IntToStringInjective` | main.py:509 | Different numbers print differently. |
| `Text.ParseInt` | main.py:550 | `int()` accepts only text that, once stripped, is an optional sign followed by at least one digit and nothing else, so text like `12a`, `1 2`, `+` or `--1` is refused. |
| `Text.ParseIntAccepts` | main.py:550 | Conversely, `int()` accepts every such text. |
| `Text.ParseIntReads` | main.py:550 | A plain digit string is read as its decimal value, a negative result needs a leading minus, and text starting with anything but a digit or a sign is refused. |
| `Text.ParseDecimal` | main.py:590 | `float()` accepts only text that, once stripped, is an optional sign followed by digits with at most one `.`, and not the point alone. |
| `Text.ParseDecimalFraction` | main.py:590 | A stripped `ip.f` with an optional sign is read as `ip + f / 10^len(f)`, negated after a minus, so `9.99` is 999/100. |
| `Text.FracValueOf` | main.py:590 | The digits after the point are worth their integer value over ten to the power of their count. |
| `Text.ParseDecimalReads` | main.py:590 | A plain digit string is read as its decimal value, a negative result needs a leading minus, and text starting with anything but a digit, a sign or a point is refused. |
| `Text.ParseIntThenDecimal` | main.py:590 | Text that `int()` accepts, `float()` accepts with the same value. |
| `Text.ParseDecimalOfIntToString` | main.py:665 | `float(str(n)) == n` for every integer n. |
| `Settings.Get` | main.py:146-149 | `get_setting(key)` finds a value exactly when the key is stored, and it is the stored value. |
| `Settings.GetOr` | main.py:146-149 | `get_setting(key, default)` is the stored value when there is one and the default otherwise. |
| `Settings.Set` | main.py:151-153 | After `set_setting(key, v)`, the key reads back as v and every other key reads as before. |
| `Settings.InsertOrIgnore` | main.py:124 | `INSERT OR IGNORE` keeps an existing value and stores the given one only when the key is absent; other keys are untouched. |
| `Settings.InitDefaults` | main.py:123-126 | The start-up defaults add exactly the welcome, rate and minimum keys, never overwrite a stored value, and give `2500` and `1` to an absent rate and minimum. |
| `Settings.InitDefaultsIdempotent` | main.py:124-126 | Starting the bot a second time does not change the settings. |
| `Settings.DefaultRateReadBack` | main.py:125 | On a fresh database the rate reads back as 2500.0 cash units per credit. |
| `Settings.DefaultMinDepositReadBack` | main.py:126 | On a fresh database the minimum deposit reads back as 1 credit. |
| `Settings.WelcomeText` | main.py:250 | `/start` greets with the stored welcome text when it is non-empty, and otherwise with the non-empty fallback. |
| `Settings.ClearFlagFrame` | main.py:518 | Writing `""` to a flag un-sets it and leaves every other setting as it was. |
| `Settings.FlagKeyInjective` | main.py:515-545 | Two `awaiting_*_{uid}` keys are equal only for the same flow and the same user. |
| `Settings.FlagKeyNotSetting` | main.py:515-517 | No flag key coincides with `welcome_msg`, `syp_rate` or `min_deposit`. |
| `Settings.FlagKeyNotBalanceType` | main.py:628-634 | No flag key coincides with any user's `awaiting_balance_action_{uid}_type` key. |
| `Settings.WelcomeFlow` | main.py:514-521 | The welcome flow stores the stripped message as the welcome text, clears its own flag, and changes no other setting and no other table. |
| `Settings.WelcomeRoundTrip` | main.py:516-517 | Setting the welcome text to X makes `/start` greet with X, or with the fallback when X is empty. |
| `Settings.SetRate` | main.py:777-792 | Only the operator's `/setrate` with a numeric second word changes anything, and then only `syp_rate`. The reported rate is the second word read by `float()` after `,` becomes `.`, and the stored rate reads back as it. A stranger is refused. Fewer than two words is answered with usage, and a second word that is not a number with an invalid-rate reply; both change nothing. |
| `Catalog.AddCategory` | main.py:456-459 | `add_category` inserts exactly one row, under the next id, positioned at `now`, and keeps the store valid and orphan-free. |
| `Catalog.EditCategory` | main.py:461-463 | Renaming changes only the name of the given category; a missing id changes nothing. |
| `Catalog.DeleteCategory` | main.py:465-468 | Deleting a category removes it and exactly the products whose category it is; every other row is unchanged and validity and orphan-freedom are kept. |
| `Catalog.AddProduct` | main.py:470-474 | `add_product` inserts exactly one row under the next id with the given columns and position `now`; on an orphan-free store the result is orphan-free exactly when the category exists. |
| `Catalog.EditProduct` | main.py:476-483 | Each given column replaces the old one, each omitted column is kept, the category and position never change, and no other product changes. |
| `Catalog.DeleteProduct` | main.py:485-487 | Deleting a product removes exactly that id and leaves the other products unchanged. |
| `Catalog.AddThenGet` | main.py:489-494 | A product just added is found by its new id with exactly the columns it was added with. |
| `Catalog.DeleteThenGet` | main.py:465-494 | A deleted product is no longer found; deleting a category hides exactly its own products. |
| `Catalog.Insert` | main.py:217 | Inserting an id into a `(pos, id)`-sorted listing keeps it sorted and adds exactly that id. |
| `Catalog.Listing` | main.py:217 | The listing holds every key exactly when it is in the position map, strictly ordered by `pos` then `id`. |
| `Catalog.SortedUnique` | main.py:225 | There is only one `(pos, id)`-sorted listing of a given set of ids, so the menu order is determined. |
| `Catalog.ListCategories` | main.py:215-221 | The categories menu lists every category once, in `ORDER BY pos ASC, id ASC`. |
| `Catalog.ListProducts` | main.py:223-232 | A category's menu lists exactly its products, in `ORDER BY pos ASC, id ASC`. |
| `Catalog.AddedProductListedLast` | main.py:472 | A product added no earlier than the others of its category is listed last there. |
| `Catalog.GetProductById` | main.py:489-494 | `get_product_by_id` finds a product exactly when its id is stored, with that row's columns. |
| `Catalog.NewCategoryFlow` | main.py:574-581 | The add-category flow adds one category named by the whole stripped message and clears its flag. |
| `Catalog.NewProductFlow` | main.py:583-606 | The add-product flow adds a product exactly when the line reads and names an existing category whose id fits in 64 bits. The product has the columns read, the next id and position `now`. The flag is cleared on every path, and nothing else changes otherwise. |
| `Catalog.ProductFields` | main.py:585-591 | A product line needs three fields, an integer category id and a decimal price with `,` read as `.`; too few fields and a bad number are told apart. |
| `Catalog.ReadFormattedProduct` | main.py:585-591 | Reading back a product line written from plain columns gives those columns back. |
| `Catalog.ApplyProduct` | main.py:584-606 | The add-product flow inserts exactly when the line reads and the category exists. A category id outside 64 bits makes the lookup at main.py:591 raise, and that is answered as bad values, like a bad number. Too few fields is answered with usage. The flag is cleared on every path. |
| `Catalog.ProductLineInserts` | main.py:593-599 | A product the flow adds has exactly the columns read from the line, and only the products, their counter and the flag change. |
| `Catalog.ProductLineKeepsInvariants` | main.py:592-597 | The add-product flow keeps the store valid and never creates an orphan. |
| `Catalog.ButtonFields` | main.py:610-616 | A button line needs four fields and an integer parent id; the payload is the fifth field or empty. |
| `Catalog.ReadFormattedButton` | main.py:609-616 | Reading back a button line written from plain columns gives the button back. |
| `Catalog.NewButtonFlow` | main.py:608-625 | A readable line whose parent id fits in 64 bits appends exactly one button, with the next id. Too few fields is answered with usage. Both clear the flag. A parent id that is not an integer, or is outside 64 bits, raises with no `try` around it. The reply is then `Unhandled`, and the store and the flag are untouched. |
| `Catalog.AddCategoryCommand` | main.py:794-797 | `/addcat` from anyone but the operator is ignored. It changes nothing unless it adds a category, and it keeps the store valid. |
| `Catalog.AddCategoryCommandAccepts` | main.py:798-801 | The operator's `/addcat` adds a category exactly when the message has a second word. |
| `Catalog.AddCategoryCommandName` | main.py:802-803 | The category added is named by the rest of the line, stripped, and that name is never empty. |
| `Catalog.AddProductCommand` | main.py:807-829 | The operator's `/addprod` adds exactly when the rest of the line reads as a product whose category id fits in 64 bits. The product has the columns read and the next id. Otherwise nothing changes, and an id outside 64 bits is answered like bad data. |
| `Catalog.AddProductCommandOrphans` | main.py:820-828 | `/addprod` with a category id that does not exist still adds the product, leaving it orphaned. The exception is an id outside 64 bits: the INSERT raises, the reply is bad values and nothing is added. |
| `Ledger.GetBalance` | main.py:155-158 | `get_balance` is the stored balance, or 0 for a user with no row. |
| `Ledger.IsBanned` | main.py:178-181 | `is_banned` is the stored flag, and false for a user with no row. |
| `Ledger.EnsureUser` | main.py:138-141 | `ensure_user` creates a missing user with balance 0, not banned, and changes nothing else. |
| `Ledger.SetBalance` | main.py:160-163 | `set_balance` creates the user if needed and sets their balance, keeps their ban flag, and touches no other user. |
| `Ledger.ChangeBalance` | main.py:155-167 | `change_balance(u, d)` makes u's balance the old one (0 if absent) plus d, creates u if absent, and leaves every other user unchanged. |
| `Ledger.BanUser` | main.py:169-172 | `ban_user` creates the user if needed, sets the flag, keeps the balance and touches no other user. |
| `Ledger.UnbanUser` | main.py:174-181 | `unban_user` lifts the flag of an existing user, creates no row, keeps the balance and touches no other user. |
| `Ledger.BanUnban` | main.py:169-176 | Banning twice is banning once. Unbanning after a ban lifts it with the balance intact, and restores a previously unbanned user exactly. |
| `Ledger.ChangeBalanceTwice` | main.py:165-167 | Two balance changes add up; no update is lost. |
| `Ledger.ApplyDeltasSum` | main.py:155-167 | Any run of balance changes moves the balance by their sum and touches no other user. |
| `Ledger.Purchase` | main.py:352-376 | A missing product changes nothing. A balance below the price changes nothing. Otherwise the buyer pays exactly the price, exactly one `new` order is appended with the current price, and no other user changes. |
| `Ledger.BuyCallback` | main.py:352-356 | A `buy:` argument that is not an integer, or is outside 64 bits, changes nothing and gets the callback's internal-error answer. Otherwise it is a purchase of that id. |
| `Ledger.PurchaseConservesFunds` | main.py:361-370 | For every user, balance plus total spent on orders is the same before and after a purchase. |
| `Ledger.PurchaseIgnoresBan` | main.py:352-376 | A banned user buys exactly as they would unbanned. |
| `Ledger.PriceFrozen` | main.py:476-483 | Editing a product after it was bought does not change the price recorded in the order. |
| `Ledger.AddThenBuy` | main.py:355-370 | A product just added can be bought at its price by a user who can afford it. |
| `Ledger.Trunc` | main.py:666 | `int(x)` on a float truncates toward zero by less than one. |
| `Ledger.Credits` | main.py:664-666 | For a non-negative amount at a positive rate, the credits are the whole number of rate units the amount covers. |
| `Ledger.DepositQuote` | main.py:664-666 | A quote exists exactly when the text without commas and the stored rate both read as numbers and the rate is not zero. The amount is the text read without commas, and the credits are the whole number of rate units it covers. |
| `Ledger.SubmitDeposit` | main.py:662-684 | The deposit flow clears its flag on every path. An amount or a setting that does not read is refused as a bad amount. A request is recorded exactly when the credits reach the minimum and fit in 64 bits. It adds one `pending` row with the quoted amount and credits, under the next id. Credits at the minimum or above but outside 64 bits make the INSERT raise, and that is answered as a bad amount. When nothing is recorded, only the flag changes. |
| `Ledger.RecordDeposit` | main.py:662-684 | The deposit flow clears its flag on every path and changes nothing but that flag unless it records a request. |
| `Ledger.DepositAccepted` | main.py:668-676 | A deposit is recorded exactly when all of these hold: the amount, rate and minimum parse; the rate is not zero; the credits reach the minimum; and the credits fit in 64 bits. |
| `Ledger.DepositRefused` | main.py:668-681 | Credits below the minimum are refused with the minimum. An amount or setting that does not parse, or credits outside 64 bits, is refused as a bad amount. |
| `Ledger.DepositAdded` | main.py:673-677 | A recorded request is exactly one new `pending` row, under a fresh id, with the quoted amount and credits. |
| `Ledger.DepositFrame` | main.py:673-683 | Submitting a deposit touches only the settings and the deposits table with its counter. |
| `Ledger.SubmitDepositKeepsValid` | main.py:673-676 | Submitting a deposit keeps every id below its counter. |
| `Ledger.SubmitDepositAtDefaults` | main.py:664-681 | With the default rate and minimum, a whole amount n asks for `n / 2500` credits under id 1. Below 2500 it is refused with minimum 1. From 2500·2^63 up it is a bad amount. |
| `Ledger.DepositIgnoresCommas` | main.py:664 | A deposit text reads the same with its commas removed. |
| `Ledger.TruncPerCredit` | main.py:666 | A whole cash amount at 2500 per credit converts by integer division. |
| `Ledger.QuoteOfNumeral` | main.py:664-666 | A numeral, commas aside, is quoted at its own value and at the current rate. |
| `Ledger.SubmitAtDefaults` | main.py:667-681 | Under the default minimum of one credit, on an empty store, a quote of at least one credit that fits in 64 bits is recorded under id 1. A smaller quote is refused with the minimum. A quote of 2^63 credits or more is a bad amount. |
| `Ledger.CommandArg` | main.py:703-708 | The id argument is missing exactly when the command has fewer than two words, and is bad exactly when the second word is not an integer. |
| `Ledger.ConfirmDeposit` | main.py:698-730 | A stranger is refused. A missing id, a non-integer id, or one outside 64 bits (the lookup raises into the handler's `except`) changes nothing. An existing deposit that is not `confirmed` credits exactly its credits to its user, becomes `confirmed`, and leaves every other user unchanged. Anything else changes nothing. |
| `Ledger.ConfirmIdempotent` | main.py:715-717 | A second identical confirm is refused and changes nothing, so two confirms credit exactly once. |
| `Ledger.RejectDeposit` | main.py:732-749 | As written, the operator's reject sets an existing deposit to `cancelled` whatever its status and never changes a balance. A stranger gets no reply. A non-integer id, or one outside 64 bits, raises out of the handler and changes nothing. |
| `Ledger.RejectPendingDeposit` | main.py:732-749 | The corrected reject cancels only a `pending` deposit whose id fits in 64 bits. It refuses any other deposit and never changes a balance. |
| `Ledger.RejectPendingKeepsConfirmed` | main.py:746 | The corrected reject never touches a confirmed deposit. |
| `Ledger.CommandLineId` | main.py:703-708 | The id written into an operator command line is the id read back from it. |
| `Ledger.ConfirmStep` | main.py:708-721 | Confirming a deposit that is not confirmed credits its user once and confirms it. Confirming a confirmed one, or one whose id is outside 64 bits, changes nothing. |
| `Ledger.RejectStepAsWritten` | main.py:740-747 | As written, reject cancels the deposit whatever its status and leaves every balance alone. An id outside 64 bits changes nothing. |
| `Ledger.RejectStep` | main.py:740-747 | The corrected reject cancels a pending deposit. It leaves any other deposit unchanged, and so does an id outside 64 bits. |
| `Ledger.ConfirmRejectConfirmCreditsTwice` | main.py:715-746 | As written, confirm, reject, confirm of a pending deposit credits its user twice. (An id outside 64 bits, which SQLite never hands out, is credited nothing.) |
| `Ledger.ActKeepsCreditedOnce` | main.py:709-747 | With the corrected reject, each confirm or reject keeps the user's balance equal to the base plus the credits exactly when the deposit is confirmed. |
| `Ledger.CorrectedCreditsAtMostOnce` | main.py:698-749 | With the corrected reject, any run of confirms and rejects credits the deposit once at most, and exactly when it ends `confirmed`. |
| `Ledger.CorrectedConfirmRejectConfirm` | main.py:715-746 | With the corrected reject, confirm, reject, confirm credits exactly once (an id outside 64 bits, never). |
| `Ledger.ReadBalance` | main.py:629-633 | A balance line has too few fields exactly when it has fewer than two, and it reads exactly when the target is an integer and the amount a decimal, with `,` read as `.`. |
| `Ledger.BalanceFlow` | main.py:626-658 | The balance flow changes a balance exactly when the line reads, the target fits in 64 bits and the stored action is known. Then it moves the target's balance by the signed amount and touches no other user. Both keys are cleared on every path. Otherwise nothing else changes. |
| `Ledger.SignedAmount` | main.py:634-650 | An `add` action adds the amount, a `deduct` action subtracts it, and any other action is unknown. |
| `Ledger.ApplyBalance` | main.py:628-658 | The balance flow changes a balance exactly when the line reads, the stored action is known and the target fits in 64 bits. A target outside 64 bits makes `change_balance` raise into the `except` at main.py:651, so it is answered as bad values, like a bad number. Too few fields is answered with usage. Both keys are cleared on every path. |
| `Ledger.BalanceChanges` | main.py:635-650 | A balance change moves the target's balance by the signed amount and touches no other user. |
| `Ledger.BalanceAddThenDeduct` | main.py:635-644 | An amount added and then deducted with the same line restores the target's balance. A target outside 64 bits is never touched. |
| `Ledger.ReadBan` | main.py:546-550 | A ban line is missing its id exactly when it has fewer than two words and is bad exactly when the id is not an integer; otherwise its lower-cased first word selects ban or unban. |
| `Ledger.BanFlow` | main.py:545-572 | The ban flow bans or unbans exactly when the line reads as that action with an id that fits in 64 bits. A bad id is refused, and a short line or an unknown word gets usage; those paths clear the flag. An id outside 64 bits raises in `ban_user` or `unban_user`, outside the flow's `try`. The reply is then `Unhandled`, the flag stays set and nothing changes. |
| `Ledger.BanFlowChanges` | main.py:555-566 | A ban or unban sets the target's flag as asked, keeps its balance and touches no other user. |
| `Ledger.BanLineReads` | main.py:546-555 | `ban <id>` reads back as a ban of exactly that id, and `unban <id>` as its lifting. |
| `Ledger.BanLineRoundTrip` | main.py:555-565 | `ban <id>` then `unban <id>` leaves the target unbanned with its balance. For an id outside 64 bits, both lines are `Unhandled` and change nothing. |
| `Dispatch.FirstArmedNone` | main.py:686-691 | Nothing is picked exactly when no flow of the list is armed. |
| `Dispatch.FirstArmedAt` | main.py:514-684 | The flow picked is the one at the first armed position of the list. |
| `Dispatch.PriorityChain` | main.py:515-662 | Over the priority order welcome, broadcast, ban, category, product, button, balance, deposit, "first armed" unrolls to a chain of tests. |
| `Dispatch.Selected` | main.py:514-662 | The flow the handler picks is armed, and none is picked exactly when none is armed. |
| `Dispatch.RunFlow` | main.py:514-684 | No flow touches the orders. Only the deposit-amount flow touches the deposits. Only the ban and balance flows touch the users. |
| `Dispatch.SelectedIsFirstArmed` | main.py:514-662 | The handler's chain of flag tests picks exactly the first armed flow in priority order, so one message fires at most one flow. |
| `Dispatch.SelectedForUser` | main.py:662 | For anyone but the operator, only the deposit-amount flow can fire. |
| `Dispatch.CancelAsWritten` | main.py:506-512 | As written, `/cancel` blanks exactly the settings whose value equals `str(uid)` and leaves all others untouched. |
| `Dispatch.CancelKeepsFlag` | main.py:508-510 | As written, a flag stored as `"1"` survives `/cancel` from every user but user 1. |
| `Dispatch.ArmFlow` | main.py:303-309 | Starting a flow stores its flag as `"1"` and changes no other setting. |
| `Dispatch.ArmThenCancelAsWritten` | main.py:505-512 | As written, `/cancel` straight after starting a flow leaves the flow armed for every user but user 1. |
| `Dispatch.CancelWipesRate` | main.py:509-510 | As written, `/cancel` from a user whose id equals the stored rate blanks the rate, after which no deposit can be quoted. |
| `Dispatch.FreshCancelWipesRate` | main.py:506-510 | As written, on a freshly started bot, `/cancel` from user 2500 blanks the default rate, after which no deposit can be quoted. |
| `Dispatch.CancelFlows` | main.py:507 | The corrected `/cancel` blanks exactly this user's flow keys and keeps every other setting. |
| `Dispatch.CancelFlowsDisarms` | main.py:506-512 | After the corrected `/cancel`, no flow of the user is armed, so the next message reaches the menu. |
| `Dispatch.ArmThenCancel` | main.py:506-512 | With the corrected `/cancel`, cancelling straight after starting a flow disarms it. |
| `Dispatch.CancelFlowsFrame` | main.py:508-510 | The corrected `/cancel` leaves every other user's flags and every ordinary setting as they were. |
| `Dispatch.BroadcastFlow` | main.py:524-542 | The broadcast counts one attempt per stored user, split into sent and failed, with no failure when everyone is reachable. It clears its flag and changes nothing else. |
| `Dispatch.PartitionCount` | main.py:530-538 | Every recipient is counted once, as sent or as failed. |
| `Dispatch.HandleMessage` | main.py:500-691 | As written, `/cancel`, in any case and with whitespace around it, blanks exactly the settings whose value is the user's id and changes nothing else. Otherwise the first armed flow runs on the stripped text. Otherwise the operator or the user gets their menu and nothing changes. |
| `Dispatch.HandleMessageCorrected` | main.py:505-512 | With the corrected `/cancel`, the user has no armed flow afterwards, every other user's flags are kept and only the settings change. Any other message is handled as written. |
| `Dispatch.UserOneCancelDisarmsAll` | main.py:506-510 | As written, `/cancel` from user 1 blanks every flag stored as `"1"`, whoever armed it. |
| `Dispatch.UserOneCancelBreaksDeposits` | main.py:506-510 | As written, `/cancel` from user 1 also blanks the default `min_deposit` of `1`, after which every deposit is refused as a bad amount. |
| `Dispatch.FlowUnhandled` | main.py:545-625 | Only two flows can stop without a reply, and then nothing changes. One is the add-button flow, with a parent id that is not an integer or is outside 64 bits. The other is the ban flow, with a target outside 64 bits. |
| `Dispatch.FlowClearsOwnFlag` | main.py:518-683 | Every flow that runs to its end clears its own flag. The button and ban flows that raise on an id are the only ones that do not run to their end. |
| `Dispatch.FlowWritesOnly` | main.py:514-684 | A flow writes no setting outside its own flag, the welcome text, or the balance action's `_type` key. |
| `Dispatch.OtherFlagNotWritten` | main.py:515-662 | No flow writes the flag of another flow or another user. |
| `Dispatch.MessageKeepsOtherFlags` | main.py:500-691 | As written, one message leaves every other pending flow, of this user or of any other, exactly as it was, unless it is a `/cancel` and the flag's value is the sender's id. |
| `Dispatch.MessageKeepsOtherFlagsCorrected` | main.py:500-691 | With the corrected `/cancel`, one message leaves every other pending flow as it was; a `/cancel` touches only the sender's own flags. |
| `Dispatch.MessageClearsFiredFlag` | main.py:514-684 | The flow a message fires has its flag cleared afterwards. The exception is when the button flow or the ban flow raised on an id, which leaves the flag set. |
| `Dispatch.IdleMessageChangesNothing` | main.py:686-691 | With no flow armed and no `/cancel`, a message changes nothing. |
| `Dispatch.UserDepositMessage` | main.py:662-664 | For anyone but the operator, a message while a deposit is pending is a deposit submission of the stripped text. |
| `Dispatch.UserIdleMessage` | main.py:690-691 | For anyone but the operator, a message with no deposit pending only shows the user menu. |
| `Dispatch.UserMessageFrame` | main.py:500-691 | Someone who is not the operator cannot change users, the catalog, the buttons or the orders by message; at most the settings and one deposit request. |

## Left out

- Telegram I/O is not modelled: `send_message`, `reply_to`, `edit_message_text`, `answer_callback_query`, the keyboards and `fmt_currency`. Replies are outcome tags.
- Notifications are not modelled: to the operator about orders and deposits, to users about credits, bans and broadcasts. They are sends. Most are wrapped in `try/except: pass`.
  - Two are not: the order notices after a purchase (main.py:373-375) and the operator's deposit notice (main.py:679).
  - If one of those fails, the reply changes: the callback's internal-error answer, or the bad-amount reply. The order or the deposit row is already committed, so the store is as the model says.
- The menu callbacks are not modelled: `back_main`, `menu_*`, `cat:`, `prod:` and the admin panel pages. They only read the store. The callbacks that start a flow are modelled only as `Dispatch.ArmFlow`.
  - The admin panel offers the category, product, button, balance and ban flows, but no code in the program stores those flags.
  - The model takes the flags as whatever the settings hold.
- The read-only commands `/start`, `/help`, `/admin`, `/list_deposits`, `/users` and the statistics page are not modelled as handlers. `Settings.WelcomeText` covers the one value `/start` reads.
- The library decides which handler gets a message, by registration order. The catch-all text handler is registered before the slash commands it would also match. The model treats each command as reaching its own handler. So the double credit under "## Findings" can occur only if a command does reach its own handler, for example if the handlers are registered in another order.
- Timestamps (`created_at`), `log_admin`, the `username`, `first_name` and `vip` columns, `traceback` printing, `.env` loading and the polling restart loop are not modelled. Neither are SQLite's commit placement and the shared connection, which is concurrency.
- Broadcast delivery is a parameter: the set of users a send reaches. The sleeping between sends and the order of the sends are not modelled.
- Floating point is not modelled: balances, prices and amounts are exact reals, and `int()` on a float is truncation toward zero. Rounding of large or inexact values is not modelled.
- `int()` and `float()` are partial parsers over ASCII text: optional whitespace and sign, then decimal digits, with at most one `.` for `float()`.
  - Underscores are not accepted.
  - Neither are exponents, `inf`, `nan` or non-ASCII digits.
  - Python accepts some of these, so some inputs that Python reads as numbers are read here as bad numbers.
  - The likeliest such input in this bot is Arabic-Indic digits, U+0660–U+0669 (`٠`–`٩`) and U+06F0–U+06F9 (`۰`–`۹`). An Arabic keyboard can type them, for example as a deposit amount. Python's `int()` and `float()` read them as digits, and the model refuses them.
- `lower()` is modelled on ASCII letters only, which is enough for `ban`, `unban` and `/cancel`.
- `is_admin` is a comparison with the `admin` parameter. Its `int()` conversions are not modelled.
- Settings.SetRate: the rate is stored as the accepted numeral text, with `,` read as `.`. The model does not store Python's `str(float(...))`. The rate read back is the same value, but the stored text can differ, for example `2500` rather than `2500.0`. Two consequences:
  - Python's stored text always holds a `.`, so after any `/setrate` no user's `/cancel` can blank `syp_rate`. In the model a stored `7` is blanked by user 7's `/cancel` (`Dispatch.CancelWipesRate`).
  - `/setrate inf` and `/setrate nan` store the rate (main.py:788) and then fail at `int(rate)` (main.py:789), so Python answers "invalid" with the rate already changed. The model reads neither word as a number, so it answers "invalid" and changes nothing.
- Ledger.RecordDeposit: ensures only that the flag is cleared and what happens when nothing is recorded. What it records, and when, is stated by `Ledger.DepositAccepted`, `Ledger.DepositRefused` and `Ledger.DepositAdded`.
- Catalog.AddCategoryCommand: ensures only the stranger case, "nothing changes unless a category is added", and validity. When a category is added, and under which name, is stated by `Catalog.AddCategoryCommandAccepts` and `Catalog.AddCategoryCommandName`.

## Findings

| source | as written | input that shows it | evidently intended | confidence | as-written member | corrected member |
|---|---|---|---|---|---|---|
| main.py:740-747 | `/reject_deposit` sets an existing deposit to `cancelled` whatever its status, and `/confirm_deposit` refuses only `confirmed` deposits | a pending deposit 7: `/confirm_deposit 7`, `/reject_deposit 7`, `/confirm_deposit 7` credits its user twice | only a `pending` deposit can be rejected, so a deposit is credited at most once | not executed; latent as registered, because the catch-all text handler (main.py:499) is registered before `/confirm_deposit` (main.py:698) and `/reject_deposit` (main.py:732), so the library hands those commands to the catch-all (see the registration-order line under "## Left out") | `Ledger.ConfirmRejectConfirmCreditsTwice` | `Ledger.CorrectedConfirmRejectConfirm` |
| main.py:506-510 | `/cancel` blanks the settings whose value equals `str(uid)`, but the flags are stored as `"1"` | user 42 taps the deposit button, then sends `/cancel`: the flag stays `"1"` and their next message is still read as a deposit amount. User 1's `/cancel` instead blanks every user's flags and `min_deposit` | `/cancel` clears the user's own pending flags and nothing else | not executed | `Dispatch.HandleMessage`, `Dispatch.ArmThenCancelAsWritten`, `Dispatch.UserOneCancelDisarmsAll`, `Dispatch.UserOneCancelBreaksDeposits` | `Dispatch.HandleMessageCorrected`, `Dispatch.ArmThenCancel`, `Dispatch.MessageKeepsOtherFlagsCorrected` |

For the first row, `Ledger.RejectDeposit` models the reject as written. `Ledger.RejectPendingDeposit` is the corrected reject, and `Ledger.CorrectedCreditsAtMostOnce` proves the evidently intended property for any run of confirms and rejects.

For the second row, `Dispatch.CancelAsWritten` models `/cancel` as written, and `Dispatch.HandleMessage` uses it. `Dispatch.CancelFlows` is the corrected `/cancel`, and `Dispatch.HandleMessageCorrected` is the handler that uses it.

=== FILE: catalog.dfy ===
/**
 Categories, products and custom buttons: the CRUD helpers, the `(pos, id)`
 listing order, the operator's add-category / add-product / add-button flows
 and the `/addcat` and `/addprod` commands. `now` stands for `int(time.time())`.
 */
module Catalog {
  import opened Wrappers
  import opened Text
  import opened Store
  import opened Settings

  /* ---------------- CRUD ---------------- */

  /** `add_category(name)`: a new row whose position is the current time. */
  function AddCategory(st: Store, name: string, now: int): (r: Step)
    ensures r.reply == CategoryAdded(st.nextCategoryId)
    ensures r.store.categories == st.categories[st.nextCategoryId := Category(name, now)]
    ensures r.store == st.(categories := r.store.categories, nextCategoryId := st.nextCategoryId + 1)
    ensures Valid(st) ==> Valid(r.store) && st.nextCategoryId !in st.categories
    ensures NoOrphans(st) ==> NoOrphans(r.store)
  {
    var id := st.nextCategoryId;
    Step(st.(categories := st.categories[id := Category(name, now)], nextCategoryId := id + 1), CategoryAdded(id))
  }

  /** `edit_category(cid, name)`: renames an existing category; a missing id changes nothing. */
  function EditCategory(st: Store, cid: int, name: string): (r: Store)
    ensures r.categories.Keys == st.categories.Keys
    ensures cid in st.categories ==> r.categories[cid] == st.categories[cid].(name := name)
    ensures forall c :: c in st.categories && c != cid ==> r.categories[c] == st.categories[c]
    ensures r == st.(categories := r.categories)
  {
    if cid in st.categories then st.(categories := st.categories[cid := st.categories[cid].(name := name)]) else st
  }

  /** `delete_category(cid)`: removes the category and every product that belongs to it. */
  function DeleteCategory(st: Store, cid: int): (r: Store)
    ensures r.categories == map c | c in st.categories && c != cid :: st.categories[c]
    ensures forall p :: p in r.products <==> p in st.products && st.products[p].categoryId != cid
    ensures forall p :: p in r.products ==> r.products[p] == st.products[p]
    ensures r == st.(categories := r.categories, products := r.products)
    ensures Valid(st) ==> Valid(r)
    ensures NoOrphans(st) ==> NoOrphans(r)
  {
    st.(categories := map c | c in st.categories && c != cid :: st.categories[c],
        products := map p | p in st.products && st.products[p].categoryId != cid :: st.products[p])
  }

  /** `add_product(...)`: inserts without checking that the category exists. */
  function AddProduct(st: Store, cid: int, name: string, price: real, description: string, now: int): (r: Step)
    ensures r.reply == ProductAdded(st.nextProductId)
    ensures r.store.products == st.products[st.nextProductId := Product(cid, name, price, description, now)]
    ensures r.store == st.(products := r.store.products, nextProductId := st.nextProductId + 1)
    ensures Valid(st) ==> Valid(r.store) && st.nextProductId !in st.products
    ensures NoOrphans(st) ==> (NoOrphans(r.store) <==> cid in st.categories)
  {
    var id := st.nextProductId;
    var r := st.(products := st.products[id := Product(cid, name, price, description, now)], nextProductId := id + 1);
    assert NoOrphans(r) ==> cid in st.categories by {
      if NoOrphans(r) { assert r.products[id].categoryId in r.categories; }
    }
    Step(r, ProductAdded(id))
  }

  /** `edit_product(pid, name?, price?, description?)`: updates the given columns of an existing product. */
  function EditProduct(st: Store, pid: int, name: Option<string>, price: Option<real>, description: Option<string>): (r: Store)
    ensures r.products.Keys == st.products.Keys
    ensures pid in st.products ==>
      var old_ := st.products[pid];
      var new_ := r.products[pid];
      && new_.name == (if name.Some? then name.value else old_.name)
      && new_.price == (if price.Some? then price.value else old_.price)
      && new_.description == (if description.Some? then description.value else old_.description)
      && new_.categoryId == old_.categoryId && new_.pos == old_.pos
    ensures forall p :: p in st.products && p != pid ==> r.products[p] == st.products[p]
    ensures r == st.(products := r.products)
  {
    if pid !in st.products then st
    else
      var p := st.products[pid];
      var p1 := if name.Some? then p.(name := name.value) else p;
      var p2 := if price.Some? then p1.(price := price.value) else p1;
      var p3 := if description.Some? then p2.(description := description.value) else p2;
      st.(products := st.products[pid := p3])
  }

  /** `delete_product(pid)`. */
  function DeleteProduct(st: Store, pid: int): (r: Store)
    ensures r.products.Keys == st.products.Keys - {pid}
    ensures forall p :: p in r.products ==> r.products[p] == st.products[p]
    ensures r == st.(products := r.products)
  {
    st.(products := map p | p in st.products && p != pid :: st.products[p])
  }

  /** `get_product_by_id(pid)`: the product's row, or nothing when no row has that id. */
  function GetProductById(st: Store, pid: int): (r: Option<Product>)
    ensures r.Some? <==> pid in st.products
    ensures r.Some? ==> r.value == st.products[pid]
  {
    if pid in st.products then Some(st.products[pid]) else None
  }

  /** A product just added is found by its id with exactly the given columns. */
  lemma AddThenGet(st: Store, cid: int, name: string, price: real, description: string, now: int)
    ensures var r := AddProduct(st, cid, name, price, description, now);
      GetProductById(r.store, r.reply.productId) == Some(Product(cid, name, price, description, now))
  {
  }

  /** A deleted product, and every product of a deleted category, is no longer found. */
  lemma DeleteThenGet(st: Store, pid: int, cid: int)
    ensures GetProductById(DeleteProduct(st, pid), pid) == None
    ensures pid in st.products && st.products[pid].categoryId == cid ==> GetProductById(DeleteCategory(st, cid), pid) == None
    ensures pid in st.products && st.products[pid].categoryId != cid ==>
      GetProductById(DeleteCategory(st, cid), pid) == GetProductById(st, pid)
  {
  }

  /* ---------------- listing order ---------------- */

  /** `ORDER BY pos ASC, id ASC` as a strict order on ids. */
  predicate Before(pos: map<int, int>, a: int, b: int)
    requires a in pos && b in pos
  {
    pos[a] < pos[b] || (pos[a] == pos[b] && a < b)
  }

  /** Every id is in `pos` and the ids are strictly increasing in `(pos, id)`. */
  predicate SortedBy(pos: map<int, int>, ids: seq<int>) {
    && (forall i :: 0 <= i < |ids| ==> ids[i] in pos)
    && (forall i, j :: 0 <= i < j < |ids| ==> Before(pos, ids[i], ids[j]))
  }

  /** Inserts `x` at its place in a sorted listing. */
  function Insert(pos: map<int, int>, ids: seq<int>, x: int): (r: seq<int>)
    requires SortedBy(pos, ids) && x in pos && x !in ids
    ensures SortedBy(pos, r)
    ensures forall y :: y in r <==> y in ids || y == x
    decreases |ids|
  {
    if ids == [] then [x]
    else if Before(pos, x, ids[0]) then
      assert forall j :: 0 <= j < |ids| ==> Before(pos, x, ids[j]) by {
        forall j | 0 < j < |ids|
          ensures Before(pos, x, ids[j])
        {
          assert Before(pos, ids[0], ids[j]);
        }
      }
      [x] + ids
    else
      var tail := Insert(pos, ids[1..], x);
      assert forall y :: y in ids <==> y == ids[0] || y in ids[1..] by {
        assert ids == [ids[0]] + ids[1..];
      }
      assert forall j :: 0 <= j < |tail| ==> Before(pos, ids[0], tail[j]) by {
        forall j | 0 <= j < |tail|
          ensures Before(pos, ids[0], tail[j])
        {
          var y := tail[j];
          assert y in tail;
          if y != x {
            assert y in ids[1..];
            var k :| 0 <= k < |ids[1..]| && ids[1..][k] == y;
            assert Before(pos, ids[0], ids[k + 1]);
          }
        }
      }
      [ids[0]] + tail
  }

  /** Lists the keys of `pos` in `(pos, id)` order. */
  method Listing(pos: map<int, int>) returns (ids: seq<int>)
    ensures SortedBy(pos, ids)
    ensures forall k :: k in ids <==> k in pos
  {
    ids := [];
    var rest := pos.Keys;
    while rest != {}
      invariant rest <= pos.Keys
      invariant SortedBy(pos, ids)
      invariant forall k :: k in ids <==> k in pos && k !in rest
      decreases rest
    {
      NonEmptyHasElement(rest);
      var x :| x in rest;
      assert x !in ids;
      ids := Insert(pos, ids, x);
      rest := rest - {x};
    }
  }

  lemma NonEmptyHasElement(s: set<int>)
    requires s != {}
    ensures exists x :: x in s
  {
    if forall x :: x !in s {
      assert false;
    }
  }

  /** Two sorted listings of the same ids are the same listing. */
  lemma {:induction false} SortedUnique(pos: map<int, int>, a: seq<int>, b: seq<int>)
    requires SortedBy(pos, a) && SortedBy(pos, b)
    requires forall k :: k in a <==> k in b
    ensures a == b
    decreases |a|
  {
    if a != [] {
      HeadsAgree(pos, a, b);
      TailOfSorted(pos, a);
      TailOfSorted(pos, b);
      SortedUnique(pos, a[1..], b[1..]);
      assert a == [a[0]] + a[1..];
      assert b == [b[0]] + b[1..];
    } else if b != [] {
      HeadsAgree(pos, b, a);
    }
  }

  /** Two sorted listings of the same ids start with the same id. */
  lemma HeadsAgree(pos: map<int, int>, a: seq<int>, b: seq<int>)
    requires SortedBy(pos, a) && SortedBy(pos, b)
    requires forall k :: k in a <==> k in b
    requires a != []
    ensures b != [] && a[0] == b[0]
  {
    assert a[0] in a;
    var i :| 0 <= i < |b| && b[i] == a[0];
    assert b[0] in b;
    var j :| 0 <= j < |a| && a[j] == b[0];
    if i != 0 && j != 0 {
      assert false;
    }
  }

  /** The tail of a sorted listing is sorted and no longer holds the head. */
  lemma TailOfSorted(pos: map<int, int>, a: seq<int>)
    requires SortedBy(pos, a) && a != []
    ensures SortedBy(pos, a[1..])
    ensures forall k :: k in a[1..] <==> k in a && k != a[0]
  {
    assert a == [a[0]] + a[1..];
    forall k | k in a[1..]
      ensures k != a[0]
    {
      var i :| 0 <= i < |a[1..]| && a[1..][i] == k;
      assert Before(pos, a[0], a[i + 1]);
    }
  }

  /** The ordering keys of the categories. */
  function CategoryPositions(st: Store): (pos: map<int, int>)
    ensures pos.Keys == st.categories.Keys
  {
    map c | c in st.categories :: st.categories[c].pos
  }

  /** The ordering keys of the products of category `cid`. */
  function ProductPositions(st: Store, cid: int): (pos: map<int, int>)
    ensures forall p :: p in pos <==> p in st.products && st.products[p].categoryId == cid
  {
    map p | p in st.products && st.products[p].categoryId == cid :: st.products[p].pos
  }

  /** The categories menu: every category once, in `(pos, id)` order. */
  method ListCategories(st: Store) returns (ids: seq<int>)
    ensures SortedBy(CategoryPositions(st), ids)
    ensures forall c :: c in ids <==> c in st.categories
  {
    ids := Listing(CategoryPositions(st));
  }

  /** A category's product menu: exactly its products, in `(pos, id)` order. */
  method ListProducts(st: Store, cid: int) returns (ids: seq<int>)
    ensures SortedBy(ProductPositions(st, cid), ids)
    ensures forall p :: p in ids <==> p in st.products && st.products[p].categoryId == cid
  {
    ids := Listing(ProductPositions(st, cid));
  }

  /**
   A product added no earlier than every product already in its category is
   listed last there: ids grow, so ties on `pos` go to the newer product.
   */
  lemma AddedProductListedLast(st: Store, cid: int, name: string, price: real, description: string, now: int, ids: seq<int>)
    requires Valid(st)
    requires forall p :: p in st.products && st.products[p].categoryId == cid ==> st.products[p].pos <= now
    requires var r := AddProduct(st, cid, name, price, description, now);
      SortedBy(ProductPositions(r.store, cid), ids) &&
      forall p :: p in ids <==> p in ProductPositions(r.store, cid)
    ensures |ids| > 0 && ids[|ids| - 1] == st.nextProductId
  {
    var r := AddProduct(st, cid, name, price, description, now);
    var pos := ProductPositions(r.store, cid);
    var id := st.nextProductId;
    assert r.store.products[id] == Product(cid, name, price, description, now);
    assert id in pos;
    var k :| 0 <= k < |ids| && ids[k] == id;
    if k < |ids| - 1 {
      var other := ids[|ids| - 1];
      assert Before(pos, id, other);
    }
  }

  /* ---------------- operator flows ---------------- */

  /** The add-category flow: the whole stripped text is the name. */
  function NewCategoryFlow(st: Store, uid: int, text: string, now: int): (r: Step)
    ensures r.reply == CategoryAdded(st.nextCategoryId)
    ensures r.store.categories == st.categories[st.nextCategoryId := Category(text, now)]
    ensures r.store.settings == ClearFlag(st.settings, FlagKey(NewCategory, uid))
    ensures r.store == st.(categories := r.store.categories, nextCategoryId := r.store.nextCategoryId,
      settings := r.store.settings)
    ensures Valid(st) ==> Valid(r.store)
    ensures NoOrphans(st) ==> NoOrphans(r.store)
  {
    var added := AddCategory(st, text, now);
    Step(added.store.(settings := ClearFlag(st.settings, FlagKey(NewCategory, uid))), added.reply)
  }

  /** `float(x.replace(",", "."))` for the price and amount fields. */
  function ParseAmount(field: string): Option<real> {
    ParseDecimal(Replace(field, ',', '.'))
  }

  /** How a `|`-separated operator line reads: too few fields, a number that does not parse, or the values. */
  datatype Parse<T> = TooFewFields | BadNumber | Parsed(value: T)

  /** The columns an operator gives for a new product. */
  datatype ProductInput = ProductInput(categoryId: int, name: string, price: real, description: string)

  /**
   `[p.strip() for p in text.split("|")]` read as `category_id | name | price
   | description?`.
   */
  function ReadProduct(text: string): Parse<ProductInput> {
    ProductFields(Fields(text, '|'))
  }

  /**
   At least three fields, an integer category id and a decimal price (`,`
   read as `.`); the description is the fourth field when there is one.
   */
  function ProductFields(parts: seq<string>): (r: Parse<ProductInput>)
    ensures r.TooFewFields? <==> |parts| < 3
    ensures r.BadNumber? <==> |parts| >= 3 && (ParseInt(parts[0]).None? || ParseAmount(parts[2]).None?)
    ensures r.Parsed? ==>
      && Some(r.value.categoryId) == ParseInt(parts[0])
      && r.value.name == parts[1]
      && Some(r.value.price) == ParseAmount(parts[2])
      && r.value.description == (if |parts| >= 4 then parts[3] else "")
  {
    if |parts| < 3 then TooFewFields
    else match (ParseInt(parts[0]), ParseAmount(parts[2]))
      case (Some(cid), Some(price)) =>
        Parsed(ProductInput(cid, parts[1], price, if |parts| >= 4 then parts[3] else ""))
      case _ => BadNumber
  }

  /** Fields whose id and price read give the product of those values. */
  lemma ProductFieldsRead(parts: seq<string>, cid: int, price: real)
    requires |parts| >= 3 && ParseInt(parts[0]) == Some(cid) && ParseAmount(parts[2]) == Some(price)
    ensures ProductFields(parts) == Parsed(ProductInput(cid, parts[1], price, if |parts| >= 4 then parts[3] else ""))
  {
  }

  /** The line an operator types for a product with a whole-number price. */
  function FormatProduct(cid: int, name: string, price: int, description: string): string {
    Join([IntToString(cid), name, IntToString(price), description], '|')
  }

  /** A field the operator can type back unchanged: no separator and nothing `strip` would remove. */
  predicate PlainField(f: string) {
    '|' !in f && (f == [] || (!IsSpace(f[0]) && !IsSpace(f[|f| - 1])))
  }

  /** A formatted integer has no separator, no edge whitespace and no comma. */
  lemma IntToStringPlain(n: int)
    ensures PlainField(IntToString(n))
    ensures Replace(IntToString(n), ',', '.') == IntToString(n)
  {
    var s := IntToString(n);
    assert forall i :: 0 <= i < |s| ==> s[i] == '-' || IsDigit(s[i]) by {
      if n < 0 {
        forall i | 1 <= i < |s|
          ensures IsDigit(s[i])
        {
          assert s[1..][i - 1] == s[i];
        }
      }
    }
  }

  /** Joining plain fields with `|` and reading them back gives the fields. */
  lemma FieldsOfJoin(parts: seq<string>)
    requires |parts| >= 1
    requires forall i :: 0 <= i < |parts| ==> PlainField(parts[i])
    ensures Fields(Join(parts, '|'), '|') == parts
  {
    SplitJoin(parts, '|');
    forall i | 0 <= i < |parts|
      ensures Trim(parts[i]) == parts[i]
    {
      PlainTrims(parts[i]);
    }
  }

  /** Stripping leaves a plain field as it is. */
  lemma PlainTrims(f: string)
    requires PlainField(f)
    ensures Trim(f) == f
  {
    TrimKeeps(f);
  }

  /** Reading a formatted product line gives back the columns it was formatted from. */
  lemma ReadFormattedProduct(cid: int, name: string, price: int, description: string)
    requires PlainField(name) && PlainField(description)
    ensures ReadProduct(FormatProduct(cid, name, price, description))
      == Parsed(ProductInput(cid, name, price as real, description))
  {
    FormattedProductFields(cid, name, price, description);
    var parts := [IntToString(cid), name, IntToString(price), description];
    ParseIntToString(cid);
    ParseAmountOfIntToString(price);
    ProductFieldsRead(parts, cid, price as real);
  }

  /** The fields of a formatted product line are the formatted columns. */
  lemma FormattedProductFields(cid: int, name: string, price: int, description: string)
    requires PlainField(name) && PlainField(description)
    ensures Fields(FormatProduct(cid, name, price, description), '|')
      == [IntToString(cid), name, IntToString(price), description]
  {
    var parts := [IntToString(cid), name, IntToString(price), description];
    IntToStringPlain(cid);
    IntToStringPlain(price);
    forall i | 0 <= i < |parts|
      ensures PlainField(parts[i])
    {
      if i == 0 { } else if i == 1 { } else if i == 2 { }
    }
    FieldsOfJoin(parts);
  }

  /** A formatted integer reads back as the same price. */
  lemma ParseAmountOfIntToString(n: int)
    ensures ParseAmount(IntToString(n)) == Some(n as real)
  {
    IntToStringPlain(n);
    ParseDecimalOfIntToString(n);
  }

  /**
   The add-product flow: the line is read, then applied. A product is added
   exactly when the line reads and names a stored category that fits in 64
   bits, and then it holds the columns read, under the next id.
   */
  function NewProductFlow(st: Store, uid: int, text: string, now: int): (r: Step)
    ensures r.store.settings == ClearFlag(st.settings, FlagKey(NewProduct, uid))
    ensures r.reply.ProductAdded? <==>
      && ReadProduct(text).Parsed? && Fits64(ReadProduct(text).value.categoryId)
      && ReadProduct(text).value.categoryId in st.categories
    ensures r.reply.ProductAdded? ==>
      var p := ReadProduct(text).value;
      r.store.products == st.products[st.nextProductId := Product(p.categoryId, p.name, p.price, p.description, now)]
    ensures !r.reply.ProductAdded? ==> r.store == st.(settings := r.store.settings)
    ensures r.store == st.(products := r.store.products, nextProductId := r.store.nextProductId, settings := r.store.settings)
  {
    var line := ReadProduct(text);
    var r := ApplyProduct(st, uid, line, now);
    if r.reply.ProductAdded? then ProductLineInserts(st, uid, line, now); r else r
  }

  /**
   Applying a product line: inserts only when the line read and the category
   exists; the price may be negative. A category id outside 64 bits makes the
   category lookup raise, which is answered like a bad number. The flag is
   cleared whatever happens.
   */
  function ApplyProduct(st: Store, uid: int, line: Parse<ProductInput>, now: int): (r: Step)
    ensures r.store.settings == ClearFlag(st.settings, FlagKey(NewProduct, uid))
    ensures line.TooFewFields? ==> r.reply == Usage
    ensures line.BadNumber? ==> r.reply == BadValues
    ensures line.Parsed? && !Fits64(line.value.categoryId) ==> r.reply == BadValues
    ensures r.reply.ProductAdded? <==> line.Parsed? && Fits64(line.value.categoryId) && line.value.categoryId in st.categories
    ensures !r.reply.ProductAdded? ==> r.store == st.(settings := r.store.settings)
  {
    var settings := ClearFlag(st.settings, FlagKey(NewProduct, uid));
    if line.TooFewFields? then Step(st.(settings := settings), Usage)
    else if line.BadNumber? || !Fits64(line.value.categoryId) then Step(st.(settings := settings), BadValues)
    else if line.value.categoryId !in st.categories then Step(st.(settings := settings), CategoryMissing)
    else
      var p := line.value;
      var added := AddProduct(st, p.categoryId, p.name, p.price, p.description, now);
      Step(added.store.(settings := settings), added.reply)
  }

  /** A product the flow adds has exactly the columns read from the line, and only the products table, its counter and the flag change. */
  lemma ProductLineInserts(st: Store, uid: int, line: Parse<ProductInput>, now: int)
    requires ApplyProduct(st, uid, line, now).reply.ProductAdded?
    ensures line.Parsed?
    ensures var r := ApplyProduct(st, uid, line, now);
      var p := line.value;
      && r.reply.productId == st.nextProductId
      && r.store.products == st.products[st.nextProductId := Product(p.categoryId, p.name, p.price, p.description, now)]
      && r.store == st.(products := r.store.products, nextProductId := st.nextProductId + 1, settings := r.store.settings)
  {
  }

  /** The add-product flow keeps the ids below their counters and adds no orphan. */
  lemma ProductLineKeepsInvariants(st: Store, uid: int, line: Parse<ProductInput>, now: int)
    requires Valid(st) && NoOrphans(st)
    ensures Valid(ApplyProduct(st, uid, line, now).store)
    ensures NoOrphans(ApplyProduct(st, uid, line, now).store)
  {
    var r := ApplyProduct(st, uid, line, now);
    if r.reply.ProductAdded? {
      var p := line.value;
      assert AddProduct(st, p.categoryId, p.name, p.price, p.description, now).store
        == r.store.(settings := st.settings);
    }
  }

  /** `[p.strip() for p in text.split("|")]` read as `parent_type | parent_id | text | action | payload?`. */
  function ReadButton(text: string): Parse<Button> {
    ButtonFields(Fields(text, '|'))
  }

  /** At least four fields and an integer parent id; nothing else is validated. */
  function ButtonFields(parts: seq<string>): (r: Parse<Button>)
    ensures r.TooFewFields? <==> |parts| < 4
    ensures r.BadNumber? <==> |parts| >= 4 && ParseInt(parts[1]).None?
    ensures r.Parsed? ==>
      && r.value.parentType == parts[0]
      && Some(r.value.parentId) == ParseInt(parts[1])
      && r.value.text == parts[2] && r.value.action == parts[3]
      && r.value.payload == (if |parts| > 4 then parts[4] else "")
  {
    if |parts| < 4 then TooFewFields
    else match ParseInt(parts[1])
      case None => BadNumber
      case Some(parentId) => Parsed(Button(parts[0], parentId, parts[2], parts[3], if |parts| > 4 then parts[4] else ""))
  }

  /** The line an operator types for a button. */
  function FormatButton(b: Button): string {
    Join([b.parentType, IntToString(b.parentId), b.text, b.action, b.payload], '|')
  }

  /** Reading a formatted button line gives the button back. */
  lemma ReadFormattedButton(b: Button)
    requires PlainField(b.parentType) && PlainField(b.text) && PlainField(b.action) && PlainField(b.payload)
    ensures ReadButton(FormatButton(b)) == Parsed(b)
  {
    var parts := [b.parentType, IntToString(b.parentId), b.text, b.action, b.payload];
    FormattedButtonFields(b);
    assert ButtonFields(parts) == Parsed(b) by {
      ParseIntToString(b.parentId);
    }
  }

  /** The fields of a formatted button line are the formatted columns. */
  lemma FormattedButtonFields(b: Button)
    requires PlainField(b.parentType) && PlainField(b.text) && PlainField(b.action) && PlainField(b.payload)
    ensures Fields(FormatButton(b), '|') == [b.parentType, IntToString(b.parentId), b.text, b.action, b.payload]
  {
    var parts := [b.parentType, IntToString(b.parentId), b.text, b.action, b.payload];
    IntToStringPlain(b.parentId);
    forall i | 0 <= i < |parts|
      ensures PlainField(parts[i])
    {
      if i == 0 { } else if i == 1 { } else if i == 2 { } else if i == 3 { }
    }
    FieldsOfJoin(parts);
  }

  /**
   The add-button flow. A parent id that is not an integer, or one outside 64
   bits that the INSERT cannot bind, raises out of the flow, so the reply is
   `Unhandled` and the flag stays set.
   */
  function NewButtonFlow(st: Store, uid: int, text: string): (r: Step)
    ensures r.reply == Unhandled <==>
      ReadButton(text).BadNumber? || (ReadButton(text).Parsed? && !Fits64(ReadButton(text).value.parentId))
    ensures ReadButton(text).TooFewFields? ==> r.reply == Usage
    ensures r.reply == Unhandled ==> r.store == st
    ensures r.reply != Unhandled ==> r.store.settings == ClearFlag(st.settings, FlagKey(NewButton, uid))
    ensures r.reply.ButtonAdded? <==> ReadButton(text).Parsed? && Fits64(ReadButton(text).value.parentId)
    ensures r.reply.ButtonAdded? ==>
      && r.reply.buttonId == |st.buttons| + 1
      && r.store.buttons == st.buttons + [ReadButton(text).value]
    ensures !r.reply.ButtonAdded? ==> r.store.buttons == st.buttons
    ensures r.store == st.(buttons := r.store.buttons, settings := r.store.settings)
  {
    var line := ReadButton(text);
    if line.BadNumber? || (line.Parsed? && !Fits64(line.value.parentId)) then Step(st, Unhandled)
    else if line.TooFewFields? then Step(st.(settings := ClearFlag(st.settings, FlagKey(NewButton, uid))), Usage)
    else
      Step(st.(buttons := st.buttons + [line.value], settings := ClearFlag(st.settings, FlagKey(NewButton, uid))),
        ButtonAdded(|st.buttons| + 1))
  }

  /* ---------------- operator commands ---------------- */

  /** `/addcat <name>` (operator only; anyone else gets no reply). */
  function AddCategoryCommand(st: Store, admin: int, caller: int, text: string, now: int): (r: Step)
    ensures caller != admin ==> r == Step(st, Ignored)
    ensures !r.reply.CategoryAdded? ==> r.store == st
    ensures Valid(st) ==> Valid(r.store)
  {
    if caller != admin then Step(st, Ignored)
    else
      var args := SplitFirstWord(text);
      if |args| < 2 then Step(st, Usage)
      else AddCategory(st, Trim(args[1]), now)
  }

  /** The operator's `/addcat` adds a category exactly when a name follows the command. */
  lemma AddCategoryCommandAccepts(st: Store, admin: int, caller: int, text: string, now: int)
    ensures AddCategoryCommand(st, admin, caller, text, now).reply.CategoryAdded?
      <==> caller == admin && |Words(text)| >= 2
  {
    var args := SplitFirstWord(text);
    assert |args| == 2 <==> |Words(text)| >= 2;
  }

  /** The category `/addcat` adds is named by the rest of the line, stripped, and never empty. */
  lemma AddCategoryCommandName(st: Store, admin: int, text: string, now: int)
    requires |Words(text)| >= 2
    ensures |SplitFirstWord(text)| == 2
    ensures AddCategoryCommand(st, admin, admin, text, now) == AddCategory(st, Trim(SplitFirstWord(text)[1]), now)
    ensures Trim(SplitFirstWord(text)[1]) != ""
  {
    TrimNotBlank(SplitFirstWord(text)[1]);
  }

  /**
   `/addprod category_id|name|price|description` (operator only). The line is
   read as in the add-product flow, but the category is not checked. A
   category id outside 64 bits makes the INSERT raise, which is answered like
   a bad number. Anyone other than the operator gets no reply.
   */
  function AddProductCommand(st: Store, admin: int, caller: int, text: string, now: int): (r: Step)
    ensures caller != admin ==> r == Step(st, Ignored)
    ensures r.reply.ProductAdded? <==>
      && caller == admin && |SplitFirstWord(text)| == 2 && ReadProduct(SplitFirstWord(text)[1]).Parsed?
      && Fits64(ReadProduct(SplitFirstWord(text)[1]).value.categoryId)
    ensures r.reply.ProductAdded? ==>
      var p := ReadProduct(SplitFirstWord(text)[1]).value;
      && r.reply.productId == st.nextProductId
      && r.store.products == st.products[st.nextProductId := Product(p.categoryId, p.name, p.price, p.description, now)]
    ensures !r.reply.ProductAdded? ==> r.store == st
    ensures Valid(st) ==> Valid(r.store)
  {
    if caller != admin then Step(st, Ignored)
    else
      var args := SplitFirstWord(text);
      if |args| < 2 then Step(st, Usage)
      else
        var line := ReadProduct(args[1]);
        if line.TooFewFields? then Step(st, Usage)
        else if line.BadNumber? || !Fits64(line.value.categoryId) then Step(st, BadValues)
        else
          var p := line.value;
          AddProduct(st, p.categoryId, p.name, p.price, p.description, now)
  }

  /**
   `/addprod` with a category id that does not exist still adds the product,
   orphaned, unless the id is outside 64 bits, when nothing is added.
   */
  lemma AddProductCommandOrphans(st: Store, admin: int, text: string, now: int)
    requires NoOrphans(st)
    requires |SplitFirstWord(text)| == 2
    requires var p := ReadProduct(SplitFirstWord(text)[1]);
      p.Parsed? && p.value.categoryId !in st.categories
    ensures var r := AddProductCommand(st, admin, admin, text, now);
      var cid := ReadProduct(SplitFirstWord(text)[1]).value.categoryId;
      && (Fits64(cid) ==> r.reply.ProductAdded? && !NoOrphans(r.store))
      && (!Fits64(cid) ==> r == Step(st, BadValues))
  {
  }
}

=== FILE: dispatch.dfy ===
/**
 The catch-all text handler: `/cancel`, then the operator's and the user's
 pending flows, tried in a fixed order against the per-user `awaiting_*`
 flags, and otherwise the main menu.
 */
module Dispatch {
  import opened Wrappers
  import opened Text
  import opened Store
  import opened Settings
  import opened Catalog
  import opened Ledger

  /* ---------------- which flow fires ---------------- */

  /** The order in which the handler tests the flags. */
  const Priority: seq<Flow> := [Welcome, Broadcast, Ban, NewCategory, NewProduct, NewButton, BalanceAction, DepositAmount]

  /** Every flow but the deposit-amount one also asks `is_admin(uid)`. */
  predicate Armed(settings: map<string, string>, admin: int, uid: int, f: Flow) {
    FlagSet(settings, FlagKey(f, uid)) && (f != DepositAmount ==> uid == admin)
  }

  /** The first flow of `flows` that is armed: the reference reading of "tried in order". */
  function FirstArmed(armed: Flow -> bool, flows: seq<Flow>): Option<Flow>
    decreases |flows|
  {
    if flows == [] then None
    else if armed(flows[0]) then Some(flows[0])
    else FirstArmed(armed, flows[1..])
  }

  /** `flows[i]` is armed and no flow before it is. */
  predicate FirstAt(armed: Flow -> bool, flows: seq<Flow>, i: int) {
    0 <= i < |flows| && armed(flows[i]) && forall j :: 0 <= j < i ==> !armed(flows[j])
  }

  /** Nothing is picked exactly when no flow of the list is armed. */
  lemma {:induction false} FirstArmedNone(armed: Flow -> bool, flows: seq<Flow>)
    ensures FirstArmed(armed, flows).None? <==> forall k :: 0 <= k < |flows| ==> !armed(flows[k])
    decreases |flows|
  {
    if flows != [] && !armed(flows[0]) {
      FirstArmedNone(armed, flows[1..]);
      assert forall k :: 1 <= k < |flows| ==> flows[k] == flows[1..][k - 1];
    }
  }

  /** Otherwise the flow picked is the one at the first armed position. */
  lemma {:induction false} FirstArmedAt(armed: Flow -> bool, flows: seq<Flow>, i: int)
    requires FirstAt(armed, flows, i)
    ensures FirstArmed(armed, flows) == Some(flows[i])
    decreases |flows|
  {
    if i > 0 {
      assert !armed(flows[0]);
      assert forall j :: 0 <= j < i - 1 ==> flows[1..][j] == flows[j + 1];
      assert FirstAt(armed, flows[1..], i - 1);
      FirstArmedAt(armed, flows[1..], i - 1);
    }
  }

  /** The chain of `if get_setting(...) and is_admin(uid)` tests, as the handler writes it. */
  function Selected(settings: map<string, string>, admin: int, uid: int): (r: Option<Flow>)
    ensures r.Some? ==> Armed(settings, admin, uid, r.value)
    ensures r.None? <==> forall f :: !Armed(settings, admin, uid, f)
  {
    NoneArmed(settings, admin, uid);
    if Armed(settings, admin, uid, Welcome) then Some(Welcome)
    else if Armed(settings, admin, uid, Broadcast) then Some(Broadcast)
    else if Armed(settings, admin, uid, Ban) then Some(Ban)
    else if Armed(settings, admin, uid, NewCategory) then Some(NewCategory)
    else if Armed(settings, admin, uid, NewProduct) then Some(NewProduct)
    else if Armed(settings, admin, uid, NewButton) then Some(NewButton)
    else if Armed(settings, admin, uid, BalanceAction) then Some(BalanceAction)
    else if Armed(settings, admin, uid, DepositAmount) then Some(DepositAmount)
    else None
  }

  /** When none of the eight flows is armed, no flow is. */
  lemma NoneArmed(settings: map<string, string>, admin: int, uid: int)
    ensures (!Armed(settings, admin, uid, Welcome) && !Armed(settings, admin, uid, Broadcast)
      && !Armed(settings, admin, uid, Ban) && !Armed(settings, admin, uid, NewCategory)
      && !Armed(settings, admin, uid, NewProduct) && !Armed(settings, admin, uid, NewButton)
      && !Armed(settings, admin, uid, BalanceAction) && !Armed(settings, admin, uid, DepositAmount))
      ==> forall f :: !Armed(settings, admin, uid, f)
  {
  }

  /** Over the priority list, the reference reading unrolls to a chain of tests. */
  lemma PriorityChain(armed: Flow -> bool)
    ensures FirstArmed(armed, Priority) ==
      if armed(Welcome) then Some(Welcome)
      else if armed(Broadcast) then Some(Broadcast)
      else if armed(Ban) then Some(Ban)
      else if armed(NewCategory) then Some(NewCategory)
      else if armed(NewProduct) then Some(NewProduct)
      else if armed(NewButton) then Some(NewButton)
      else if armed(BalanceAction) then Some(BalanceAction)
      else if armed(DepositAmount) then Some(DepositAmount)
      else None
  {
    var p := Priority;
    assert p[1..] == [Broadcast, Ban, NewCategory, NewProduct, NewButton, BalanceAction, DepositAmount];
    assert p[1..][1..] == [Ban, NewCategory, NewProduct, NewButton, BalanceAction, DepositAmount];
    assert p[1..][1..][1..] == [NewCategory, NewProduct, NewButton, BalanceAction, DepositAmount];
    assert p[1..][1..][1..][1..] == [NewProduct, NewButton, BalanceAction, DepositAmount];
    assert p[1..][1..][1..][1..][1..] == [NewButton, BalanceAction, DepositAmount];
    assert p[1..][1..][1..][1..][1..][1..] == [BalanceAction, DepositAmount];
    assert p[1..][1..][1..][1..][1..][1..][1..] == [DepositAmount];
    assert p[1..][1..][1..][1..][1..][1..][1..][1..] == [];
  }

  /** The handler's chain picks exactly the first armed flow in priority order. */
  lemma SelectedIsFirstArmed(settings: map<string, string>, admin: int, uid: int)
    ensures Selected(settings, admin, uid) == FirstArmed(f => Armed(settings, admin, uid, f), Priority)
  {
    PriorityChain(f => Armed(settings, admin, uid, f));
  }

  /** Only the deposit-amount flow can fire for anyone but the operator. */
  lemma SelectedForUser(settings: map<string, string>, admin: int, uid: int)
    requires uid != admin
    ensures Selected(settings, admin, uid) == (if FlagSet(settings, FlagKey(DepositAmount, uid)) then Some(DepositAmount) else None)
  {
    assert !Armed(settings, admin, uid, Welcome);
    assert !Armed(settings, admin, uid, Broadcast);
    assert !Armed(settings, admin, uid, Ban);
    assert !Armed(settings, admin, uid, NewCategory);
    assert !Armed(settings, admin, uid, NewProduct);
    assert !Armed(settings, admin, uid, NewButton);
    assert !Armed(settings, admin, uid, BalanceAction);
  }

  /* ---------------- /cancel ---------------- */

  /**
   `/cancel` as written: every stored setting whose value equals `str(uid)`
   is blanked; every other setting is kept.
   */
  function CancelAsWritten(settings: map<string, string>, uid: int): (r: map<string, string>)
    ensures r.Keys == settings.Keys
    ensures forall k :: k in settings && settings[k] == IntToString(uid) ==> r[k] == ""
    ensures forall k :: k in settings && settings[k] != IntToString(uid) ==> r[k] == settings[k]
  {
    map k | k in settings :: if settings[k] == IntToString(uid) then "" else settings[k]
  }

  /**
   The flags are stored as `"1"`, so as written `/cancel` leaves a pending
   flow armed for every user but user 1.
   */
  lemma CancelKeepsFlag(settings: map<string, string>, uid: int, f: Flow)
    requires uid != 1
    requires FlagKey(f, uid) in settings && settings[FlagKey(f, uid)] == "1"
    ensures FlagSet(CancelAsWritten(settings, uid), FlagKey(f, uid))
  {
    assert IntToString(1) == "1";
    if IntToString(uid) == IntToString(1) {
      IntToStringInjective(uid, 1);
    }
  }

  /** The callbacks that start a flow (`menu_deposit`, `adm_welcome`, `adm_broadcast`) store its flag as `"1"`. */
  function ArmFlow(settings: map<string, string>, f: Flow, uid: int): (r: map<string, string>)
    ensures FlagSet(r, FlagKey(f, uid)) && r[FlagKey(f, uid)] == "1"
    ensures forall k :: k != FlagKey(f, uid) ==> Get(r, k) == Get(settings, k)
  {
    Set(settings, FlagKey(f, uid), "1")
  }

  /** As written, `/cancel` straight after a flow was started leaves it armed for every user but user 1. */
  lemma ArmThenCancelAsWritten(settings: map<string, string>, f: Flow, uid: int)
    requires uid != 1
    ensures FlagSet(CancelAsWritten(ArmFlow(settings, f, uid), uid), FlagKey(f, uid))
  {
    CancelKeepsFlag(ArmFlow(settings, f, uid), uid, f);
  }

  /** The corrected `/cancel` straight after a flow was started disarms it. */
  lemma ArmThenCancel(settings: map<string, string>, admin: int, f: Flow, uid: int)
    ensures !Armed(CancelFlows(ArmFlow(settings, f, uid), uid), admin, uid, f)
  {
    CancelFlowsDisarms(ArmFlow(settings, f, uid), admin, uid);
  }

  /**
   As written, `/cancel` from a user whose id is the stored rate blanks the
   rate, after which no deposit can be quoted.
   */
  lemma CancelWipesRate(settings: map<string, string>, uid: int)
    requires Get(settings, RateKey) == Some(IntToString(uid))
    ensures Get(CancelAsWritten(settings, uid), RateKey) == Some("")
    ensures CurrentRate(CancelAsWritten(settings, uid)).None?
  {
    var s := CancelAsWritten(settings, uid);
    assert GetOr(s, RateKey, DefaultRate) == "";
    EmptyNotDecimal();
  }

  /**
   On a fresh database the stored rate `2500` is also a user id: that user's
   `/cancel` blanks the rate, and from then on no deposit can be quoted.
   */
  lemma FreshCancelWipesRate(admin: int, raw: string, now: int, delivered: set<int>, text: string)
    requires IsCancel(raw)
    ensures var st := EmptyStore().(settings := InitDefaults(map[]));
      var r := HandleMessage(st, admin, 2500, raw, now, delivered);
      CurrentRate(r.store.settings).None? && DepositQuote(r.store.settings, text).None?
  {
    var st := EmptyStore().(settings := InitDefaults(map[]));
    FreshRateIsId();
    CancelWipesRate(st.settings, 2500);
  }

  /** The start-up rate text `2500` is the id 2500 written out. */
  lemma FreshRateIsId()
    ensures Get(InitDefaults(map[]), RateKey) == Some(IntToString(2500))
  {
    assert NatToString(2) == "2";
    assert NatToString(25) == "25";
    assert NatToString(250) == "250";
    assert NatToString(2500) == DefaultRate;
  }

  /** The empty string is not a number, so `float("")` raises. */
  lemma EmptyNotDecimal()
    ensures ParseDecimal("").None?
  {
  }

  /** The empty string is not an integer, so `int("")` raises. */
  lemma EmptyNotInt()
    ensures ParseInt("").None?
  {
  }

  /**
   As written, `/cancel` from user 1 blanks every setting stored as `"1"`:
   every pending flow of every user, since the flags are stored as `"1"`.
   */
  lemma UserOneCancelDisarmsAll(st: Store, admin: int, raw: string, now: int, delivered: set<int>, g: Flow, v: int)
    requires IsCancel(raw)
    requires Get(st.settings, FlagKey(g, v)) == Some("1")
    ensures !FlagSet(HandleMessage(st, admin, 1, raw, now, delivered).store.settings, FlagKey(g, v))
  {
    assert IntToString(1) == "1";
  }

  /**
   With the start-up minimum `"1"` stored, user 1's `/cancel` also blanks the
   minimum deposit, after which every user's deposit is refused as a bad amount.
   */
  lemma UserOneCancelBreaksDeposits(st: Store, admin: int, raw: string, now: int, delivered: set<int>, u: int, text: string)
    requires IsCancel(raw)
    requires Get(st.settings, MinDepositKey) == Some(DefaultMinDeposit)
    ensures var after := HandleMessage(st, admin, 1, raw, now, delivered).store;
      MinDeposit(after.settings).None? && SubmitDeposit(after, u, text).reply == BadAmount
  {
    assert IntToString(1) == DefaultMinDeposit;
    var after := HandleMessage(st, admin, 1, raw, now, delivered).store;
    assert GetOr(after.settings, MinDepositKey, DefaultMinDeposit) == "";
    EmptyNotInt();
  }

  /** The keys a user's pending flows live under: one flag per flow and the balance action's `_type`. */
  function FlowKeys(uid: int): set<string> {
    {FlagKey(Welcome, uid), FlagKey(Broadcast, uid), FlagKey(Ban, uid), FlagKey(NewCategory, uid),
     FlagKey(NewProduct, uid), FlagKey(NewButton, uid), FlagKey(BalanceAction, uid), FlagKey(DepositAmount, uid),
     BalanceTypeKey(uid)}
  }

  /**
   `/cancel` as the comment above it describes it: every pending flow of this
   user is cleared and nothing else is touched.
   */
  function CancelFlows(settings: map<string, string>, uid: int): (r: map<string, string>)
    ensures r.Keys == settings.Keys
    ensures forall k :: k in settings && k in FlowKeys(uid) ==> r[k] == ""
    ensures forall k :: k in settings && k !in FlowKeys(uid) ==> r[k] == settings[k]
  {
    map k | k in settings :: if k in FlowKeys(uid) then "" else settings[k]
  }

  /** Every flow's flag for a user is among the keys `/cancel` clears. */
  lemma FlagInFlowKeys(f: Flow, uid: int)
    ensures FlagKey(f, uid) in FlowKeys(uid)
  {
    match f
    case Welcome =>
    case Broadcast =>
    case Ban =>
    case NewCategory =>
    case NewProduct =>
    case NewButton =>
    case BalanceAction =>
    case DepositAmount =>
  }

  /** A key that is none of the user's flags and not their `_type` key is not one of their flow keys. */
  lemma NotFlowKey(k: string, uid: int)
    requires forall f :: k != FlagKey(f, uid)
    requires k != BalanceTypeKey(uid)
    ensures k !in FlowKeys(uid)
  {
  }

  /** After the corrected `/cancel` no flow of the user is armed, so their next message reaches the menu. */
  lemma CancelFlowsDisarms(settings: map<string, string>, admin: int, uid: int)
    ensures forall f :: !Armed(CancelFlows(settings, uid), admin, uid, f)
    ensures Selected(CancelFlows(settings, uid), admin, uid) == None
  {
    forall f ensures !Armed(CancelFlows(settings, uid), admin, uid, f) {
      FlagInFlowKeys(f, uid);
    }
  }

  /** The corrected `/cancel` leaves every other user's flags and every ordinary setting as they were. */
  lemma CancelFlowsFrame(settings: map<string, string>, uid: int, g: Flow, v: int, k: string)
    requires v != uid
    requires k == WelcomeKey || k == RateKey || k == MinDepositKey || k == FlagKey(g, v)
    ensures Get(CancelFlows(settings, uid), k) == Get(settings, k)
  {
    forall f ensures k != FlagKey(f, uid) {
      FlagKeyNotSetting(f, uid);
      if k == FlagKey(g, v) && k == FlagKey(f, uid) {
        FlagKeyInjective(g, v, f, uid);
      }
    }
    if k == FlagKey(g, v) {
      FlagKeyNotBalanceType(g, v, uid);
    } else {
      NotBalanceTypeKey(k, uid);
    }
    NotFlowKey(k, uid);
  }

  /** No stored setting collides with a user's balance-action key. */
  lemma NotBalanceTypeKey(k: string, uid: int)
    requires k == WelcomeKey || k == RateKey || k == MinDepositKey
    ensures k != BalanceTypeKey(uid)
  {
    assert BalanceTypeKey(uid) == FlowPrefix(BalanceAction) + (IntToString(uid) + "_type");
    assert BalanceTypeKey(uid)[0] == 'a';
  }

  /* ---------------- broadcast ---------------- */

  /**
   The broadcast flow: one delivery attempt per stored user, counted as sent
   when the user is in `delivered` and as failed otherwise. The flag is
   cleared; the store is otherwise unchanged.
   */
  function BroadcastFlow(st: Store, uid: int, delivered: set<int>): (r: Step)
    ensures r.store == st.(settings := ClearFlag(st.settings, FlagKey(Broadcast, uid)))
    ensures r.reply.BroadcastDone?
    ensures r.reply.sent + r.reply.failed == |st.users|
    ensures r.reply.sent == |st.users.Keys * delivered|
    ensures st.users.Keys <= delivered ==> r.reply.failed == 0
  {
    var users := st.users.Keys;
    PartitionCount(users, delivered);
    Step(st.(settings := ClearFlag(st.settings, FlagKey(Broadcast, uid))),
         BroadcastDone(|users * delivered|, |users - delivered|))
  }

  /** Every recipient is counted once, as delivered or as failed. */
  lemma PartitionCount(users: set<int>, delivered: set<int>)
    ensures |users * delivered| + |users - delivered| == |users|
    ensures users <= delivered ==> |users - delivered| == 0
  {
    assert users == (users * delivered) + (users - delivered);
    assert (users * delivered) !! (users - delivered);
    if users <= delivered {
      assert users - delivered == {};
    }
  }

  /* ---------------- the handler ---------------- */

  /**
   The flow `f` run on the stripped text. Each flow keeps to its own tables:
   no flow places an order, only the deposit flow adds a deposit, and only the
   ban and balance flows change a user.
   */
  function RunFlow(st: Store, f: Flow, uid: int, text: string, now: int, delivered: set<int>): (r: Step)
    ensures r.store.orders == st.orders
    ensures f != DepositAmount ==> r.store.deposits == st.deposits && r.store.nextDepositId == st.nextDepositId
    ensures f != Ban && f != BalanceAction ==> r.store.users == st.users
  {
    match f
    case Welcome => WelcomeFlow(st, uid, text)
    case Broadcast => BroadcastFlow(st, uid, delivered)
    case Ban => BanFlow(st, uid, text)
    case NewCategory => NewCategoryFlow(st, uid, text, now)
    case NewProduct => NewProductFlow(st, uid, text, now)
    case NewButton => NewButtonFlow(st, uid, text)
    case BalanceAction => BalanceFlow(st, uid, text)
    case DepositAmount => SubmitDeposit(st, uid, text)
  }

  /** `(m.text or "").strip().lower() == "/cancel"`. */
  predicate IsCancel(text: string) {
    Lower(Trim(text)) == "/cancel"
  }

  /**
   `message_handler`: `/cancel` (in any case, around any whitespace) blanks
   every setting whose value is the user's id written out; otherwise the first
   armed flow in priority order runs on the stripped text; otherwise the
   operator or the user gets their menu and nothing changes.
   */
  function HandleMessage(st: Store, admin: int, uid: int, raw: string, now: int, delivered: set<int>): (r: Step)
    ensures IsCancel(raw) ==> r.reply == OperationCancelled && r.store == st.(settings := r.store.settings)
    ensures IsCancel(raw) ==> r.store.settings.Keys == st.settings.Keys
    ensures IsCancel(raw) ==> forall k :: k in st.settings ==>
      r.store.settings[k] == if st.settings[k] == IntToString(uid) then "" else st.settings[k]
    ensures !IsCancel(raw) && FirstArmed(f => Armed(st.settings, admin, uid, f), Priority).None? ==>
      r == Step(st, MainMenu(uid == admin))
    ensures !IsCancel(raw) && FirstArmed(f => Armed(st.settings, admin, uid, f), Priority).Some? ==>
      r == RunFlow(st, FirstArmed(f => Armed(st.settings, admin, uid, f), Priority).value, uid, Trim(raw), now, delivered)
  {
    SelectedIsFirstArmed(st.settings, admin, uid);
    if IsCancel(raw) then Step(st.(settings := CancelAsWritten(st.settings, uid)), OperationCancelled)
    else
      var flow := Selected(st.settings, admin, uid);
      if flow.None? then Step(st, MainMenu(uid == admin))
      else RunFlow(st, flow.value, uid, Trim(raw), now, delivered)
  }

  /** A message that is not `/cancel` runs the flow the chain of tests selects. */
  lemma HandleMessageRuns(st: Store, admin: int, uid: int, raw: string, now: int, delivered: set<int>)
    requires !IsCancel(raw) && Selected(st.settings, admin, uid).Some?
    ensures HandleMessage(st, admin, uid, raw, now, delivered)
      == RunFlow(st, Selected(st.settings, admin, uid).value, uid, Trim(raw), now, delivered)
  {
  }

  /**
   The handler with the corrected `/cancel`: it clears exactly this user's
   pending flows, so none of them is armed afterwards, and it agrees with the
   handler as written on every other message.
   */
  function HandleMessageCorrected(st: Store, admin: int, uid: int, raw: string, now: int, delivered: set<int>): (r: Step)
    ensures IsCancel(raw) ==> r.reply == OperationCancelled && r.store == st.(settings := r.store.settings)
    ensures IsCancel(raw) ==> forall f :: !Armed(r.store.settings, admin, uid, f)
    ensures IsCancel(raw) ==> forall g, v :: v != uid ==>
      Get(r.store.settings, FlagKey(g, v)) == Get(st.settings, FlagKey(g, v))
    ensures !IsCancel(raw) ==> r == HandleMessage(st, admin, uid, raw, now, delivered)
  {
    if IsCancel(raw) then
      CancelFlowsDisarms(st.settings, admin, uid);
      forall g, v | v != uid
        ensures Get(CancelFlows(st.settings, uid), FlagKey(g, v)) == Get(st.settings, FlagKey(g, v))
      {
        CancelFlowsFrame(st.settings, uid, g, v, FlagKey(g, v));
      }
      Step(st.(settings := CancelFlows(st.settings, uid)), OperationCancelled)
    else HandleMessage(st, admin, uid, raw, now, delivered)
  }

  /** The settings keys a flow may write: its own flag, plus the welcome text or the balance action's `_type`. */
  function WrittenKeys(f: Flow, uid: int): set<string> {
    match f
    case Welcome => {FlagKey(Welcome, uid), WelcomeKey}
    case BalanceAction => {FlagKey(BalanceAction, uid), BalanceTypeKey(uid)}
    case _ => {FlagKey(f, uid)}
  }

  /**
   Only the add-button flow (a parent id that is not a number or does not fit
   in 64 bits) and the ban flow (a target that does not fit in 64 bits) can
   stop short, and then nothing changes.
   */
  lemma FlowUnhandled(st: Store, f: Flow, uid: int, text: string, now: int, delivered: set<int>)
    ensures var r := RunFlow(st, f, uid, text, now, delivered);
      r.reply == Unhandled ==> (f == NewButton || f == Ban) && r.store == st
  {
    match f
    case NewProduct => ProductFlowAnswers(st, uid, ReadProduct(text), now);
    case BalanceAction => BalanceFlowAnswers(st, uid, ReadBalance(text));
    case DepositAmount => DepositAnswers(st, uid, DepositQuote(st.settings, text), MinDeposit(st.settings));
    case _ =>
  }

  /** The add-product flow always answers. */
  lemma ProductFlowAnswers(st: Store, uid: int, line: Parse<ProductInput>, now: int)
    ensures ApplyProduct(st, uid, line, now).reply != Unhandled
  {
  }

  /** The balance flow always answers. */
  lemma BalanceFlowAnswers(st: Store, uid: int, line: Parse<(int, real)>)
    ensures ApplyBalance(st, uid, line).reply != Unhandled
  {
  }

  /** The deposit flow always answers. */
  lemma DepositAnswers(st: Store, uid: int, quote: Option<Quote>, minimum: Option<int>)
    ensures RecordDeposit(st, uid, quote, minimum).reply != Unhandled
  {
  }

  /** The welcome and broadcast flows clear their flag. */
  lemma SettingFlowsClearFlag(st: Store, f: Flow, uid: int, text: string, now: int, delivered: set<int>)
    requires f == Welcome || f == Broadcast
    ensures var r := RunFlow(st, f, uid, text, now, delivered);
      r.reply != Unhandled ==> !FlagSet(r.store.settings, FlagKey(f, uid))
  {
    ClearFlagFrame(st.settings, FlagKey(f, uid));
  }

  /** The category and product flows clear their flag. */
  lemma CatalogFlowsClearFlag(st: Store, f: Flow, uid: int, text: string, now: int, delivered: set<int>)
    requires f == NewCategory || f == NewProduct
    ensures var r := RunFlow(st, f, uid, text, now, delivered);
      r.reply != Unhandled ==> !FlagSet(r.store.settings, FlagKey(f, uid))
  {
    ClearFlagFrame(st.settings, FlagKey(f, uid));
  }

  /** The button and ban flows clear their flag whenever they answer. */
  lemma RaisingFlowsClearFlag(st: Store, f: Flow, uid: int, text: string, now: int, delivered: set<int>)
    requires f == NewButton || f == Ban
    ensures var r := RunFlow(st, f, uid, text, now, delivered);
      r.reply != Unhandled ==> !FlagSet(r.store.settings, FlagKey(f, uid))
  {
    ClearFlagFrame(st.settings, FlagKey(f, uid));
  }

  /** The balance flow clears its flag, and then the action key, which is a different key. */
  lemma BalanceFlowClearsFlag(st: Store, f: Flow, uid: int, text: string, now: int, delivered: set<int>)
    requires f == BalanceAction
    ensures var r := RunFlow(st, f, uid, text, now, delivered);
      r.reply != Unhandled ==> !FlagSet(r.store.settings, FlagKey(f, uid))
  {
    var r := BalanceFlow(st, uid, text);
    assert RunFlow(st, f, uid, text, now, delivered) == r;
    var once := ClearFlag(st.settings, FlagKey(f, uid));
    assert r.store.settings == ClearFlag(once, BalanceTypeKey(uid));
    FlagKeyNotBalanceType(BalanceAction, uid, uid);
    ClearFlagFrame(st.settings, FlagKey(f, uid));
    ClearFlagFrame(once, BalanceTypeKey(uid));
  }

  /** The deposit flow clears its flag. */
  lemma DepositFlowClearsFlag(st: Store, f: Flow, uid: int, text: string, now: int, delivered: set<int>)
    requires f == DepositAmount
    ensures var r := RunFlow(st, f, uid, text, now, delivered);
      r.reply != Unhandled ==> !FlagSet(r.store.settings, FlagKey(f, uid))
  {
    ClearFlagFrame(st.settings, FlagKey(f, uid));
  }

  /**
   A flow that runs to its end clears its own flag. Proved flow by flow, which
   keeps each proof small.
   */
  lemma FlowClearsOwnFlag(st: Store, f: Flow, uid: int, text: string, now: int, delivered: set<int>)
    ensures var r := RunFlow(st, f, uid, text, now, delivered);
      r.reply != Unhandled ==> !FlagSet(r.store.settings, FlagKey(f, uid))
  {
    match f
    case Welcome => SettingFlowsClearFlag(st, f, uid, text, now, delivered);
    case Broadcast => SettingFlowsClearFlag(st, f, uid, text, now, delivered);
    case NewCategory => CatalogFlowsClearFlag(st, f, uid, text, now, delivered);
    case NewProduct => CatalogFlowsClearFlag(st, f, uid, text, now, delivered);
    case NewButton => RaisingFlowsClearFlag(st, f, uid, text, now, delivered);
    case Ban => RaisingFlowsClearFlag(st, f, uid, text, now, delivered);
    case BalanceAction => BalanceFlowClearsFlag(st, f, uid, text, now, delivered);
    case DepositAmount => DepositFlowClearsFlag(st, f, uid, text, now, delivered);
  }

  /** A flow writes no setting outside its own keys. */
  lemma FlowWritesOnly(st: Store, f: Flow, uid: int, text: string, now: int, delivered: set<int>)
    ensures var r := RunFlow(st, f, uid, text, now, delivered);
      forall k :: k !in WrittenKeys(f, uid) ==> Get(r.store.settings, k) == Get(st.settings, k)
  {
    var key := FlagKey(f, uid);
    ClearFlagFrame(st.settings, key);
    if f == BalanceAction {
      ClearFlagFrame(ClearFlag(st.settings, key), BalanceTypeKey(uid));
    }
  }

  /** A flag key of another flow or another user is never among the keys a flow writes. */
  lemma OtherFlagNotWritten(f: Flow, uid: int, g: Flow, v: int)
    requires g != f || v != uid
    ensures FlagKey(g, v) !in WrittenKeys(f, uid)
  {
    FlagKeyNotSetting(g, v);
    FlagKeyNotBalanceType(g, v, uid);
    if FlagKey(g, v) == FlagKey(f, uid) {
      FlagKeyInjective(g, v, f, uid);
    }
  }

  /**
   As written, one message that is not `/cancel` runs at most one flow and
   leaves every other pending flow, of this user or any other, exactly as it
   was; `/cancel` keeps only the flags whose value is not the caller's id.
   */
  lemma MessageKeepsOtherFlags(st: Store, admin: int, uid: int, raw: string, now: int, delivered: set<int>, g: Flow, v: int)
    requires v != uid || Selected(st.settings, admin, uid) != Some(g)
    requires IsCancel(raw) ==> Get(st.settings, FlagKey(g, v)) != Some(IntToString(uid))
    ensures var r := HandleMessage(st, admin, uid, raw, now, delivered);
      Get(r.store.settings, FlagKey(g, v)) == Get(st.settings, FlagKey(g, v))
  {
    if !IsCancel(raw) {
      var flow := Selected(st.settings, admin, uid);
      if flow.Some? {
        HandleMessageRuns(st, admin, uid, raw, now, delivered);
        FlowWritesOnly(st, flow.value, uid, Trim(raw), now, delivered);
        OtherFlagNotWritten(flow.value, uid, g, v);
      }
    }
  }

  /**
   With the corrected `/cancel`, one message leaves every other pending flow,
   of this user or any other, exactly as it was, and `/cancel` touches only
   the caller's own flows.
   */
  lemma MessageKeepsOtherFlagsCorrected(st: Store, admin: int, uid: int, raw: string, now: int, delivered: set<int>, g: Flow, v: int)
    requires v != uid || Selected(st.settings, admin, uid) != Some(g)
    requires !IsCancel(raw) || v != uid
    ensures var r := HandleMessageCorrected(st, admin, uid, raw, now, delivered);
      Get(r.store.settings, FlagKey(g, v)) == Get(st.settings, FlagKey(g, v))
  {
    if !IsCancel(raw) {
      MessageKeepsOtherFlags(st, admin, uid, raw, now, delivered, g, v);
    }
  }

  /** The flow a message fires has its flag cleared afterwards, unless the button or ban flow raised. */
  lemma MessageClearsFiredFlag(st: Store, admin: int, uid: int, raw: string, now: int, delivered: set<int>)
    requires !IsCancel(raw) && Selected(st.settings, admin, uid).Some?
    ensures var f := Selected(st.settings, admin, uid).value;
      var r := HandleMessage(st, admin, uid, raw, now, delivered);
      r.reply != Unhandled ==> !FlagSet(r.store.settings, FlagKey(f, uid))
  {
    HandleMessageRuns(st, admin, uid, raw, now, delivered);
    FlowClearsOwnFlag(st, Selected(st.settings, admin, uid).value, uid, Trim(raw), now, delivered);
  }

  /** With no flow armed and no `/cancel`, a message changes nothing. */
  lemma IdleMessageChangesNothing(st: Store, admin: int, uid: int, raw: string, now: int, delivered: set<int>)
    requires !IsCancel(raw)
    requires forall f :: !Armed(st.settings, admin, uid, f)
    ensures HandleMessage(st, admin, uid, raw, now, delivered).store == st
  {
  }

  /** For anyone but the operator, a message while a deposit is pending is a deposit submission. */
  lemma UserDepositMessage(st: Store, admin: int, uid: int, raw: string, now: int, delivered: set<int>)
    requires uid != admin && !IsCancel(raw) && FlagSet(st.settings, FlagKey(DepositAmount, uid))
    ensures HandleMessage(st, admin, uid, raw, now, delivered) == SubmitDeposit(st, uid, Trim(raw))
  {
    SelectedForUser(st.settings, admin, uid);
    assert Selected(st.settings, admin, uid).value == DepositAmount;
    assert HandleMessage(st, admin, uid, raw, now, delivered) == RunFlow(st, DepositAmount, uid, Trim(raw), now, delivered);
  }

  /** For anyone but the operator, a message with no deposit pending only shows the menu. */
  lemma UserIdleMessage(st: Store, admin: int, uid: int, raw: string, now: int, delivered: set<int>)
    requires uid != admin && !IsCancel(raw) && !FlagSet(st.settings, FlagKey(DepositAmount, uid))
    ensures HandleMessage(st, admin, uid, raw, now, delivered) == Step(st, MainMenu(false))
  {
    SelectedForUser(st.settings, admin, uid);
  }

  /**
   Someone who is not the operator cannot reach the users, the catalog, the
   buttons or the orders by message: at most their deposit request and
   settings change.
   */
  lemma UserMessageFrame(st: Store, admin: int, uid: int, raw: string, now: int, delivered: set<int>)
    requires uid != admin
    ensures var r := HandleMessage(st, admin, uid, raw, now, delivered);
      r.store == st.(settings := r.store.settings, deposits := r.store.deposits, nextDepositId := r.store.nextDepositId)
  {
    if IsCancel(raw) {
    } else if FlagSet(st.settings, FlagKey(DepositAmount, uid)) {
      UserDepositMessage(st, admin, uid, raw, now, delivered);
      DepositFrame(st, uid, DepositQuote(st.settings, Trim(raw)), MinDeposit(st.settings));
    } else {
      UserIdleMessage(st, admin, uid, raw, now, delivered);
    }
  }
}

=== FILE: ledger.dfy ===
/**
 Balances, bans, purchases and deposits: the `users` primitives, the `buy:`
 callback, the deposit-amount flow, `/confirm_deposit` and `/reject_deposit`,
 and the operator's balance and ban flows.
 */
module Ledger {
  import opened Wrappers
  import opened Text
  import opened Store
  import opened Settings
  import opened Catalog

  /* ---------------- users ---------------- */

  /** `get_balance(uid)`: a user without a row has balance 0. */
  function GetBalance(st: Store, uid: int): (r: real)
    ensures uid !in st.users ==> r == 0.0
    ensures uid in st.users ==> r == st.users[uid].balance
  {
    if uid in st.users then st.users[uid].balance else 0.0
  }

  /** `is_banned(uid)`: the row exists and its flag is set. */
  function IsBanned(st: Store, uid: int): (r: bool)
    ensures uid !in st.users ==> !r
    ensures uid in st.users ==> r == st.users[uid].banned
  {
    uid in st.users && st.users[uid].banned
  }

  /** `r` differs from `st` at most in the row of user `uid`. */
  ghost predicate OnlyUserChanged(st: Store, r: Store, uid: int) {
    && r == st.(users := r.users)
    && (forall u :: u != uid ==> (u in r.users <==> u in st.users))
    && (forall u :: u != uid && u in st.users ==> r.users[u] == st.users[u])
  }

  /** `ensure_user`: `INSERT OR IGNORE` of a row with balance 0, not banned. */
  function EnsureUser(st: Store, uid: int): (r: Store)
    ensures uid in r.users
    ensures uid in st.users ==> r == st
    ensures uid !in st.users ==> r.users[uid] == User(0.0, false)
    ensures OnlyUserChanged(st, r, uid)
  {
    if uid in st.users then st else st.(users := st.users[uid := User(0.0, false)])
  }

  /** `set_balance(uid, amount)`: creates the row if needed, then overwrites the balance. */
  function SetBalance(st: Store, uid: int, amount: real): (r: Store)
    ensures uid in r.users
    ensures GetBalance(r, uid) == amount
    ensures IsBanned(r, uid) == IsBanned(st, uid)
    ensures OnlyUserChanged(st, r, uid)
  {
    var s := EnsureUser(st, uid);
    s.(users := s.users[uid := s.users[uid].(balance := amount)])
  }

  /** `change_balance(uid, delta)`: the old balance (0 when absent) plus `delta`. */
  function ChangeBalance(st: Store, uid: int, delta: real): (r: Store)
    ensures uid in r.users
    ensures GetBalance(r, uid) == GetBalance(st, uid) + delta
    ensures IsBanned(r, uid) == IsBanned(st, uid)
    ensures OnlyUserChanged(st, r, uid)
  {
    SetBalance(st, uid, GetBalance(st, uid) + delta)
  }

  /** `ban_user(uid)`: creates the row if needed and sets the flag. */
  function BanUser(st: Store, uid: int): (r: Store)
    ensures uid in r.users && IsBanned(r, uid)
    ensures GetBalance(r, uid) == GetBalance(st, uid)
    ensures OnlyUserChanged(st, r, uid)
  {
    var s := EnsureUser(st, uid);
    s.(users := s.users[uid := s.users[uid].(banned := true)])
  }

  /** `unban_user(uid)`: clears the flag of an existing row; a missing user stays missing. */
  function UnbanUser(st: Store, uid: int): (r: Store)
    ensures !IsBanned(r, uid)
    ensures uid in r.users <==> uid in st.users
    ensures GetBalance(r, uid) == GetBalance(st, uid)
    ensures OnlyUserChanged(st, r, uid)
  {
    if uid in st.users then st.(users := st.users[uid := st.users[uid].(banned := false)]) else st
  }

  /** Banning twice is banning once; unbanning a banned user lifts the ban without touching the balance. */
  lemma BanUnban(st: Store, uid: int)
    ensures BanUser(BanUser(st, uid), uid) == BanUser(st, uid)
    ensures !IsBanned(UnbanUser(BanUser(st, uid), uid), uid)
    ensures GetBalance(UnbanUser(BanUser(st, uid), uid), uid) == GetBalance(st, uid)
    ensures uid in st.users && !st.users[uid].banned ==> UnbanUser(BanUser(st, uid), uid) == st
  {
  }

  /** Two balance changes add up: no update is lost. */
  lemma ChangeBalanceTwice(st: Store, uid: int, a: real, b: real)
    ensures ChangeBalance(ChangeBalance(st, uid, a), uid, b) == ChangeBalance(st, uid, a + b)
  {
  }

  function Sum(ds: seq<real>): real {
    if ds == [] then 0.0 else ds[0] + Sum(ds[1..])
  }

  /** Applies `change_balance(uid, d)` for each `d` in turn. */
  function ApplyDeltas(st: Store, uid: int, ds: seq<real>): Store
    decreases |ds|
  {
    if ds == [] then st else ApplyDeltas(ChangeBalance(st, uid, ds[0]), uid, ds[1..])
  }

  /** Any number of balance changes add up to their sum and touch no other user. */
  lemma {:induction false} ApplyDeltasSum(st: Store, uid: int, ds: seq<real>)
    ensures GetBalance(ApplyDeltas(st, uid, ds), uid) == GetBalance(st, uid) + Sum(ds)
    ensures ds != [] ==> OnlyUserChanged(st, ApplyDeltas(st, uid, ds), uid)
    decreases |ds|
  {
    if ds != [] {
      var s1 := ChangeBalance(st, uid, ds[0]);
      ApplyDeltasSum(s1, uid, ds[1..]);
    }
  }

  /* ---------------- purchase ---------------- */

  /** What user `uid` has paid for the orders in `orders`. */
  function Spent(orders: seq<Order>, uid: int): real {
    if orders == [] then 0.0
    else
      var last := orders[|orders| - 1];
      Spent(orders[..|orders| - 1], uid) + (if last.userId == uid then last.price else 0.0)
  }

  /**
   The `buy:<pid>` callback: a missing product or a balance below the price
   changes nothing; otherwise the price is taken and one `new` order appended.
   The ban flag is never consulted.
   */
  function Purchase(st: Store, uid: int, pid: int): (r: Step)
    ensures pid !in st.products ==> r == Step(st, ProductNotFound)
    ensures pid in st.products && GetBalance(st, uid) < st.products[pid].price ==>
      r == Step(st, InsufficientFunds(st.products[pid].price, GetBalance(st, uid)))
    ensures r.reply.Purchased? <==> pid in st.products && GetBalance(st, uid) >= st.products[pid].price
    ensures r.reply.Purchased? ==>
      && r.reply.orderId == |st.orders| + 1
      && r.store.orders == st.orders + [Order(uid, pid, st.products[pid].price, "new")]
      && GetBalance(r.store, uid) == GetBalance(st, uid) - st.products[pid].price
      && OnlyUserChanged(st.(orders := r.store.orders), r.store, uid)
  {
    if pid !in st.products then Step(st, ProductNotFound)
    else
      var price := st.products[pid].price;
      var balance := GetBalance(st, uid);
      if balance < price then Step(st, InsufficientFunds(price, balance))
      else
        var paid := ChangeBalance(st, uid, -price);
        Step(paid.(orders := st.orders + [Order(uid, pid, price, "new")]), Purchased(|st.orders| + 1))
  }

  /**
   `buy:<arg>`: an argument that is not an integer, or one outside 64 bits
   that the product lookup cannot bind, raises, and the callback's handler
   answers with an internal error.
   */
  function BuyCallback(st: Store, uid: int, arg: string): (r: Step)
    ensures ParseInt(arg).None? || !Fits64(ParseInt(arg).value) ==> r == Step(st, InternalError)
    ensures ParseInt(arg).Some? && Fits64(ParseInt(arg).value) ==> r == Purchase(st, uid, ParseInt(arg).value)
  {
    match ParseInt(arg)
    case None => Step(st, InternalError)
    case Some(pid) => if Fits64(pid) then Purchase(st, uid, pid) else Step(st, InternalError)
  }

  /** Appending an order adds its price to its buyer's total only. */
  lemma SpentAppend(orders: seq<Order>, o: Order, uid: int)
    ensures Spent(orders + [o], uid) == Spent(orders, uid) + (if o.userId == uid then o.price else 0.0)
  {
    assert (orders + [o])[..|orders|] == orders;
  }

  /** A purchase moves money from the buyer's balance into their orders: balance plus spending is unchanged for every user. */
  lemma PurchaseConservesFunds(st: Store, uid: int, pid: int, u: int)
    ensures var r := Purchase(st, uid, pid).store;
      GetBalance(r, u) + Spent(r.orders, u) == GetBalance(st, u) + Spent(st.orders, u)
  {
    var r := Purchase(st, uid, pid);
    if r.reply.Purchased? {
      SpentAppend(st.orders, Order(uid, pid, st.products[pid].price, "new"), u);
    }
  }

  /** A banned user buys exactly as they would unbanned. */
  lemma PurchaseIgnoresBan(st: Store, uid: int, pid: int)
    ensures Purchase(BanUser(st, uid), uid, pid).reply.Purchased? <==> Purchase(st, uid, pid).reply.Purchased?
    ensures Purchase(BanUser(st, uid), uid, pid).store.orders == Purchase(st, uid, pid).store.orders
  {
  }

  /** Editing a product after it was bought leaves the order's price as paid. */
  lemma PriceFrozen(st: Store, uid: int, pid: int, name: Option<string>, price: Option<real>, description: Option<string>)
    requires Purchase(st, uid, pid).reply.Purchased?
    ensures var r := Purchase(st, uid, pid).store;
      EditProduct(r, pid, name, price, description).orders[|st.orders|].price == st.products[pid].price
  {
  }

  /** A product just added can be bought at its price by a user who can afford it. */
  lemma AddThenBuy(st: Store, cid: int, name: string, price: real, description: string, now: int, uid: int)
    requires GetBalance(st, uid) >= price
    ensures var added := AddProduct(st, cid, name, price, description, now);
      var r := Purchase(added.store, uid, added.reply.productId);
      && r.reply.Purchased?
      && r.store.orders[|st.orders|] == Order(uid, st.nextProductId, price, "new")
      && GetBalance(r.store, uid) == GetBalance(st, uid) - price
  {
  }

  /* ---------------- deposits ---------------- */

  /** Python `int(x)` on a float: truncation toward zero, which moves by less than one. */
  function Trunc(x: real): (r: int)
    ensures x >= 0.0 ==> r >= 0 && r as real <= x < r as real + 1.0
    ensures x < 0.0 ==> r <= 0 && r as real - 1.0 < x <= r as real
  {
    if x >= 0.0 then x.Floor else -((-x).Floor)
  }

  /**
   `int(amount / rate)`: the credits a cash amount buys at a rate. For a
   non-negative amount at a positive rate they are the whole number of rate
   units the amount covers.
   */
  function Credits(amount: real, rate: real): (c: int)
    requires rate != 0.0
    ensures amount >= 0.0 && rate > 0.0 ==> c >= 0 && c as real * rate <= amount < (c + 1) as real * rate
  {
    var x := amount / rate;
    var c := Trunc(x);
    if amount >= 0.0 && rate > 0.0 then
      DivNonNegative(amount, rate);
      DivLower(amount, rate, c as real);
      DivUpper(amount, rate, (c + 1) as real);
      c
    else c
  }

  /** What a deposit text is worth: the cash amount and the credits it converts to. */
  datatype Quote = Quote(amount: real, credits: int)

  /**
   `float(text.replace(",", ""))` cash units at `float(syp_rate)` per credit,
   converted to `int(amount / rate)` credits; nothing when a number does not
   parse or the rate is zero, where the flow raises.
   */
  function DepositQuote(settings: map<string, string>, text: string): (r: Option<Quote>)
    ensures r.Some? <==> ParseDecimal(Remove(text, ',')).Some? && CurrentRate(settings).Some? && CurrentRate(settings).value != 0.0
    ensures r.Some? ==> Some(r.value.amount) == ParseDecimal(Remove(text, ','))
    ensures r.Some? ==> r.value.credits == Credits(r.value.amount, CurrentRate(settings).value)
  {
    var amount := ParseDecimal(Remove(text, ','));
    var rate := CurrentRate(settings);
    if amount.None? || rate.None? || rate.value == 0.0 then None
    else Some(Quote(amount.value, Credits(amount.value, rate.value)))
  }

  lemma DivNonNegative(amount: real, rate: real)
    requires amount >= 0.0 && rate > 0.0
    ensures amount / rate >= 0.0
  {
    var x := amount / rate;
    assert x * rate == amount;
    if x < 0.0 {
      MulMonoStrict(x, 0.0, rate);
    }
  }

  lemma DivLower(amount: real, rate: real, lo: real)
    requires rate > 0.0 && lo <= amount / rate
    ensures lo * rate <= amount
  {
    var x := amount / rate;
    assert x * rate == amount;
    MulMono(lo, x, rate);
  }

  lemma DivUpper(amount: real, rate: real, hi: real)
    requires rate > 0.0 && amount / rate < hi
    ensures amount < hi * rate
  {
    var x := amount / rate;
    assert x * rate == amount;
    MulMonoStrict(x, hi, rate);
  }

  lemma MulMono(a: real, b: real, k: real)
    requires a <= b && k > 0.0
    ensures a * k <= b * k
  {
  }

  lemma MulMonoStrict(a: real, b: real, k: real)
    requires a < b && k > 0.0
    ensures a * k < b * k
  {
  }

  /**
   The deposit-amount flow: the text is quoted against the current rate and
   the minimum is read, then the request is recorded or refused.
   */
  function SubmitDeposit(st: Store, uid: int, text: string): (r: Step)
    ensures r.store.settings == ClearFlag(st.settings, FlagKey(DepositAmount, uid))
    ensures DepositQuote(st.settings, text).None? || MinDeposit(st.settings).None? ==> r.reply == BadAmount
    ensures r.reply.DepositRequested? <==>
      && DepositQuote(st.settings, text).Some? && MinDeposit(st.settings).Some?
      && DepositQuote(st.settings, text).value.credits >= MinDeposit(st.settings).value
      && Fits64(DepositQuote(st.settings, text).value.credits)
    ensures DepositQuote(st.settings, text).Some? && !Fits64(DepositQuote(st.settings, text).value.credits)
      && MinDeposit(st.settings).Some? && DepositQuote(st.settings, text).value.credits >= MinDeposit(st.settings).value
      ==> r.reply == BadAmount
    ensures r.reply.DepositRequested? ==>
      var q := DepositQuote(st.settings, text).value;
      && r.reply == DepositRequested(st.nextDepositId, q.credits)
      && r.store.deposits == st.deposits[st.nextDepositId := Deposit(uid, q.amount, q.credits, Pending)]
      && r.store.nextDepositId == st.nextDepositId + 1
    ensures !r.reply.DepositRequested? ==> r.store == st.(settings := r.store.settings)
    ensures r.store == st.(settings := r.store.settings, deposits := r.store.deposits, nextDepositId := r.store.nextDepositId)
  {
    var quote := DepositQuote(st.settings, text);
    var minimum := MinDeposit(st.settings);
    DepositFrame(st, uid, quote, minimum);
    DepositAccepted(st, uid, quote, minimum);
    DepositRefused(st, uid, quote, minimum);
    RecordDeposit(st, uid, quote, minimum)
  }

  /**
   Recording a quote: one of at least the minimum adds one `pending` row;
   fewer credits add none; a number that did not parse (the amount, the rate
   or the minimum), a zero rate, or a credit count outside 64 bits (which the
   INSERT cannot bind) raise and are answered with `BadAmount`. The flag is
   cleared on every path.
   */
  function RecordDeposit(st: Store, uid: int, quote: Option<Quote>, minimum: Option<int>): (r: Step)
    ensures r.store.settings == ClearFlag(st.settings, FlagKey(DepositAmount, uid))
    ensures !r.reply.DepositRequested? ==> r.store == st.(settings := r.store.settings)
  {
    var settings := ClearFlag(st.settings, FlagKey(DepositAmount, uid));
    if quote.None? || minimum.None? then Step(st.(settings := settings), BadAmount)
    else if quote.value.credits < minimum.value then Step(st.(settings := settings), BelowMinimum(minimum.value))
    else if !Fits64(quote.value.credits) then Step(st.(settings := settings), BadAmount)
    else
      var id := st.nextDepositId;
      Step(st.(settings := settings,
               deposits := st.deposits[id := Deposit(uid, quote.value.amount, quote.value.credits, Pending)],
               nextDepositId := id + 1),
        DepositRequested(id, quote.value.credits))
  }

  /**
   A deposit is requested exactly when the text and both settings parse, the
   quote reaches the minimum and its credits fit in 64 bits.
   */
  lemma DepositAccepted(st: Store, uid: int, quote: Option<Quote>, minimum: Option<int>)
    ensures RecordDeposit(st, uid, quote, minimum).reply.DepositRequested? <==>
      quote.Some? && minimum.Some? && quote.value.credits >= minimum.value && Fits64(quote.value.credits)
  {
  }

  /**
   A quote below the minimum is refused with the minimum; one that does not
   exist, or whose credits do not fit in 64 bits, is refused as a bad amount.
   */
  lemma DepositRefused(st: Store, uid: int, quote: Option<Quote>, minimum: Option<int>)
    ensures var r := RecordDeposit(st, uid, quote, minimum);
      && (quote.Some? && minimum.Some? && quote.value.credits < minimum.value ==> r.reply == BelowMinimum(minimum.value))
      && (quote.None? || minimum.None? ==> r.reply == BadAmount)
      && (quote.Some? && minimum.Some? && quote.value.credits >= minimum.value && !Fits64(quote.value.credits) ==>
            r.reply == BadAmount)
  {
  }

  /** An accepted deposit is exactly one new `pending` row, under a fresh id, with the quoted amount and credits. */
  lemma DepositAdded(st: Store, uid: int, quote: Option<Quote>, minimum: Option<int>)
    requires Valid(st)
    requires RecordDeposit(st, uid, quote, minimum).reply.DepositRequested?
    ensures quote.Some?
    ensures var r := RecordDeposit(st, uid, quote, minimum);
      && r.reply == DepositRequested(st.nextDepositId, quote.value.credits)
      && st.nextDepositId !in st.deposits
      && r.store.deposits == st.deposits[st.nextDepositId := Deposit(uid, quote.value.amount, quote.value.credits, Pending)]
      && r.store == st.(settings := r.store.settings, deposits := r.store.deposits, nextDepositId := st.nextDepositId + 1)
  {
  }

  /** Recording a deposit touches only the settings and the deposits table with its counter. */
  lemma DepositFrame(st: Store, uid: int, quote: Option<Quote>, minimum: Option<int>)
    ensures var r := RecordDeposit(st, uid, quote, minimum);
      r.store == st.(settings := r.store.settings, deposits := r.store.deposits, nextDepositId := r.store.nextDepositId)
  {
  }

  /** A row stored under the deposit counter, with the counter advanced, keeps every id below it. */
  lemma NewDepositValid(st: Store, settings: map<string, string>, d: Deposit)
    requires Valid(st)
    ensures Valid(st.(settings := settings, deposits := st.deposits[st.nextDepositId := d], nextDepositId := st.nextDepositId + 1))
  {
  }

  /** Submitting a deposit keeps every id below its counter. */
  lemma SubmitDepositKeepsValid(st: Store, uid: int, text: string)
    requires Valid(st)
    ensures Valid(SubmitDeposit(st, uid, text).store)
  {
    var quote := DepositQuote(st.settings, text);
    var minimum := MinDeposit(st.settings);
    var r := RecordDeposit(st, uid, quote, minimum);
    if r.reply.DepositRequested? {
      DepositAdded(st, uid, quote, minimum);
      NewDepositValid(st, r.store.settings, Deposit(uid, quote.value.amount, quote.value.credits, Pending));
    } else {
      assert r.store == st.(settings := r.store.settings);
    }
  }

  /**
   With the default rate of 2500 per credit and minimum of one credit, a whole
   amount `n` on a fresh store asks for `n / 2500` credits under id 1, anything
   below 2500 is refused with the minimum, and an amount worth 2^63 credits or
   more is refused as a bad amount.
   */
  lemma SubmitDepositAtDefaults(uid: int, n: nat)
    ensures var st := EmptyStore().(settings := InitDefaults(map[]));
      SubmitDeposit(st, uid, NatToString(n)).reply ==
        if n < 2500 then BelowMinimum(1)
        else if n / 2500 < 0x8000_0000_0000_0000 then DepositRequested(1, n / 2500)
        else BadAmount
  {
    var text := NatToString(n);
    assert ',' !in text by { assert !IsDigit(','); }
    RemoveAbsent(text, ',');
    QuoteAtDefaults(text, n);
    TruncPerCredit(n);
    SubmitAtDefaults(uid, text, n as real, n / 2500);
  }

  /** The thousands separator is ignored: a text reads as the same quote with its commas removed. */
  lemma DepositIgnoresCommas(settings: map<string, string>, text: string)
    ensures DepositQuote(settings, text) == DepositQuote(settings, Remove(text, ','))
  {
    RemoveAbsent(Remove(text, ','), ',');
  }

  /** Whole cash amounts convert at 2500 per credit by integer division. */
  lemma TruncPerCredit(n: nat)
    ensures Credits(n as real, 2500.0) == n / 2500
  {
    var q := n / 2500;
    var rem := n % 2500;
    assert n == q * 2500 + rem;
    assert n as real / 2500.0 == q as real + rem as real / 2500.0;
    assert 0.0 <= rem as real / 2500.0 < 1.0;
  }

  /** A numeral at the default rate of 2500 per credit. */
  lemma QuoteAtDefaults(text: string, n: nat)
    requires Remove(text, ',') == NatToString(n)
    ensures DepositQuote(InitDefaults(map[]), text) == Some(Quote(n as real, Credits(n as real, 2500.0)))
  {
    DefaultRateReadBack();
    QuoteOfNumeral(InitDefaults(map[]), text, n, 2500.0);
  }

  /** A numeral, commas aside, is quoted at its own value. */
  lemma QuoteOfNumeral(settings: map<string, string>, text: string, n: nat, rate: real)
    requires Remove(text, ',') == NatToString(n)
    requires CurrentRate(settings) == Some(rate) && rate != 0.0
    ensures DepositQuote(settings, text) == Some(Quote(n as real, Credits(n as real, rate)))
  {
    NumeralDecimal(n);
    QuoteOfAmount(settings, text, n as real, rate);
  }

  /** A numeral reads back as its value. */
  lemma NumeralDecimal(n: nat)
    ensures ParseDecimal(NatToString(n)) == Some(n as real)
  {
    assert IntToString(n) == NatToString(n);
    ParseDecimalOfIntToString(n);
  }

  /** A text that reads as `amount`, commas aside, is quoted at that amount. */
  lemma QuoteOfAmount(settings: map<string, string>, text: string, amount: real, rate: real)
    requires ParseDecimal(Remove(text, ',')) == Some(amount)
    requires CurrentRate(settings) == Some(rate) && rate != 0.0
    ensures DepositQuote(settings, text) == Some(Quote(amount, Credits(amount, rate)))
  {
  }

  /** The reply to a quote under the default minimum of one credit, on the empty store. */
  lemma SubmitAtDefaults(uid: int, text: string, amount: real, credits: int)
    requires DepositQuote(InitDefaults(map[]), text) == Some(Quote(amount, credits))
    ensures var st := EmptyStore().(settings := InitDefaults(map[]));
      SubmitDeposit(st, uid, text).reply ==
        if credits < 1 then BelowMinimum(1)
        else if Fits64(credits) then DepositRequested(1, credits)
        else BadAmount
  {
    var st := EmptyStore().(settings := InitDefaults(map[]));
    DefaultMinDepositReadBack();
    var quote := Some(Quote(amount, credits));
    assert SubmitDeposit(st, uid, text) == RecordDeposit(st, uid, quote, Some(1));
    if credits >= 1 && Fits64(credits) {
      DepositAdded(st, uid, quote, Some(1));
    } else {
      DepositRefused(st, uid, quote, Some(1));
    }
  }

  /** `int(m.text.split()[1])`: the id argument of an operator command. */
  function CommandArg(text: string): (r: Parse<int>)
    ensures r.TooFewFields? <==> |Words(text)| < 2
    ensures r.BadNumber? <==> |Words(text)| >= 2 && ParseInt(Words(text)[1]).None?
    ensures r.Parsed? ==> |Words(text)| >= 2 && ParseInt(Words(text)[1]) == Some(r.value)
  {
    var parts := Words(text);
    if |parts| < 2 then TooFewFields
    else
      var parsed := ParseInt(parts[1]);
      if parsed.None? then BadNumber else Parsed(parsed.value)
  }

  /**
   `/confirm_deposit <id>` (operator only): a deposit that exists and is not
   `confirmed` (so also a cancelled one) credits its user and becomes
   `confirmed`; everything else changes nothing. An id outside 64 bits makes
   the lookup raise, which the handler answers as it answers a bad id.
   */
  function ConfirmDeposit(st: Store, admin: int, caller: int, text: string): (r: Step)
    ensures caller != admin ==> r == Step(st, NotAdmin)
    ensures caller == admin && CommandArg(text).TooFewFields? ==> r == Step(st, Usage)
    ensures caller == admin && CommandArg(text).BadNumber? ==> r == Step(st, CommandError)
    ensures caller == admin && CommandArg(text).Parsed? && !Fits64(CommandArg(text).value) ==> r == Step(st, CommandError)
    ensures r.reply.DepositConfirmed? <==>
      && caller == admin && CommandArg(text).Parsed? && Fits64(CommandArg(text).value)
      && CommandArg(text).value in st.deposits && st.deposits[CommandArg(text).value].status != Confirmed
    ensures r.reply.DepositConfirmed? ==>
      && r.reply.depositId == CommandArg(text).value
      && r.reply.depositId in st.deposits
      && var d := st.deposits[r.reply.depositId];
         && r.reply == DepositConfirmed(r.reply.depositId, d.userId, d.credits)
         && r.store.deposits == st.deposits[r.reply.depositId := d.(status := Confirmed)]
         && GetBalance(r.store, d.userId) == GetBalance(st, d.userId) + d.credits as real
         && OnlyUserChanged(st.(deposits := r.store.deposits), r.store, d.userId)
    ensures !r.reply.DepositConfirmed? ==> r.store == st
  {
    if caller != admin then Step(st, NotAdmin)
    else
      var arg := CommandArg(text);
      if arg.TooFewFields? then Step(st, Usage)
      else if arg.BadNumber? || !Fits64(arg.value) then Step(st, CommandError)
      else
        var id := arg.value;
        if id !in st.deposits then Step(st, DepositNotFound)
        else
          var d := st.deposits[id];
          if d.status == Confirmed then Step(st, AlreadyConfirmed)
          else
            var credited := ChangeBalance(st, d.userId, d.credits as real);
            Step(credited.(deposits := st.deposits[id := d.(status := Confirmed)]), DepositConfirmed(id, d.userId, d.credits))
  }

  /** A second identical confirm is refused and changes nothing, so the deposit is credited once. */
  lemma ConfirmIdempotent(st: Store, admin: int, text: string)
    requires ConfirmDeposit(st, admin, admin, text).reply.DepositConfirmed?
    ensures var r1 := ConfirmDeposit(st, admin, admin, text);
      var r2 := ConfirmDeposit(r1.store, admin, admin, text);
      && r2 == Step(r1.store, AlreadyConfirmed)
      && GetBalance(r2.store, r1.reply.userId) == GetBalance(st, r1.reply.userId) + r1.reply.credits as real
  {
  }

  /**
   `/reject_deposit <id>` as written (operator only; anyone else gets no
   reply): an existing deposit becomes `cancelled` whatever its status was. An
   id that is not an integer, or one outside 64 bits that the lookup cannot
   bind, raises out of the handler. No balance changes.
   */
  function RejectDeposit(st: Store, admin: int, caller: int, text: string): (r: Step)
    ensures r.store.users == st.users
    ensures caller != admin ==> r == Step(st, Ignored)
    ensures caller == admin && CommandArg(text).TooFewFields? ==> r == Step(st, Usage)
    ensures caller == admin && CommandArg(text).BadNumber? ==> r == Step(st, Unhandled)
    ensures caller == admin && CommandArg(text).Parsed? && !Fits64(CommandArg(text).value) ==> r == Step(st, Unhandled)
    ensures r.reply.DepositRejected? <==>
      caller == admin && CommandArg(text).Parsed? && Fits64(CommandArg(text).value) && CommandArg(text).value in st.deposits
    ensures r.reply.DepositRejected? ==>
      && r.reply.depositId == CommandArg(text).value
      && r.reply.depositId in st.deposits
      && r.store == st.(deposits := st.deposits[r.reply.depositId := st.deposits[r.reply.depositId].(status := Cancelled)])
    ensures !r.reply.DepositRejected? ==> r.store == st
  {
    if caller != admin then Step(st, Ignored)
    else
      var arg := CommandArg(text);
      if arg.TooFewFields? then Step(st, Usage)
      else if arg.BadNumber? || !Fits64(arg.value) then Step(st, Unhandled)
      else
        var id := arg.value;
        if id !in st.deposits then Step(st, DepositNotFound)
        else Step(st.(deposits := st.deposits[id := st.deposits[id].(status := Cancelled)]), DepositRejected(id))
  }

  /**
   The reject the confirm handler's `already confirmed` check evidently
   assumes: only a `pending` deposit can be cancelled; any other status is
   refused with `NotPending`.
   */
  function RejectPendingDeposit(st: Store, admin: int, caller: int, text: string): (r: Step)
    ensures r.store.users == st.users
    ensures r.reply.DepositRejected? <==>
      caller == admin && CommandArg(text).Parsed? && Fits64(CommandArg(text).value) && CommandArg(text).value in st.deposits
      && st.deposits[CommandArg(text).value].status == Pending
    ensures r.reply.DepositRejected? ==>
      && r.reply.depositId == CommandArg(text).value
      && r.reply.depositId in st.deposits
      && r.store == st.(deposits := st.deposits[r.reply.depositId := st.deposits[r.reply.depositId].(status := Cancelled)])
    ensures !r.reply.DepositRejected? ==> r.store == st
  {
    if caller != admin then Step(st, Ignored)
    else
      var arg := CommandArg(text);
      if arg.TooFewFields? then Step(st, Usage)
      else if arg.BadNumber? || !Fits64(arg.value) then Step(st, Unhandled)
      else
        var id := arg.value;
        if id !in st.deposits then Step(st, DepositNotFound)
        else if st.deposits[id].status != Pending then Step(st, NotPending)
        else Step(st.(deposits := st.deposits[id := st.deposits[id].(status := Cancelled)]), DepositRejected(id))
  }

  /** The corrected reject never touches a confirmed deposit. */
  lemma RejectPendingKeepsConfirmed(st: Store, admin: int, caller: int, text: string, id: int)
    requires id in st.deposits && st.deposits[id].status == Confirmed
    ensures var r := RejectPendingDeposit(st, admin, caller, text);
      id in r.store.deposits && r.store.deposits[id] == st.deposits[id]
  {
  }

  /** The operator's command line `<name> <id>`. */
  function CommandLine(name: string, id: int): string {
    Unwords([name, IntToString(id)])
  }

  /** The id written into a command line is the id read back from it. */
  lemma CommandLineId(name: string, id: int)
    requires IsWord(name)
    ensures Words(CommandLine(name, id)) == [name, IntToString(id)]
    ensures CommandArg(CommandLine(name, id)) == Parsed(id)
  {
    WordsUnwords([name, IntToString(id)]);
    ParseIntToString(id);
  }

  const ConfirmCommand: string := "/confirm_deposit"
  const RejectCommand: string := "/reject_deposit"

  /** The confirm and reject command names are single words. */
  lemma CommandsAreWords()
    ensures IsWord(ConfirmCommand) && IsWord(RejectCommand)
  {
  }

  /** The confirm and reject command lines read back the id they were written with. */
  lemma ActionArg(id: int)
    ensures CommandArg(CommandLine(ConfirmCommand, id)) == Parsed(id)
    ensures CommandArg(CommandLine(RejectCommand, id)) == Parsed(id)
  {
    CommandsAreWords();
    CommandLineId(ConfirmCommand, id);
    CommandLineId(RejectCommand, id);
  }

  /** One operator action on a deposit. */
  datatype DepositAction = ConfirmAction | RejectAction

  /** The store after the operator confirms (or, as written, rejects) deposit `id`. */
  function ActAsWritten(st: Store, admin: int, id: int, a: DepositAction): Store {
    match a
    case ConfirmAction => ConfirmDeposit(st, admin, admin, CommandLine(ConfirmCommand, id)).store
    case RejectAction => RejectDeposit(st, admin, admin, CommandLine(RejectCommand, id)).store
  }

  /** The store after the operator confirms or (correctly) rejects deposit `id`. */
  function Act(st: Store, admin: int, id: int, a: DepositAction): Store {
    match a
    case ConfirmAction => ConfirmDeposit(st, admin, admin, CommandLine(ConfirmCommand, id)).store
    case RejectAction => RejectPendingDeposit(st, admin, admin, CommandLine(RejectCommand, id)).store
  }

  /**
   A confirm of a deposit that is not confirmed credits its user once and
   confirms it; otherwise, or when its id does not fit in 64 bits, it changes
   nothing.
   */
  lemma ConfirmStep(st: Store, admin: int, id: int)
    requires id in st.deposits
    ensures var d := st.deposits[id];
      var r := Act(st, admin, id, ConfirmAction);
      && r == ActAsWritten(st, admin, id, ConfirmAction)
      && (d.status == Confirmed || !Fits64(id) ==> r == st)
      && (d.status != Confirmed && Fits64(id) ==>
            && r.deposits == st.deposits[id := d.(status := Confirmed)]
            && GetBalance(r, d.userId) == GetBalance(st, d.userId) + d.credits as real)
  {
    ActionArg(id);
  }

  /**
   A reject as written cancels the deposit whatever its status and leaves
   every balance alone; an id outside 64 bits changes nothing.
   */
  lemma RejectStepAsWritten(st: Store, admin: int, id: int)
    requires id in st.deposits
    ensures var r := ActAsWritten(st, admin, id, RejectAction);
      r == if Fits64(id) then st.(deposits := st.deposits[id := st.deposits[id].(status := Cancelled)]) else st
  {
    ActionArg(id);
  }

  /**
   A corrected reject cancels a pending deposit and leaves any other, or one
   whose id does not fit in 64 bits, unchanged.
   */
  lemma RejectStep(st: Store, admin: int, id: int)
    requires id in st.deposits
    ensures var r := Act(st, admin, id, RejectAction);
      && (st.deposits[id].status == Pending && Fits64(id) ==>
            r == st.(deposits := st.deposits[id := st.deposits[id].(status := Cancelled)]))
      && (st.deposits[id].status != Pending || !Fits64(id) ==> r == st)
  {
    ActionArg(id);
    var step := RejectPendingDeposit(st, admin, admin, CommandLine(RejectCommand, id));
    assert Act(st, admin, id, RejectAction) == step.store;
    assert step.reply.DepositRejected? <==> st.deposits[id].status == Pending && Fits64(id);
  }

  /**
   As written, confirm, reject, confirm credits a pending deposit twice: the
   reject turns `confirmed` back into `cancelled`, which confirm accepts. (An
   id outside 64 bits, which SQLite never hands out, is refused every time.)
   */
  lemma ConfirmRejectConfirmCreditsTwice(st: Store, admin: int, id: int)
    requires id in st.deposits && st.deposits[id].status == Pending
    ensures var d := st.deposits[id];
      var s1 := ActAsWritten(st, admin, id, ConfirmAction);
      var s2 := ActAsWritten(s1, admin, id, RejectAction);
      var s3 := ActAsWritten(s2, admin, id, ConfirmAction);
      GetBalance(s3, d.userId) == GetBalance(st, d.userId) + (if Fits64(id) then 2.0 * d.credits as real else 0.0)
  {
    var d := st.deposits[id];
    var s1 := ActAsWritten(st, admin, id, ConfirmAction);
    ConfirmStep(st, admin, id);
    if Fits64(id) {
      assert s1.deposits[id] == d.(status := Confirmed);
      var s2 := ActAsWritten(s1, admin, id, RejectAction);
      RejectStepAsWritten(s1, admin, id);
      assert s2.deposits[id] == d.(status := Cancelled);
      assert GetBalance(s2, d.userId) == GetBalance(s1, d.userId);
      ConfirmStep(s2, admin, id);
    } else {
      RejectStepAsWritten(st, admin, id);
    }
  }

  /** Runs confirms and corrected rejects of deposit `id`, in order. */
  function RunCorrected(st: Store, admin: int, id: int, actions: seq<DepositAction>): Store
    decreases |actions|
  {
    if actions == [] then st
    else RunCorrected(Act(st, admin, id, actions[0]), admin, id, actions[1..])
  }

  /** Deposit `id` of user `u` for `c` credits, whose user holds `base` plus `c` exactly when it is confirmed. */
  predicate CreditedOnce(st: Store, id: int, u: int, c: int, base: real) {
    && id in st.deposits && st.deposits[id].userId == u && st.deposits[id].credits == c
    && GetBalance(st, u) == (if st.deposits[id].status == Confirmed then base + c as real else base)
  }

  /** Each corrected action keeps the deposit credited at most once. */
  lemma ActKeepsCreditedOnce(st: Store, admin: int, id: int, a: DepositAction, u: int, c: int, base: real)
    requires CreditedOnce(st, id, u, c, base)
    ensures CreditedOnce(Act(st, admin, id, a), id, u, c, base)
  {
    if a == ConfirmAction {
      ConfirmStep(st, admin, id);
    } else {
      RejectStep(st, admin, id);
    }
  }

  /**
   With the corrected reject, any run of confirms and rejects credits the
   deposit's user either nothing or exactly the deposit's credits, and exactly
   when the deposit ends `confirmed`.
   */
  lemma {:induction false} CorrectedCreditsAtMostOnce(st: Store, admin: int, id: int, actions: seq<DepositAction>, u: int, c: int, base: real)
    requires CreditedOnce(st, id, u, c, base)
    ensures CreditedOnce(RunCorrected(st, admin, id, actions), id, u, c, base)
    decreases |actions|
  {
    if actions != [] {
      ActKeepsCreditedOnce(st, admin, id, actions[0], u, c, base);
      CorrectedCreditsAtMostOnce(Act(st, admin, id, actions[0]), admin, id, actions[1..], u, c, base);
    }
  }

  /**
   The corrected reject closes the double credit: confirm, reject, confirm
   credits once (and an id outside 64 bits, never).
   */
  lemma CorrectedConfirmRejectConfirm(st: Store, admin: int, id: int)
    requires id in st.deposits && st.deposits[id].status == Pending
    ensures var d := st.deposits[id];
      var r := RunCorrected(st, admin, id, [ConfirmAction, RejectAction, ConfirmAction]);
      GetBalance(r, d.userId) == GetBalance(st, d.userId) + (if Fits64(id) then d.credits as real else 0.0)
  {
    var d := st.deposits[id];
    var s1 := Act(st, admin, id, ConfirmAction);
    ConfirmStep(st, admin, id);
    if Fits64(id) {
      assert s1.deposits[id].status == Confirmed;
    }
    RejectStep(s1, admin, id);
    ConfirmStep(s1, admin, id);
    var actions := [ConfirmAction, RejectAction, ConfirmAction];
    assert actions[1..] == [RejectAction, ConfirmAction];
    assert actions[1..][1..] == [ConfirmAction];
    assert [ConfirmAction][1..] == [];
    assert RunCorrected(st, admin, id, actions) == RunCorrected(s1, admin, id, [RejectAction, ConfirmAction]);
    assert RunCorrected(s1, admin, id, [RejectAction, ConfirmAction]) == RunCorrected(s1, admin, id, [ConfirmAction]);
    assert RunCorrected(s1, admin, id, [ConfirmAction]) == RunCorrected(s1, admin, id, []);
  }

  /* ---------------- operator balance and ban flows ---------------- */

  /** `int(parts[0])` and `float(parts[1].replace(",", "."))` of a stripped `user_id | amount` line. */
  function ReadBalance(text: string): (r: Parse<(int, real)>)
    ensures r.TooFewFields? <==> |Fields(text, '|')| < 2
    ensures r.Parsed? <==>
      |Fields(text, '|')| >= 2 && ParseInt(Fields(text, '|')[0]).Some? && ParseAmount(Fields(text, '|')[1]).Some?
    ensures r.Parsed? ==>
      Some(r.value.0) == ParseInt(Fields(text, '|')[0]) && Some(r.value.1) == ParseAmount(Fields(text, '|')[1])
  {
    var parts := Fields(text, '|');
    if |parts| < 2 then TooFewFields
    else
      var target := ParseInt(parts[0]);
      var amount := ParseAmount(parts[1]);
      if target.None? || amount.None? then BadNumber else Parsed((target.value, amount.value))
  }

  /** The signed change a stored balance action asks for, if the action is one the flow knows. */
  function SignedAmount(action: Option<string>, amount: real): (r: Option<real>)
    ensures r.Some? <==> action == Some("add") || action == Some("deduct")
    ensures action == Some("add") ==> r == Some(amount)
    ensures action == Some("deduct") ==> r == Some(-amount)
  {
    if action == Some("add") then Some(amount)
    else if action == Some("deduct") then Some(-amount)
    else None
  }

  /**
   The operator's balance flow on a read line: `user_id | amount` adds to or
   deducts from the target's balance, by the action stored under the `_type`
   key. Fewer than two fields is answered with usage; a number that does not
   parse, or a target outside 64 bits that `change_balance` cannot bind, with
   `BadValues`; an unknown action gets no reply. Both keys are cleared on
   every path.
   */
  function ApplyBalance(st: Store, uid: int, line: Parse<(int, real)>): (r: Step)
    ensures r.store.settings == ClearFlag(ClearFlag(st.settings, FlagKey(BalanceAction, uid)), BalanceTypeKey(uid))
    ensures line.TooFewFields? ==> r.reply == Usage
    ensures line.BadNumber? ==> r.reply == BadValues
    ensures line.Parsed? && SignedAmount(Get(st.settings, BalanceTypeKey(uid)), line.value.1).Some? && !Fits64(line.value.0)
      ==> r.reply == BadValues
    ensures r.reply.BalanceChanged? <==>
      line.Parsed? && SignedAmount(Get(st.settings, BalanceTypeKey(uid)), line.value.1).Some? && Fits64(line.value.0)
    ensures !r.reply.BalanceChanged? ==> r.store == st.(settings := r.store.settings)
  {
    var settings := ClearFlag(ClearFlag(st.settings, FlagKey(BalanceAction, uid)), BalanceTypeKey(uid));
    if line.TooFewFields? then Step(st.(settings := settings), Usage)
    else if line.BadNumber? then Step(st.(settings := settings), BadValues)
    else
      var delta := SignedAmount(Get(st.settings, BalanceTypeKey(uid)), line.value.1);
      if delta.None? then Step(st.(settings := settings), Ignored)
      else if !Fits64(line.value.0) then Step(st.(settings := settings), BadValues)
      else
        var target := line.value.0;
        Step(ChangeBalance(st.(settings := settings), target, delta.value), BalanceChanged(target, delta.value))
  }

  /**
   The balance flow: the line as the operator typed it, read and applied. The
   balance changes exactly when the line reads, its target fits in 64 bits and
   the stored action is known, and then the target's balance moves by the
   signed amount.
   */
  function BalanceFlow(st: Store, uid: int, text: string): (r: Step)
    ensures r.store.settings == ClearFlag(ClearFlag(st.settings, FlagKey(BalanceAction, uid)), BalanceTypeKey(uid))
    ensures r.reply.BalanceChanged? <==>
      && ReadBalance(text).Parsed? && Fits64(ReadBalance(text).value.0)
      && SignedAmount(Get(st.settings, BalanceTypeKey(uid)), ReadBalance(text).value.1).Some?
    ensures r.reply.BalanceChanged? ==>
      && r.reply.target == ReadBalance(text).value.0
      && GetBalance(r.store, r.reply.target) == GetBalance(st, r.reply.target) + r.reply.delta
      && Some(r.reply.delta) == SignedAmount(Get(st.settings, BalanceTypeKey(uid)), ReadBalance(text).value.1)
      && OnlyUserChanged(st.(settings := r.store.settings), r.store, r.reply.target)
    ensures !r.reply.BalanceChanged? ==> r.store == st.(settings := r.store.settings)
  {
    var line := ReadBalance(text);
    var r := ApplyBalance(st, uid, line);
    if r.reply.BalanceChanged? then BalanceChanges(st, uid, line); r else r
  }

  /** A balance change moves the target's balance by the signed amount and touches no other row. */
  lemma BalanceChanges(st: Store, uid: int, line: Parse<(int, real)>)
    requires ApplyBalance(st, uid, line).reply.BalanceChanged?
    ensures var r := ApplyBalance(st, uid, line);
      && r.reply.target == line.value.0
      && Some(r.reply.delta) == SignedAmount(Get(st.settings, BalanceTypeKey(uid)), line.value.1)
      && GetBalance(r.store, r.reply.target) == GetBalance(st, r.reply.target) + r.reply.delta
      && OnlyUserChanged(st.(settings := r.store.settings), r.store, r.reply.target)
  {
    var settings := ClearFlag(ClearFlag(st.settings, FlagKey(BalanceAction, uid)), BalanceTypeKey(uid));
    var delta := SignedAmount(Get(st.settings, BalanceTypeKey(uid)), line.value.1);
    var changed := ChangeBalance(st.(settings := settings), line.value.0, delta.value);
    assert ApplyBalance(st, uid, line) == Step(changed, BalanceChanged(line.value.0, delta.value));
    assert GetBalance(st.(settings := settings), line.value.0) == GetBalance(st, line.value.0);
  }

  /** An amount added and then deducted with the same line restores the target's balance (an unbindable target is never touched). */
  lemma BalanceAddThenDeduct(st: Store, uid: int, target: int, amount: real)
    ensures var line := Parsed((target, amount));
      var added := ApplyBalance(st.(settings := st.settings[BalanceTypeKey(uid) := "add"]), uid, line).store;
      var deducted := ApplyBalance(added.(settings := added.settings[BalanceTypeKey(uid) := "deduct"]), uid, line).store;
      GetBalance(deducted, target) == GetBalance(st, target)
  {
    var line := Parsed((target, amount));
    var key := BalanceTypeKey(uid);
    var s1 := st.(settings := st.settings[key := "add"]);
    assert Get(s1.settings, key) == Some("add");
    var added := ApplyBalance(s1, uid, line);
    var s2 := added.store.(settings := added.store.settings[key := "deduct"]);
    assert Get(s2.settings, key) == Some("deduct");
    if Fits64(target) {
      BalanceChanges(s1, uid, line);
      assert GetBalance(s1, target) == GetBalance(st, target);
      assert GetBalance(s2, target) == GetBalance(added.store, target);
      BalanceChanges(s2, uid, line);
    }
  }

  /** What the operator's ban line asks for, once its id has parsed. */
  datatype BanRequest = BanTarget(target: int) | UnbanTarget(target: int) | UnknownWord

  /** A ban or unban whose target SQLite cannot bind. */
  predicate Unbindable(request: BanRequest) {
    !request.UnknownWord? && !Fits64(request.target)
  }

  /** `parts = text.split()`, `int(parts[1])`, then `parts[0].lower()` against `ban` and `unban`. */
  function ReadBan(text: string): (r: Parse<BanRequest>)
    ensures r.TooFewFields? <==> CommandArg(text).TooFewFields?
    ensures r.BadNumber? <==> CommandArg(text).BadNumber?
    ensures r.Parsed? ==>
      && CommandArg(text).Parsed?
      && (r.value == BanTarget(CommandArg(text).value) <==> Lower(Words(text)[0]) == "ban")
      && (r.value == UnbanTarget(CommandArg(text).value) <==> Lower(Words(text)[0]) == "unban")
  {
    var arg := CommandArg(text);
    if arg.TooFewFields? then TooFewFields
    else if arg.BadNumber? then BadNumber
    else
      var cmd := Lower(Words(text)[0]);
      if cmd == "ban" then Parsed(BanTarget(arg.value))
      else if cmd == "unban" then Parsed(UnbanTarget(arg.value))
      else Parsed(UnknownWord)
  }

  /**
   The operator's ban flow: `ban <id>` or `unban <id>`, the command word in
   any case. An id that is not an integer is refused before the word is looked
   at; a missing id or an unknown word is answered with usage. The flag is
   cleared on every path but one: a ban or unban of an id outside 64 bits
   raises in `ban_user` or `unban_user`, outside the flow's own `try`, so
   there is no reply, the flag stays set and nothing changes.
   */
  function BanFlow(st: Store, uid: int, text: string): (r: Step)
    ensures r.reply == Unhandled <==> ReadBan(text).Parsed? && Unbindable(ReadBan(text).value)
    ensures r.reply == Unhandled ==> r.store == st
    ensures r.reply != Unhandled ==> r.store.settings == ClearFlag(st.settings, FlagKey(Ban, uid))
    ensures ReadBan(text).TooFewFields? || ReadBan(text) == Parsed(UnknownWord) ==> r.reply == Usage
    ensures ReadBan(text).BadNumber? ==> r.reply == BadUserId
    ensures r.reply.UserBanned? <==>
      ReadBan(text).Parsed? && ReadBan(text).value.BanTarget? && Fits64(ReadBan(text).value.target)
    ensures r.reply.UserUnbanned? <==>
      ReadBan(text).Parsed? && ReadBan(text).value.UnbanTarget? && Fits64(ReadBan(text).value.target)
    ensures !r.reply.UserBanned? && !r.reply.UserUnbanned? ==> r.store == st.(settings := r.store.settings)
  {
    var settings := ClearFlag(st.settings, FlagKey(Ban, uid));
    var request := ReadBan(text);
    if request.TooFewFields? then Step(st.(settings := settings), Usage)
    else if request.BadNumber? then Step(st.(settings := settings), BadUserId)
    else if Unbindable(request.value) then Step(st, Unhandled)
    else if request.value.BanTarget? then
      Step(BanUser(st.(settings := settings), request.value.target), UserBanned(request.value.target))
    else if request.value.UnbanTarget? then
      Step(UnbanUser(st.(settings := settings), request.value.target), UserUnbanned(request.value.target))
    else Step(st.(settings := settings), Usage)
  }

  /** A ban or unban sets the target's flag as asked, keeps its balance and touches no other row. */
  lemma BanFlowChanges(st: Store, uid: int, text: string)
    ensures var r := BanFlow(st, uid, text);
      && (r.reply.UserBanned? ==>
            && ReadBan(text) == Parsed(BanTarget(r.reply.target))
            && IsBanned(r.store, r.reply.target)
            && GetBalance(r.store, r.reply.target) == GetBalance(st, r.reply.target)
            && OnlyUserChanged(st.(settings := r.store.settings), r.store, r.reply.target))
      && (r.reply.UserUnbanned? ==>
            && ReadBan(text) == Parsed(UnbanTarget(r.reply.target))
            && !IsBanned(r.store, r.reply.target)
            && GetBalance(r.store, r.reply.target) == GetBalance(st, r.reply.target)
            && OnlyUserChanged(st.(settings := r.store.settings), r.store, r.reply.target))
  {
  }

  /** The operator's `ban <id>` line reads back as a ban of exactly that id, and `unban <id>` as its lifting. */
  lemma BanLineReads(target: int)
    ensures ReadBan(CommandLine("ban", target)) == Parsed(BanTarget(target))
    ensures ReadBan(CommandLine("unban", target)) == Parsed(UnbanTarget(target))
  {
    BanWordReads("ban", target);
    BanWordReads("unban", target);
  }

  /** The ban and unban words are already lower case. */
  lemma BanWordsLower()
    ensures Lower("ban") == "ban" && Lower("unban") == "unban"
  {
    LowerKeeps("ban");
    LowerKeeps("unban");
  }

  /** A ban line built from a command word and an id reads back as that action. */
  lemma BanWordReads(name: string, target: int)
    requires name == "ban" || name == "unban"
    ensures ReadBan(CommandLine(name, target)) == Parsed(if name == "ban" then BanTarget(target) else UnbanTarget(target))
  {
    assert IsWord(name);
    var line := CommandLine(name, target);
    CommandLineId(name, target);
    assert Words(line)[0] == name;
    BanWordsLower();
    var r := ReadBan(line);
    assert r.Parsed?;
    if name == "ban" {
      assert r.value == BanTarget(target);
    } else {
      assert |name| != |"ban"|;
      assert r.value == UnbanTarget(target);
    }
  }

  /**
   `ban <id>` then `unban <id>` leaves the target unbanned with its balance;
   for an id outside 64 bits both lines raise and change nothing.
   */
  lemma BanLineRoundTrip(st: Store, uid: int, target: int)
    ensures var banned := BanFlow(st, uid, CommandLine("ban", target));
      var lifted := BanFlow(banned.store, uid, CommandLine("unban", target));
      && (Fits64(target) ==>
            && banned.reply == UserBanned(target) && IsBanned(banned.store, target)
            && lifted.reply == UserUnbanned(target) && !IsBanned(lifted.store, target)
            && GetBalance(lifted.store, target) == GetBalance(st, target))
      && (!Fits64(target) ==> banned == Step(st, Unhandled) && lifted == Step(st, Unhandled))
  {
    BanLineReads(target);
    var banned := BanFlow(st, uid, CommandLine("ban", target));
    BanFlowChanges(st, uid, CommandLine("ban", target));
    BanFlowChanges(banned.store, uid, CommandLine("unban", target));
  }
}

=== FILE: settings.dfy ===
/**
 The `settings` key-value table: `get_setting`/`set_setting`, the defaults the
 bot inserts at start-up, the exchange rate and minimum deposit read from it,
 `/setrate`, and the per-user `awaiting_*_{uid}` pending-action flags kept in it.
 */
module Settings {
  import opened Wrappers
  import opened Text
  import opened Store

  const WelcomeKey: string := "welcome_msg"
  const RateKey: string := "syp_rate"
  const MinDepositKey: string := "min_deposit"

  const DefaultWelcome: string := "أهلاً بك في المتجر الرقمي! استخدم الأزرار لتصفح."
  const DefaultRate: string := "2500"
  const DefaultMinDeposit: string := "1"

  /** What `/start` shows when the welcome text is missing or empty. */
  const FallbackWelcome: string := "أهلاً بك!"

  /* ---------------- get / set ---------------- */

  /** `get_setting(key)`: the stored value, or nothing when the key has no row. */
  function Get(settings: map<string, string>, key: string): (r: Option<string>)
    ensures r.Some? <==> key in settings
    ensures r.Some? ==> r.value == settings[key]
  {
    if key in settings then Some(settings[key]) else None
  }

  /** `get_setting(key, default)`: the lookup above with the default standing in for a missing row. */
  function GetOr(settings: map<string, string>, key: string, default: string): (r: string)
    ensures Get(settings, key).Some? ==> r == Get(settings, key).value
    ensures Get(settings, key).None? ==> r == default
  {
    if key in settings then settings[key] else default
  }

  /** `set_setting(key, value)`: INSERT OR REPLACE of one row. */
  function Set(settings: map<string, string>, key: string, value: string): (r: map<string, string>)
    ensures Get(r, key) == Some(value)
    ensures forall k :: k != key ==> Get(r, k) == Get(settings, k)
    ensures r.Keys == settings.Keys + {key}
  {
    settings[key := value]
  }

  /** `INSERT OR IGNORE` of one row: an existing value wins. */
  function InsertOrIgnore(settings: map<string, string>, key: string, value: string): (r: map<string, string>)
    ensures Get(r, key) == Some(if key in settings then settings[key] else value)
    ensures forall k :: k != key ==> Get(r, k) == Get(settings, k)
  {
    if key in settings then settings else settings[key := value]
  }

  /** The three defaults inserted at start-up. */
  function InitDefaults(settings: map<string, string>): (r: map<string, string>)
    ensures r.Keys == settings.Keys + {WelcomeKey, RateKey, MinDepositKey}
    ensures forall k :: k in settings ==> r[k] == settings[k]
    ensures WelcomeKey !in settings ==> r[WelcomeKey] == DefaultWelcome
    ensures RateKey !in settings ==> r[RateKey] == DefaultRate
    ensures MinDepositKey !in settings ==> r[MinDepositKey] == DefaultMinDeposit
  {
    InsertOrIgnore(InsertOrIgnore(InsertOrIgnore(settings, WelcomeKey, DefaultWelcome),
      RateKey, DefaultRate), MinDepositKey, DefaultMinDeposit)
  }

  /** Restarting the bot does not change the settings a previous start left. */
  lemma InitDefaultsIdempotent(settings: map<string, string>)
    ensures InitDefaults(InitDefaults(settings)) == InitDefaults(settings)
  {
  }

  /** On a fresh database the rate reads back as 2500 cash units per credit. */
  lemma DefaultRateReadBack()
    ensures CurrentRate(InitDefaults(map[])) == Some(2500.0)
  {
    assert GetOr(InitDefaults(map[]), RateKey, DefaultRate) == DefaultRate;
    assert NatToString(2) == "2";
    assert NatToString(25) == "25";
    assert NatToString(250) == "250";
    assert NatToString(2500) == DefaultRate;
    ParseDecimalOfIntToString(2500);
  }

  /** On a fresh database the minimum deposit reads back as 1 credit. */
  lemma DefaultMinDepositReadBack()
    ensures MinDeposit(InitDefaults(map[])) == Some(1)
  {
    assert GetOr(InitDefaults(map[]), MinDepositKey, DefaultMinDeposit) == DefaultMinDeposit;
    assert NatToString(1) == DefaultMinDeposit;
    ParseIntToString(1);
  }

  /* ---------------- values the ledger reads ---------------- */

  /** `float(get_setting("syp_rate", "2500"))`: cash units per credit, if the text is a number. */
  function CurrentRate(settings: map<string, string>): Option<real> {
    ParseDecimal(GetOr(settings, RateKey, DefaultRate))
  }

  /** `int(get_setting("min_deposit", "1"))`: the smallest deposit in credits, if the text is an integer. */
  function MinDeposit(settings: map<string, string>): Option<int> {
    ParseInt(GetOr(settings, MinDepositKey, DefaultMinDeposit))
  }

  /** `get_setting("welcome_msg") or "أهلاً بك!"`: the text `/start` greets with. */
  function WelcomeText(settings: map<string, string>): (r: string)
    ensures r != ""
    ensures WelcomeKey in settings && settings[WelcomeKey] != "" ==> r == settings[WelcomeKey]
    ensures WelcomeKey !in settings || settings[WelcomeKey] == "" ==> r == FallbackWelcome
  {
    var w := GetOr(settings, WelcomeKey, "");
    if w != "" then w else FallbackWelcome
  }

  /* ---------------- pending-action flags ---------------- */

  /** The multi-step flows whose next text message is awaited, one flag per flow and user. */
  datatype Flow = Welcome | Broadcast | Ban | NewCategory | NewProduct | NewButton | BalanceAction | DepositAmount

  function FlowPrefix(f: Flow): string {
    match f
    case Welcome => "awaiting_welcome_"
    case Broadcast => "awaiting_broadcast_"
    case Ban => "awaiting_ban_"
    case NewCategory => "awaiting_new_category_"
    case NewProduct => "awaiting_new_product_"
    case NewButton => "awaiting_new_button_"
    case BalanceAction => "awaiting_balance_action_"
    case DepositAmount => "awaiting_deposit_user_"
  }

  /** `f"awaiting_..._{uid}"`. */
  function FlagKey(f: Flow, uid: int): string {
    FlowPrefix(f) + IntToString(uid)
  }

  /** `f"awaiting_balance_action_{uid}_type"`: whether the balance flow adds or deducts. */
  function BalanceTypeKey(uid: int): string {
    FlowPrefix(BalanceAction) + IntToString(uid) + "_type"
  }

  /** Python truthiness of `get_setting(key)`: the row exists and is not empty. */
  predicate FlagSet(settings: map<string, string>, key: string) {
    key in settings && settings[key] != ""
  }

  /** `set_setting(key, "")`, the bot's way of clearing a flag. */
  function ClearFlag(settings: map<string, string>, key: string): (r: map<string, string>)
  {
    settings[key := ""]
  }

  /** A cleared flag is not set and reads back as the empty string; every other setting is as it was. */
  lemma ClearFlagFrame(settings: map<string, string>, key: string)
    ensures !FlagSet(ClearFlag(settings, key), key)
    ensures Get(ClearFlag(settings, key), key) == Some("")
    ensures forall k :: k != key ==> Get(ClearFlag(settings, key), k) == Get(settings, k)
  {
  }

  /** An index at which the prefixes of two different flows disagree. */
  function DiffIndex(f: Flow, g: Flow): nat {
    var group := (h: Flow) =>
      match h
      case Welcome => 0
      case DepositAmount => 1
      case NewCategory | NewProduct | NewButton => 2
      case _ => 3;
    if group(f) != group(g) then 9
    else if f == Broadcast || g == Broadcast then 10
    else if group(f) == 3 then 11
    else 13
  }

  /** Two different flows have prefixes that differ at `DiffIndex`. */
  lemma PrefixesDiffer(f: Flow, g: Flow)
    requires f != g
    ensures DiffIndex(f, g) < |FlowPrefix(f)| && DiffIndex(f, g) < |FlowPrefix(g)|
    ensures FlowPrefix(f)[DiffIndex(f, g)] != FlowPrefix(g)[DiffIndex(f, g)]
  {
  }

  /** Strings that differ at an index inside both prefixes stay different when extended. */
  lemma ConcatDiffer(p: string, q: string, x: string, y: string, i: nat)
    requires i < |p| && i < |q| && p[i] != q[i]
    ensures p + x != q + y
  {
    assert (p + x)[i] == p[i];
    assert (q + y)[i] == q[i];
  }

  /** Each (flow, user) pair has its own flag key. */
  lemma FlagKeyInjective(f: Flow, u: int, g: Flow, v: int)
    requires FlagKey(f, u) == FlagKey(g, v)
    ensures f == g && u == v
  {
    if f != g {
      PrefixesDiffer(f, g);
      ConcatDiffer(FlowPrefix(f), FlowPrefix(g), IntToString(u), IntToString(v), DiffIndex(f, g));
      assert false;
    }
    var p := FlowPrefix(f);
    assert (p + IntToString(u))[|p|..] == IntToString(u);
    assert (p + IntToString(v))[|p|..] == IntToString(v);
    IntToStringInjective(u, v);
  }

  /** No flag key is the welcome text, the rate or the minimum deposit key. */
  lemma FlagKeyNotSetting(f: Flow, u: int)
    ensures FlagKey(f, u) != WelcomeKey && FlagKey(f, u) != RateKey && FlagKey(f, u) != MinDepositKey
  {
    ConcatDiffer(FlowPrefix(f), WelcomeKey, IntToString(u), "", 0);
    ConcatDiffer(FlowPrefix(f), RateKey, IntToString(u), "", 0);
    ConcatDiffer(FlowPrefix(f), MinDepositKey, IntToString(u), "", 0);
  }

  /** No flag key is a balance-type key. */
  lemma FlagKeyNotBalanceType(f: Flow, u: int, v: int)
    ensures FlagKey(f, u) != BalanceTypeKey(v)
  {
    var b := FlowPrefix(BalanceAction);
    var su, sv := IntToString(u), IntToString(v);
    if f != BalanceAction {
      PrefixesDiffer(f, BalanceAction);
      assert BalanceTypeKey(v) == b + (sv + "_type");
      ConcatDiffer(FlowPrefix(f), b, su, sv + "_type", DiffIndex(f, BalanceAction));
    } else {
      assert BalanceTypeKey(v) == b + (sv + "_type");
      assert (b + (sv + "_type"))[|b| + |sv|] == '_';
      if |su| == |sv| + 5 {
        NoUnderscore(u);
        assert (b + su)[|b| + |sv|] == su[|sv|];
      }
    }
  }

  /** A formatted integer contains no underscore. */
  lemma NoUnderscore(n: int)
    ensures forall i :: 0 <= i < |IntToString(n)| ==> IntToString(n)[i] != '_'
  {
  }

  /* ---------------- handlers ---------------- */

  /** The welcome-edit flow: the operator's stripped text becomes the welcome message. */
  function WelcomeFlow(st: Store, uid: int, text: string): (r: Step)
    ensures r.reply == WelcomeUpdated
    ensures Get(r.store.settings, WelcomeKey) == Some(text)
    ensures !FlagSet(r.store.settings, FlagKey(Welcome, uid))
    ensures forall k :: k != WelcomeKey && k != FlagKey(Welcome, uid) ==>
      Get(r.store.settings, k) == Get(st.settings, k)
    ensures r.store == st.(settings := r.store.settings)
  {
    FlagKeyNotSetting(Welcome, uid);
    Step(st.(settings := ClearFlag(Set(st.settings, WelcomeKey, text), FlagKey(Welcome, uid))), WelcomeUpdated)
  }

  /** Setting the welcome text to X makes `/start` greet with X (or the fallback when X is empty). */
  lemma WelcomeRoundTrip(st: Store, uid: int, text: string)
    ensures WelcomeText(WelcomeFlow(st, uid, text).store.settings) == (if text != "" then text else FallbackWelcome)
  {
  }

  /**
   `/setrate <cash-per-credit>` (operator only). The accepted numeral is stored
   with `,` read as the decimal point; no sign or zero check is made.
   */
  function SetRate(st: Store, admin: int, caller: int, text: string): (r: Step)
    ensures caller != admin ==> r == Step(st, NotAdmin)
    ensures |Words(text)| < 2 ==> r.store == st
    ensures r.store == st.(settings := r.store.settings)
    ensures forall k :: k != RateKey ==> Get(r.store.settings, k) == Get(st.settings, k)
    ensures r.reply.RateSet? <==> caller == admin && |Words(text)| >= 2 && ParseDecimal(Replace(Words(text)[1], ',', '.')).Some?
    ensures r.reply.RateSet? ==> |Words(text)| >= 2 && ParseDecimal(Replace(Words(text)[1], ',', '.')) == Some(r.reply.rate)
    ensures r.reply.RateSet? ==> CurrentRate(r.store.settings) == Some(r.reply.rate)
    ensures caller == admin && |Words(text)| < 2 ==> r.reply == Usage
    ensures caller == admin && |Words(text)| >= 2 && ParseDecimal(Replace(Words(text)[1], ',', '.')).None? ==> r.reply == InvalidRate
    ensures !r.reply.RateSet? ==> r.store == st
  {
    if caller != admin then Step(st, NotAdmin)
    else
      var parts := Words(text);
      if |parts| < 2 then Step(st, Usage)
      else
        var numeral := Replace(parts[1], ',', '.');
        match ParseDecimal(numeral)
        case None => Step(st, InvalidRate)
        case Some(rate) => Step(st.(settings := Set(st.settings, RateKey, numeral)), RateSet(rate))
  }
}

=== FILE: store.dfy ===
/**
 The bot's SQLite database as one immutable value. Each table is a map keyed
 by its primary key (or a sequence for the append-only tables), and each
 AUTOINCREMENT table whose rows can be deleted carries the next id it hands out.
 */
module Store {

  /** A row of `users`; the name columns and timestamps are presentation only. */
  datatype User = User(balance: real, banned: bool)

  /** A row of `categories`; `pos` is the ordering key. */
  datatype Category = Category(name: string, pos: int)

  /** A row of `products`. */
  datatype Product = Product(categoryId: int, name: string, price: real, description: string, pos: int)

  /** A row of `buttons`; none of its columns is validated by the bot. */
  datatype Button = Button(parentType: string, parentId: int, text: string, action: string, payload: string)

  /** A row of `orders`; its price is copied from the product when the order is placed. */
  datatype Order = Order(userId: int, productId: int, price: real, status: string)

  datatype DepositStatus = Pending | Confirmed | Cancelled

  /** A row of `deposits`: cash amount asked for and the credits it converts to. */
  datatype Deposit = Deposit(userId: int, amount: real, credits: int, status: DepositStatus)

  /**
   The whole database. `buttons` and `orders` are never deleted from, so the id
   of the row at index `i` is `i + 1`; `deposits` is never deleted from either
   but is looked up by id, so it is a map with its own counter.
   */
  datatype Store = Store(
    users: map<int, User>,
    settings: map<string, string>,
    categories: map<int, Category>,
    products: map<int, Product>,
    buttons: seq<Button>,
    orders: seq<Order>,
    deposits: map<int, Deposit>,
    nextCategoryId: int,
    nextProductId: int,
    nextDepositId: int)

  /** Every row id handed out so far lies below its table's counter, which starts at 1. */
  predicate Valid(st: Store) {
    && 1 <= st.nextCategoryId && 1 <= st.nextProductId && 1 <= st.nextDepositId
    && (forall c :: c in st.categories ==> 1 <= c < st.nextCategoryId)
    && (forall p :: p in st.products ==> 1 <= p < st.nextProductId)
    && (forall d :: d in st.deposits ==> 1 <= d < st.nextDepositId)
  }

  /**
   The integers an SQLite column or parameter holds: signed 64-bit. Python's
   `sqlite3` raises `OverflowError` when it binds an `int` outside them.
   */
  predicate Fits64(n: int) {
    -0x8000_0000_0000_0000 <= n < 0x8000_0000_0000_0000
  }

  /** No product refers to a missing category (the foreign key SQLite does not enforce here). */
  predicate NoOrphans(st: Store) {
    forall p :: p in st.products ==> st.products[p].categoryId in st.categories
  }

  /** The database as `CREATE TABLE IF NOT EXISTS` leaves it on first start, before defaults. */
  function EmptyStore(): (st: Store)
    ensures Valid(st) && NoOrphans(st)
    ensures st.users == map[] && st.orders == [] && st.deposits == map[]
  {
    Store(map[], map[], map[], map[], [], [], map[], 1, 1, 1)
  }

  /** Everything a handler reports back: the reply the user or operator would see, as a tag. */
  datatype Reply =
    // ledger
    | ProductNotFound
    | InsufficientFunds(price: real, balance: real)
    | Purchased(orderId: int)
    | InternalError
    | NotAdmin
    | Usage
    | CommandError
    | DepositNotFound
    | AlreadyConfirmed
    | DepositConfirmed(depositId: int, userId: int, credits: int)
    | DepositRejected(depositId: int)
    | DepositRequested(depositId: int, credits: int)
    | BelowMinimum(minimum: int)
    | BadAmount
    | BalanceChanged(target: int, delta: real)
    | BadValues
    | UserBanned(target: int)
    | UserUnbanned(target: int)
    | BadUserId
    // catalog
    | CategoryAdded(categoryId: int)
    | CategoryMissing
    | ProductAdded(productId: int)
    | ButtonAdded(buttonId: int)
    | Unhandled
    // settings and dispatch
    | RateSet(rate: real)
    | InvalidRate
    | WelcomeUpdated
    | BroadcastDone(sent: nat, failed: nat)
    | OperationCancelled
    | MainMenu(admin: bool)
    // a handler that returns without replying
    | Ignored
    // only the corrected reject uses this
    | NotPending

  /** The new database state and the reply of one handler call. */
  datatype Step = Step(store: Store, reply: Reply)
}

=== FILE: text.dfy ===
/** The optional value used for lookups and for Python's failing conversions. */
module Wrappers {
  datatype Option<+T> = None | Some(value: T)
}

/**
 The small string functions of Python that the bot applies to chat text:
 `str.strip()`, `str.split(sep)`, `str.split()`, `str.split(None, 1)`,
 `str.replace`, `str.lower()`, `str(int)`, `int(str)` and `float(str)`.
 */
module Text {
  import opened Wrappers

  /** Python's `str.isspace()` for one character. */
  predicate IsSpace(c: char) {
    var n := c as int;
    || (9 <= n <= 13) || (28 <= n <= 32) || n == 0x85 || n == 0xA0 || n == 0x1680
    || (0x2000 <= n <= 0x200A) || n == 0x2028 || n == 0x2029 || n == 0x202F
    || n == 0x205F || n == 0x3000
  }

  /** A non-empty run of non-whitespace characters. */
  predicate IsWord(w: string) {
    w != [] && NoSpace(w)
  }

  predicate NoSpace(w: string) {
    forall i :: 0 <= i < |w| ==> !IsSpace(w[i])
  }

  /* ---------------- strip ---------------- */

  /** `s.lstrip()`: the suffix left after dropping leading whitespace. */
  function TrimLeft(s: string): (r: string)
    ensures |r| <= |s| && r == s[|s| - |r|..]
    ensures forall i :: 0 <= i < |s| - |r| ==> IsSpace(s[i])
    ensures r == [] || !IsSpace(r[0])
    decreases |s|
  {
    if |s| > 0 && IsSpace(s[0]) then TrimLeft(s[1..]) else s
  }

  /** `s.rstrip()`: the prefix left after dropping trailing whitespace. */
  function TrimRight(s: string): (r: string)
    ensures |r| <= |s| && r == s[..|r|]
    ensures forall i :: |r| <= i < |s| ==> IsSpace(s[i])
    ensures r == [] || !IsSpace(r[|r| - 1])
    decreases |s|
  {
    if |s| > 0 && IsSpace(s[|s| - 1]) then TrimRight(s[..|s| - 1]) else s
  }

  /**
   `s.strip()`: the part of `s` left once every leading and trailing whitespace
   character is dropped. It is a slice of `s` with only whitespace outside it
   and no whitespace at its ends, which determines it.
   */
  function Trim(s: string): (r: string)
    ensures |r| <= |s|
    ensures r == [] || (!IsSpace(r[0]) && !IsSpace(r[|r| - 1]))
    ensures TrimStart(s) + |r| <= |s| && forall k :: 0 <= k < |r| ==> r[k] == s[TrimStart(s) + k]
    ensures OnlySpaceOutside(s, TrimStart(s), TrimStart(s) + |r|)
  {
    var l := TrimLeft(s);
    var r := TrimRight(l);
    SpaceAfter(s, l, r, |s| - |l|);
    r
  }

  /** Whitespace after the kept part of a suffix `l` of `s` is whitespace of `s`. */
  lemma SpaceAfter(s: string, l: string, r: string, i: nat)
    requires i <= |s| && l == s[i..]
    requires |r| <= |l| && r == l[..|r|]
    requires forall k :: 0 <= k < i ==> IsSpace(s[k])
    requires forall k :: |r| <= k < |l| ==> IsSpace(l[k])
    ensures forall k :: 0 <= k < |r| ==> r[k] == s[i + k]
    ensures OnlySpaceOutside(s, i, i + |r|)
  {
    forall k | 0 <= k < |s| && (k < i || i + |r| <= k)
      ensures IsSpace(s[k])
    {
      if k >= i + |r| {
        assert s[k] == l[k - i];
      }
    }
  }

  /** The number of leading whitespace characters of `s`: where its strip starts. */
  function TrimStart(s: string): nat {
    |s| - |TrimLeft(s)|
  }

  /** Every character of `s` before index `i` or from index `j` on is whitespace. */
  predicate OnlySpaceOutside(s: string, i: int, j: int) {
    forall k :: 0 <= k < |s| && (k < i || j <= k) ==> IsSpace(s[k])
  }

  /** A string that neither starts nor ends with whitespace is its own strip. */
  lemma TrimKeeps(s: string)
    requires s == [] || (!IsSpace(s[0]) && !IsSpace(s[|s| - 1]))
    ensures Trim(s) == s
  {
    TrimLeftKeeps(s);
    TrimRightKeeps(s);
  }

  /** A string that starts with a non-whitespace character does not strip to nothing. */
  lemma TrimNotBlank(s: string)
    requires s != [] && !IsSpace(s[0])
    ensures Trim(s) != []
  {
    TrimLeftKeeps(s);
  }

  /** A string that starts or ends with whitespace is changed by strip. */
  lemma TrimMoves(s: string)
    requires s != [] && (IsSpace(s[0]) || IsSpace(s[|s| - 1]))
    ensures Trim(s) != s
  {
  }

  /** A string not starting with whitespace is its own left-strip. */
  lemma TrimLeftKeeps(s: string)
    requires s == [] || !IsSpace(s[0])
    ensures TrimLeft(s) == s
  {
  }

  /** A string not ending with whitespace is its own right-strip. */
  lemma TrimRightKeeps(s: string)
    requires s == [] || !IsSpace(s[|s| - 1])
    ensures TrimRight(s) == s
  {
  }

  /** Stripping twice is stripping once. */
  lemma TrimIdempotent(s: string)
    ensures Trim(Trim(s)) == Trim(s)
  {
    TrimKeeps(Trim(s));
  }

  /* ---------------- split on a separator ---------------- */

  /** The inverse of `s.split(d)`: `d.join(parts)`. */
  function Join(parts: seq<string>, d: char): string
    requires |parts| >= 1
  {
    if |parts| == 1 then parts[0] else parts[0] + [d] + Join(parts[1..], d)
  }

  /** `s.split(d)` for a one-character separator. */
  function Split(s: string, d: char): (r: seq<string>)
    ensures |r| >= 1
    ensures forall i :: 0 <= i < |r| ==> d !in r[i]
    ensures Join(r, d) == s
    decreases |s|
  {
    if |s| == 0 then [""]
    else if s[0] == d then [""] + Split(s[1..], d)
    else
      var rest := Split(s[1..], d);
      JoinConsHead(s[0], rest, d);
      [[s[0]] + rest[0]] + rest[1..]
  }

  /** Prefixing the first part prefixes the joined string. */
  lemma JoinConsHead(c: char, parts: seq<string>, d: char)
    requires |parts| >= 1
    ensures Join([[c] + parts[0]] + parts[1..], d) == [c] + Join(parts, d)
  {
    var q := [[c] + parts[0]] + parts[1..];
    assert q[1..] == parts[1..];
  }

  /** Splitting a join gives the parts back when no part holds the separator. */
  lemma {:induction false} SplitJoin(parts: seq<string>, d: char)
    requires |parts| >= 1
    requires forall i :: 0 <= i < |parts| ==> d !in parts[i]
    ensures Split(Join(parts, d), d) == parts
    decreases |parts|, |parts[0]|
  {
    var h := parts[0];
    if |parts| == 1 {
      SplitNoSep(h, d);
    } else if h == [] {
      JoinEmptyHead(parts, d);
      SplitJoin(parts[1..], d);
    } else {
      var q := [h[1..]] + parts[1..];
      JoinFirstChar(parts, d);
      SplitJoin(q, d);
      assert [h[0]] + h[1..] == h;
    }
  }

  /** A join whose first part is empty starts with the separator. */
  lemma JoinEmptyHead(parts: seq<string>, d: char)
    requires |parts| >= 2 && parts[0] == []
    ensures var s := Join(parts, d); s != [] && s[0] == d && s[1..] == Join(parts[1..], d)
  {
    var tail := Join(parts[1..], d);
    assert Join(parts, d) == [d] + tail;
    assert ([d] + tail)[1..] == tail;
  }

  /** A join whose first part is not empty starts with that part's first character. */
  lemma JoinFirstChar(parts: seq<string>, d: char)
    requires |parts| >= 1 && parts[0] != []
    requires forall i :: 0 <= i < |parts| ==> d !in parts[i]
    ensures var q := [parts[0][1..]] + parts[1..];
      && (forall i :: 0 <= i < |q| ==> d !in q[i])
      && var s := Join(parts, d); s != [] && s[0] == parts[0][0] && s[0] != d && s[1..] == Join(q, d)
  {
    var h := parts[0];
    var q := [h[1..]] + parts[1..];
    assert q[1..] == parts[1..];
    assert forall i :: 1 <= i < |q| ==> q[i] == parts[i];
    assert d !in q[0] by { assert forall i :: 0 <= i < |h[1..]| ==> h[1..][i] == h[i + 1]; }
    var s := Join(parts, d);
    assert s == [h[0]] + Join(q, d) by {
      if |parts| == 1 { } else { assert h == [h[0]] + h[1..]; }
    }
    assert s[1..] == Join(q, d);
  }

  /** A string without the separator splits into itself alone. */
  lemma {:induction false} SplitNoSep(s: string, d: char)
    requires d !in s
    ensures Split(s, d) == [s]
    decreases |s|
  {
    if |s| > 0 {
      assert d !in s[1..] by { assert forall i :: 0 <= i < |s| - 1 ==> s[1..][i] == s[i + 1]; }
      SplitNoSep(s[1..], d);
      assert [s[0]] + s[1..] == s;
    }
  }

  /** `[p.strip() for p in s.split(d)]`, the field parser of the multi-field flows. */
  function Fields(s: string, d: char): (r: seq<string>)
    ensures |r| == |Split(s, d)|
    ensures forall i :: 0 <= i < |r| ==> r[i] == Trim(Split(s, d)[i])
  {
    var parts := Split(s, d);
    seq(|parts|, i requires 0 <= i < |parts| => Trim(parts[i]))
  }

  /* ---------------- split on whitespace ---------------- */

  /** The longest prefix of `s` that holds no whitespace. */
  function WordPrefix(s: string): (w: string)
    ensures |w| <= |s| && w == s[..|w|]
    ensures NoSpace(w)
    ensures |w| == |s| || IsSpace(s[|w|])
    decreases |s|
  {
    if |s| == 0 || IsSpace(s[0]) then [] else [s[0]] + WordPrefix(s[1..])
  }

  /** `s.split()`: the maximal runs of non-whitespace characters. */
  function Words(s: string): (r: seq<string>)
    ensures forall i :: 0 <= i < |r| ==> IsWord(r[i])
    ensures r == [] <==> forall k :: 0 <= k < |s| ==> IsSpace(s[k])
    decreases |s|
  {
    var t := TrimLeft(s);
    if t == [] then []
    else
      var w := WordPrefix(t);
      assert |w| > 0;
      assert !IsSpace(s[|s| - |t|]) by { assert s[|s| - |t|] == t[0]; }
      ConsWords(w, Words(t[|w|..]));
      [w] + Words(t[|w|..])
  }

  /** Prepending a word to a list of words keeps it a list of words. */
  lemma ConsWords(w: string, ws: seq<string>)
    requires IsWord(w)
    requires forall i :: 0 <= i < |ws| ==> IsWord(ws[i])
    ensures forall i :: 0 <= i < |[w] + ws| ==> IsWord(([w] + ws)[i])
  {
    var all := [w] + ws;
    forall i | 0 <= i < |all|
      ensures IsWord(all[i])
    {
      if i > 0 {
        assert all[i] == ws[i - 1];
      }
    }
  }

  /** `' '.join(ws)`. */
  function Unwords(ws: seq<string>): string {
    if |ws| == 0 then "" else if |ws| == 1 then ws[0] else ws[0] + " " + Unwords(ws[1..])
  }

  /** Splitting words joined by single spaces gives the words back. */
  lemma {:induction false} WordsUnwords(ws: seq<string>)
    requires forall i :: 0 <= i < |ws| ==> IsWord(ws[i])
    ensures Words(Unwords(ws)) == ws
    decreases |ws|
  {
    if |ws| > 0 {
      var w := ws[0];
      assert ws == [w] + ws[1..];
      assert IsWord(w);
      var rest := if |ws| == 1 then "" else " " + Unwords(ws[1..]);
      var s := Unwords(ws);
      assert s == w + rest;
      WordsOfWordThen(w, rest);
      assert Words(s) == [w] + Words(rest);
      if |ws| == 1 {
        assert Words(rest) == [];
      } else {
        WordsUnwords(ws[1..]);
        WordsSkipSpace(Unwords(ws[1..]));
        assert Words(rest) == ws[1..];
      }
    }
  }

  /** A word followed by nothing or by whitespace is the first word. */
  lemma WordsOfWordThen(w: string, rest: string)
    requires IsWord(w)
    requires rest == [] || IsSpace(rest[0])
    ensures Words(w + rest) == [w] + Words(rest)
  {
    var s := w + rest;
    assert TrimLeft(s) == s by { assert s[0] == w[0]; }
    WordPrefixOf(w, rest);
    assert s[|w|..] == rest;
  }

  /** A leading space does not change the words. */
  lemma WordsSkipSpace(s: string)
    ensures Words(" " + s) == Words(s)
  {
    assert (" " + s)[1..] == s;
    assert TrimLeft(" " + s) == TrimLeft(s);
  }

  /** The first word of a word followed by whitespace is that word. */
  lemma {:induction false} WordPrefixOf(w: string, rest: string)
    requires NoSpace(w)
    requires rest == [] || IsSpace(rest[0])
    ensures WordPrefix(w + rest) == w
    decreases |w|
  {
    if w != [] {
      assert (w + rest)[1..] == w[1..] + rest;
      WordPrefixOf(w[1..], rest);
      assert [w[0]] + w[1..] == w;
    }
  }

  /** `s.split(None, 1)`: the first word, then the rest with its leading whitespace dropped. */
  function SplitFirstWord(s: string): (r: seq<string>)
    ensures |r| <= 2
    ensures |r| == 0 <==> Words(s) == []
    ensures |r| >= 1 ==> r[0] == Words(s)[0]
    ensures |r| == 2 <==> |Words(s)| >= 2
    ensures |r| == 2 ==> r[1] != [] && !IsSpace(r[1][0])
    ensures |r| == 2 ==> IsSuffix(r[1], s) && Words(r[1]) == Words(s)[1..]
  {
    var t := TrimLeft(s);
    if t == [] then []
    else
      var w := WordPrefix(t);
      var rest := TrimLeft(t[|w|..]);
      FirstWordSplit(s);
      FirstWordRestEmpty(s);
      RestIsSuffix(s);
      if rest == [] then [w] else [w, rest]
  }

  /** After the first word `w` of `s`, the rest with its leading whitespace dropped holds exactly the remaining words. */
  lemma FirstWordSplit(s: string)
    requires TrimLeft(s) != []
    ensures var t := TrimLeft(s); var w := WordPrefix(t); var rest := TrimLeft(t[|w|..]);
      Words(s) != [] && Words(s)[0] == w && Words(s)[1..] == Words(rest)
  {
    var t := TrimLeft(s);
    var w := WordPrefix(t);
    var x := t[|w|..];
    assert Words(s) == [w] + Words(x);
    WordsTrimLeft(x);
    assert ([w] + Words(x))[1..] == Words(x);
  }

  /** The rest after the first word is empty exactly when the text has fewer than two words. */
  lemma FirstWordRestEmpty(s: string)
    requires TrimLeft(s) != []
    ensures var t := TrimLeft(s); var rest := TrimLeft(t[|WordPrefix(t)|..]);
      rest == [] <==> |Words(s)| < 2
  {
    var t := TrimLeft(s);
    var rest := TrimLeft(t[|WordPrefix(t)|..]);
    FirstWordSplit(s);
    WordsEmpty(rest);
  }

  /** `u` is the last `|u|` characters of `s`. */
  predicate IsSuffix(u: string, s: string) {
    |u| <= |s| && forall k :: 0 <= k < |u| ==> u[k] == s[|s| - |u| + k]
  }

  /** What follows the first word, with its leading whitespace dropped, is a suffix of the text. */
  lemma RestIsSuffix(s: string)
    requires TrimLeft(s) != []
    ensures var t := TrimLeft(s); IsSuffix(TrimLeft(t[|WordPrefix(t)|..]), s)
  {
    var t := TrimLeft(s);
    var x := t[|WordPrefix(t)|..];
    var rest := TrimLeft(x);
    SuffixOfSuffix(s, t, x);
    SuffixOfSuffix(s, x, rest);
  }

  /** A suffix of a suffix of `s` is a suffix of `s`. */
  lemma SuffixOfSuffix(s: string, t: string, u: string)
    requires |t| <= |s| && t == s[|s| - |t|..]
    requires |u| <= |t| && u == t[|t| - |u|..]
    ensures IsSuffix(u, s) && u == s[|s| - |u|..]
  {
    assert forall k :: 0 <= k < |u| ==> u[k] == s[|s| - |u| + k];
  }

  /** Leading whitespace does not change the words. */
  lemma WordsTrimLeft(s: string)
    ensures Words(TrimLeft(s)) == Words(s)
  {
    var t := TrimLeft(s);
    assert TrimLeft(t) == t by {
      if t != [] { assert !IsSpace(t[0]); }
    }
  }

  /** A string with no leading whitespace has no words exactly when it is empty. */
  lemma WordsEmpty(s: string)
    requires s == [] || !IsSpace(s[0])
    ensures Words(s) == [] <==> s == []
  {
    if s != [] {
      assert TrimLeft(s) == s;
    }
  }

  /* ---------------- character maps ---------------- */

  /** `s.replace(a, b)` for one-character strings. */
  function Replace(s: string, a: char, b: char): (r: string)
    ensures |r| == |s|
    ensures forall i :: 0 <= i < |s| ==> r[i] == (if s[i] == a then b else s[i])
  {
    seq(|s|, i requires 0 <= i < |s| => if s[i] == a then b else s[i])
  }

  /** `s.replace(c, "")`. */
  function Remove(s: string, c: char): (r: string)
    ensures c !in r
    ensures forall x :: x != c ==> multiset(r)[x] == multiset(s)[x]
    decreases |s|
  {
    if |s| == 0 then ""
    else
      assert s == [s[0]] + s[1..];
      (if s[0] == c then "" else [s[0]]) + Remove(s[1..], c)
  }

  /** Removing from a concatenation removes from each half in turn, so the kept characters stay in order. */
  lemma {:induction false} RemoveAppend(a: string, b: string, c: char)
    ensures Remove(a + b, c) == Remove(a, c) + Remove(b, c)
    decreases |a|
  {
    if a != [] {
      assert (a + b)[0] == a[0];
      assert (a + b)[1..] == a[1..] + b;
      RemoveAppend(a[1..], b, c);
    } else {
      assert a + b == b;
    }
  }

  /** On one character, `replace(c, "")` drops it exactly when it is `c`. */
  lemma RemoveChar(x: char, c: char)
    ensures Remove([x], c) == if x == c then "" else [x]
  {
  }

  /** Removing a character the text does not hold changes nothing. */
  lemma {:induction false} RemoveAbsent(s: string, c: char)
    requires c !in s
    ensures Remove(s, c) == s
    decreases |s|
  {
    if s != [] {
      assert c !in s[1..] by { assert forall i :: 0 <= i < |s| - 1 ==> s[1..][i] == s[i + 1]; }
      RemoveAbsent(s[1..], c);
      assert [s[0]] + s[1..] == s;
    }
  }

  const UpperLetters := "ABCDEFGHIJKLMNOPQRSTUVWXYZ"
  const LowerLetters := "abcdefghijklmnopqrstuvwxyz"

  /** `s.lower()` on ASCII letters; other characters are kept. */
  function Lower(s: string): (r: string)
    ensures |r| == |s|
    ensures forall i :: 0 <= i < |r| ==> !('A' <= r[i] <= 'Z')
    ensures forall i :: 0 <= i < |s| && !('A' <= s[i] <= 'Z') ==> r[i] == s[i]
    ensures forall i, k :: 0 <= i < |s| && 0 <= k < 26 && s[i] == UpperLetters[k] ==> r[i] == LowerLetters[k]
  {
    seq(|s|, i requires 0 <= i < |s| => if 'A' <= s[i] <= 'Z' then (s[i] as int + 32) as char else s[i])
  }

  /** Text with no upper-case ASCII letter is its own lower case. */
  lemma LowerKeeps(s: string)
    requires forall i :: 0 <= i < |s| ==> !('A' <= s[i] <= 'Z')
    ensures Lower(s) == s
  {
  }

  /* ---------------- integers ---------------- */

  predicate IsDigit(c: char) {
    '0' <= c <= '9'
  }

  predicate AllDigits(s: string) {
    forall i :: 0 <= i < |s| ==> IsDigit(s[i])
  }

  /** The value of a string of decimal digits. */
  function DigitsValue(s: string): nat
    requires AllDigits(s)
    decreases |s|
  {
    if |s| == 0 then 0 else DigitsValue(s[..|s| - 1]) * 10 + (s[|s| - 1] as int - '0' as int)
  }

  function DigitChar(d: nat): (c: char)
    requires d < 10
    ensures IsDigit(c) && c as int - '0' as int == d
  {
    ('0' as int + d) as char
  }

  /** `str(n)` for a natural number. */
  function NatToString(n: nat): (r: string)
    ensures r != [] && AllDigits(r)
    ensures DigitsValue(r) == n
    decreases n
  {
    if n < 10 then [DigitChar(n)]
    else
      var r := NatToString(n / 10) + [DigitChar(n % 10)];
      assert r[..|r| - 1] == NatToString(n / 10);
      r
  }

  /** `str(n)`. */
  function IntToString(n: int): (r: string)
    ensures r != [] && NoSpace(r)
    ensures n >= 0 ==> AllDigits(r) && DigitsValue(r) == n
    ensures n < 0 ==> r[0] == '-' && AllDigits(r[1..]) && DigitsValue(r[1..]) == -n
  {
    if n < 0 then "-" + NatToString(-n) else NatToString(n)
  }

  /** The sign and magnitude text of a numeral after `strip()`. */
  function SignSplit(t: string): (bool, string) {
    if |t| > 0 && (t[0] == '-' || t[0] == '+') then (t[0] == '-', t[1..]) else (false, t)
  }

  predicate IsSign(c: char) {
    c == '-' || c == '+'
  }

  /** The text `int()` accepts once stripped: an optional sign, then at least one digit. */
  predicate IntNumeral(t: string) {
    && |t| >= 1
    && (IsDigit(t[0]) || (|t| >= 2 && IsSign(t[0])))
    && forall k :: 1 <= k < |t| ==> IsDigit(t[k])
  }

  /**
   The text `float()` accepts without its sign: digits and at most one `.`,
   and not the point alone.
   */
  predicate DecimalBody(b: string) {
    && |b| >= 1
    && b != "."
    && (forall k :: 0 <= k < |b| ==> IsDigit(b[k]) || b[k] == '.')
    && forall i, j :: 0 <= i < j < |b| && b[i] == '.' ==> b[j] != '.'
  }

  /** The text `float()` accepts once stripped: an optional sign, then a decimal body. */
  predicate DecimalNumeral(t: string) {
    DecimalBody(t) || (|t| >= 1 && IsSign(t[0]) && DecimalBody(t[1..]))
  }

  /** `int(s)` on ASCII decimal text: optional surrounding whitespace, optional sign, digits. */
  function ParseInt(s: string): (r: Option<int>)
    ensures r.Some? ==> Trim(s) != []
    ensures r.Some? ==> IntNumeral(Trim(s))
  {
    var (neg, body) := SignSplit(Trim(s));
    if body != [] && AllDigits(body) then
      Some(if neg then -(DigitsValue(body) as int) else DigitsValue(body))
    else None
  }

  /**
   How `int()` reads stripped text: a plain digit string is its decimal value,
   a negative result needs a leading minus, and text starting with anything
   but a digit or a sign is refused.
   */
  lemma ParseIntReads(s: string)
    ensures var t := Trim(s);
      && (t != [] && AllDigits(t) ==> ParseInt(s) == Some(DigitsValue(t)))
      && (ParseInt(s).Some? && ParseInt(s).value < 0 ==> t[0] == '-')
      && (t != [] && !IsDigit(t[0]) && t[0] != '-' && t[0] != '+' ==> ParseInt(s).None?)
  {
    var t := Trim(s);
    if t != [] && AllDigits(t) {
      assert IsDigit(t[0]);
      assert SignSplit(t) == (false, t);
    } else if t != [] && !IsDigit(t[0]) && t[0] != '-' && t[0] != '+' {
      assert SignSplit(t) == (false, t);
      assert !AllDigits(t);
    }
  }

  /** `int()` accepts every stripped text that is a sign and digits. */
  lemma ParseIntAccepts(s: string)
    requires IntNumeral(Trim(s))
    ensures ParseInt(s).Some?
  {
    var t := Trim(s);
    if IsSign(t[0]) {
      assert forall k :: 0 <= k < |t[1..]| ==> t[1..][k] == t[k + 1];
    } else {
      assert SignSplit(t) == (false, t);
    }
  }

  /** `int(str(n)) == n`. */
  lemma ParseIntToString(n: int)
    ensures ParseInt(IntToString(n)) == Some(n)
  {
    var r := IntToString(n);
    TrimKeeps(r);
    if n >= 0 {
      assert r[0] != '-' && r[0] != '+';
    }
  }

  /** Distinct numbers print differently. */
  lemma IntToStringInjective(a: int, b: int)
    requires IntToString(a) == IntToString(b)
    ensures a == b
  {
    ParseIntToString(a);
    ParseIntToString(b);
  }

  /* ---------------- decimals ---------------- */

  /** The longest prefix of `s` made of digits. */
  function DigitPrefix(s: string): (p: string)
    ensures |p| <= |s| && p == s[..|p|] && AllDigits(p)
    ensures |p| == |s| || !IsDigit(s[|p|])
    decreases |s|
  {
    if |s| == 0 || !IsDigit(s[0]) then [] else [s[0]] + DigitPrefix(s[1..])
  }

  /** The value of the digits after a decimal point, `0.d1d2...`. */
  function FracValue(s: string): (v: real)
    requires AllDigits(s)
    ensures 0.0 <= v < 1.0
    decreases |s|
  {
    if s == [] then 0.0 else ((s[0] as int - '0' as int) as real + FracValue(s[1..])) / 10.0
  }

  /**
   `float(s)` on plain decimal text: optional surrounding whitespace, optional
   sign, digits with at most one `.`, at least one digit. The value is exact.
   */
  function ParseDecimal(s: string): (r: Option<real>)
    ensures r.Some? ==> Trim(s) != []
    ensures r.Some? ==> DecimalNumeral(Trim(s))
  {
    ReadDecimal(Trim(s))
  }

  /** `float()` on text that is already stripped. */
  function ReadDecimal(t: string): (r: Option<real>)
    ensures r.Some? ==> t != [] && DecimalNumeral(t)
  {
    var (neg, body) := SignSplit(t);
    var ip := DigitPrefix(body);
    var rest := body[|ip|..];
    if rest == [] then
      if ip == [] then None
      else
        assert body == ip;
        Some(if neg then -(DigitsValue(ip) as real) else DigitsValue(ip) as real)
    else if rest[0] == '.' && AllDigits(rest[1..]) && (ip != [] || |rest| > 1) then
      var frac := rest[1..];
      var v := DigitsValue(ip) as real + FracValue(frac);
      PointBody(body, ip);
      Some(if neg then -v else v)
    else None
  }

  /** Digits, one point, digits, not the point alone, is a decimal body. */
  lemma PointBody(b: string, ip: string)
    requires |ip| < |b| && ip == b[..|ip|] && AllDigits(ip)
    requires b[|ip|] == '.' && AllDigits(b[|ip| + 1..]) && (ip != [] || |b| > 1)
    ensures DecimalBody(b)
  {
    forall k | 0 <= k < |b|
      ensures IsDigit(b[k]) || b[k] == '.'
    {
      if k < |ip| {
        assert b[k] == ip[k];
      } else if k > |ip| {
        assert b[k] == b[|ip| + 1..][k - |ip| - 1];
      }
    }
    forall i, j | 0 <= i < j < |b| && b[i] == '.'
      ensures b[j] != '.'
    {
      if i == |ip| {
        assert b[j] == b[|ip| + 1..][j - |ip| - 1];
      }
    }
  }

  function Pow10(n: nat): (p: nat)
    ensures p >= 1
  {
    if n == 0 then 1 else 10 * Pow10(n - 1)
  }

  /** The first digit of a numeral weighs `10^(n-1)`. */
  lemma {:induction false} DigitsValueFront(s: string)
    requires |s| >= 1 && AllDigits(s)
    ensures DigitsValue(s) == (s[0] as int - '0' as int) * Pow10(|s| - 1) + DigitsValue(s[1..])
    decreases |s|
  {
    var n := |s|;
    if n >= 2 {
      var init := s[..n - 1];
      DigitsValueFront(init);
      assert init[1..] == s[1..][..n - 2];
      FrontStep(DigitsValue(s), DigitsValue(init), DigitsValue(s[1..]), s[0] as int - '0' as int,
        Pow10(n - 2), Pow10(n - 1), DigitsValue(init[1..]), s[n - 1] as int - '0' as int);
    } else {
      assert s[..0] == [];
    }
  }

  /** One step of `DigitsValueFront`: appending a digit scales the leading digit's weight by ten. */
  lemma FrontStep(whole: int, init: int, tail: int, d: int, p: int, p1: int, mid: int, last: int)
    requires init == d * p + mid && whole == init * 10 + last
    requires tail == mid * 10 + last && p1 == 10 * p
    ensures whole == d * p1 + tail
  {
  }

  /** `v * big == value`, kept behind a name so the solver matches it whole. */
  predicate ScaledEq(v: real, big: nat, value: nat) {
    v * (big as real) == value as real
  }

  /** `0.d1...dn` is `d1...dn / 10^n`. */
  lemma FracValueOf(s: string)
    requires AllDigits(s)
    ensures FracValue(s) == DigitsValue(s) as real / Pow10(|s|) as real
  {
    FracValueScaledAt(s, |s|);
    ScaledBack(FracValue(s), Pow10(|s|), DigitsValue(s));
  }

  lemma ScaledBack(v: real, big: nat, value: nat)
    requires ScaledEq(v, big, value) && big >= 1
    ensures v == value as real / big as real
  {
  }

  /** `0.d1...dn` scaled by `10^n` is `d1...dn`, by induction on the length `n` of `s`. */
  lemma {:induction false} FracValueScaledAt(s: string, n: nat)
    requires AllDigits(s) && n == |s|
    ensures ScaledEq(FracValue(s), Pow10(n), DigitsValue(s))
    decreases n
  {
    if n > 0 {
      var rest := s[1..];
      FracValueScaledAt(rest, n - 1);
      DigitsValueFront(s);
      ShiftDigit(FracValue(s), Pow10(n), DigitsValue(s), s[0] as int - '0' as int, Pow10(n - 1), FracValue(rest), DigitsValue(rest));
    }
  }

  /** One step of the scaling: `(d + f) / 10 * 10p == d * p + f * p`. */
  lemma ShiftDigit(v: real, big: nat, value: nat, d: int, p: nat, f: real, rest: nat)
    requires v == (d as real + f) / 10.0 && big == 10 * p && value == d * p + rest
    requires ScaledEq(f, p, rest)
    ensures ScaledEq(v, big, value)
  {
    assert ((10 * p) as real) == 10.0 * (p as real);
    assert ((d as real + f) / 10.0) * (10.0 * (p as real)) == (d as real + f) * (p as real);
    assert (d * p) as real == (d as real) * (p as real);
  }

  /** A digit string never reaches past a non-digit. */
  lemma {:induction false} DigitPrefixStops(ip: string, rest: string)
    requires AllDigits(ip) && rest != [] && !IsDigit(rest[0])
    ensures DigitPrefix(ip + rest) == ip
    decreases |ip|
  {
    if ip == [] {
      assert ip + rest == rest;
    } else {
      assert (ip + rest)[1..] == ip[1..] + rest;
      DigitPrefixStops(ip[1..], rest);
    }
  }

  /**
   A numeral with a point: `float()` reads `ip.f`, with an optional sign,
   as `ip + f / 10^|f|`.
   */
  lemma ParseDecimalFraction(s: string, sign: string, ip: string, f: string)
    requires sign == "" || sign == "-" || sign == "+"
    requires AllDigits(ip) && AllDigits(f) && (ip != [] || f != [])
    requires Trim(s) == sign + ip + "." + f
    ensures var v := DigitsValue(ip) as real + DigitsValue(f) as real / Pow10(|f|) as real;
      ParseDecimal(s) == Some(if sign == "-" then -v else v)
  {
    PointNumeral(Trim(s), sign, ip, f);
    var x := ParseDecimal(s);
    FractionRead(x, sign == "-", ip, f);
  }

  /** A reading `ip + 0.f` is the reading `ip + f / 10^|f|`. */
  lemma FractionRead(x: Option<real>, neg: bool, ip: string, f: string)
    requires AllDigits(ip) && AllDigits(f)
    requires x == Some(if neg then -(DigitsValue(ip) as real + FracValue(f)) else DigitsValue(ip) as real + FracValue(f))
    ensures var v := DigitsValue(ip) as real + DigitsValue(f) as real / Pow10(|f|) as real;
      x == Some(if neg then -v else v)
  {
    FracValueOf(f);
  }

  /** `float()` reads stripped `sign + ip + "." + f` as `ip + 0.f`, signed. */
  lemma PointNumeral(t: string, sign: string, ip: string, f: string)
    requires sign == "" || sign == "-" || sign == "+"
    requires AllDigits(ip) && AllDigits(f) && (ip != [] || f != [])
    requires t == sign + ip + "." + f
    ensures var w := DigitsValue(ip) as real + FracValue(f);
      ReadDecimal(t) == Some(if sign == "-" then -w else w)
  {
    PointParts(t, sign, ip, f);
    var rest := "." + f;
    assert rest[0] == '.' && rest[1..] == f && |rest| == |f| + 1;
  }

  /** How `ReadDecimal` takes apart `sign + ip + "." + f`. */
  lemma PointParts(t: string, sign: string, ip: string, f: string)
    requires sign == "" || sign == "-" || sign == "+"
    requires AllDigits(ip) && AllDigits(f) && (ip != [] || f != [])
    requires t == sign + ip + "." + f
    ensures var body := ip + "." + f;
      && SignSplit(t) == (sign == "-", body)
      && DigitPrefix(body) == ip
      && body[|ip|..] == "." + f
  {
    var body := ip + "." + f;
    assert body == ip + ("." + f);
    if sign == "" {
      assert t == body;
      assert ip != [] ==> t[0] == ip[0];
    } else {
      assert t[1..] == body;
    }
    DigitPrefixStops(ip, "." + f);
  }

  /**
   How `float()` reads stripped text: a plain digit string is its decimal
   value, a negative result needs a leading minus, and text starting with
   anything but a digit, a sign or a point is refused.
   */
  lemma ParseDecimalReads(s: string)
    ensures var t := Trim(s);
      && (t != [] && AllDigits(t) ==> ParseDecimal(s) == Some(DigitsValue(t) as real))
      && (ParseDecimal(s).Some? && ParseDecimal(s).value < 0.0 ==> t[0] == '-')
      && (t != [] && !IsDigit(t[0]) && t[0] != '-' && t[0] != '+' && t[0] != '.' ==> ParseDecimal(s).None?)
  {
    var t := Trim(s);
    if t != [] && AllDigits(t) {
      ReadDecimalDigits(t);
    }
    ReadDecimalNegative(t);
    if t != [] && !IsDigit(t[0]) && t[0] != '-' && t[0] != '+' && t[0] != '.' {
      ReadDecimalBadStart(t);
    }
  }

  /** A plain digit string reads as its decimal value. */
  lemma ReadDecimalDigits(t: string)
    requires t != [] && AllDigits(t)
    ensures ReadDecimal(t) == Some(DigitsValue(t) as real)
  {
    assert IsDigit(t[0]);
    assert SignSplit(t) == (false, t);
    assert DigitPrefix(t) == t;
  }

  /** Only a leading minus makes the value negative. */
  lemma ReadDecimalNegative(t: string)
    ensures ReadDecimal(t).Some? && ReadDecimal(t).value < 0.0 ==> t[0] == '-'
  {
  }

  /** Text starting with anything but a digit, a sign or a point is refused. */
  lemma ReadDecimalBadStart(t: string)
    requires t != [] && !IsDigit(t[0]) && t[0] != '-' && t[0] != '+' && t[0] != '.'
    ensures ReadDecimal(t).None?
  {
    assert SignSplit(t) == (false, t);
    assert DigitPrefix(t) == [];
  }

  /** Text that `int()` accepts, `float()` accepts with the same value. */
  lemma ParseIntThenDecimal(s: string, n: int)
    requires ParseInt(s) == Some(n)
    ensures ParseDecimal(s) == Some(n as real)
  {
    var (neg, body) := SignSplit(Trim(s));
    var ip := DigitPrefix(body);
    assert ip == body;
  }

  /** `float(str(n)) == n` for integers. */
  lemma ParseDecimalOfIntToString(n: int)
    ensures ParseDecimal(IntToString(n)) == Some(n as real)
  {
    ParseIntToString(n);
    ParseIntThenDecimal(IntToString(n), n);
  }
}
